=== FILE: README.md ===
# Stock-report parsing, permission keys and SQL export — a Dafny model

This project models the pure core of an inventory system for a textile
group (CORTTEX and FATEX). The model covers:

- **Fixed-column stock reports** (`StockReport`, over `Layout`, `Text` and
  `Numbers`). These are the Python parsers of the location-coded reports
  `estsc01.txt` and `confec01.txt` and of the fabric-lot report
  `tecido01.txt`.
  - All three are one pipeline: right-trim, drop blanks and noise, check the
    data-line shape, cut fixed columns, normalise.
  - Each report is a configuration of that pipeline (`Estsc01`,
    `Confec01`, `Tecido01`).
  - A report generator's rendering of a row is modelled as well, so that a
    round trip (render, then parse) can be stated.
- **The upload route** (`Upload`). This is the TypeScript route that accepts
  a report file. The model covers:
  - its own fixed-column line parser (`parseLinhaEstoque`);
  - a writer that lays a record out at the parser's column offsets, so that
    the parser's round trip can be stated (`Upload.RenderParse`);
  - the QUAL/QMM/COR word split;
  - the first-comma quantity;
  - the company detection and the file-name whitelist;
  - the line loop that collects records and numbers up to fifty error lines;
  - the summary it answers with.
- **The older tokenizing parser** (`Estoque`). This is `parse_line` of
  `process_estoque.py`, which splits a line on whitespace runs, plus its
  header scan in `process_file`.
- **Permission keys** (`Permissions`). The model covers:
  - the session library's `permissao:recurso[:valor]` keys,
    `collectUserPermissions`, and `hasPermission` / `hasAnyPermission` /
    `hasAllPermissions` with the super-admin and `admin:` overrides;
  - the service's `(permissao, recurso)` wildcard matcher;
  - the client hook's menu, submenu and admin checks.
- **Export texts** (`SqlText`, `Export`, `Batches`). The model covers:
  - the JavaScript exporter's `escapeSqlValue`, `formatDate`,
    `convertToCSV`, `convertToSQL` and command-line options;
  - the backup script's `formatRecordForSQL`, `getModelName` and per-table
    INSERT batches;
  - the Python exporter's `escapar_valor_sql` and its groups of 1000 rows.
- **Small helpers** (`Dashboard`, `Cores`). These are the dashboard's
  four-way stock status and the stock page's copy of it, plus the colour
  route's `hexToRgb`, display ids and page arithmetic.

Conventions of the model:

- Strings are `seq<char>`.
- Python and JavaScript whitespace differ, so each has its own predicate:
  `Text.IsSpace(Py, c)` and `Text.IsSpace(Js, c)`.
- Python `float()` and JavaScript `parseFloat` are modelled over the plain
  numeral grammar `[+-]? (digits ('.' digits?)? | '.' digits)`, read into an exact
  `Decimal(mantissa, scale)`.
- Out-of-range slices give the empty text, as Python slicing and
  JavaScript `substring` do.
- A parser that returns `None`/`null`, both for a skipped line and for a
  caught exception, returns an `Option`.

The fabric-lot metros scan, when no comma follows the `A`, ends the text at
`a + 2 + 10 + 3`, fifteen places past the `A`; the model follows the code
(`StockReport.MetrosNoComma`).

## Model

| member | source | states |
|---|---|---|
| StockReport.Classify | scripts/process_estsc01.py:82-158 | The outcome of one raw line. It is blank exactly when the line is all whitespace. A record has one field per column, carries no noise prefix or infix, comes from a trimmed line longer than ten characters with `.` second and no leading space (location-coded) or starting with a category and not a `TLS` cross-reference (fabric lots), and holds the fixed columns of the trimmed line |
| StockReport.ParseLine | scripts/process_estsc01.py:77-158 | `None` exactly when the classifier skips the line; a record has one field per column and never comes from a blank line |
| StockReport.Normalize | scripts/process_estsc01.py:113-133 | A text field is the stripped text; a number is `None` for blank text and otherwise read after replacing commas, never failing |
| StockReport.Extract | scripts/process_estsc01.py:97-111 | One field per column, named after it, in column order, of the kind the column declares |
| StockReport.RawText | scripts/process_estsc01.py:97-111 | A column's raw text is never longer than the line (out-of-range slices give `""`) |
| StockReport.RenderParse | scripts/process_estsc01.py:82-151 | A row a report generator writes in a location-coded layout parses back to exactly that row's record (round trip) |
| StockReport.RenderRow | scripts/process_estsc01.py:97-111 | The rendered line holds every value padded in its column, and reading its columns gives the row's record back |
| StockReport.ExtractRendered | scripts/process_estsc01.py:97-133 | Reading the columns of a rendered row gives the row back |
| StockReport.CellRoundTrip | scripts/process_estsc01.py:113-133 | Normalising a padded cell gives back the value it shows, numbers included |
| StockReport.LocationAccepts | scripts/process_estsc01.py:85-92 | A non-blank, non-noise line longer than ten characters with `.` second and no leading space is accepted, and its record is the columns of the trimmed line |
| StockReport.ExtractRStrip | scripts/process_estsc01.py:82-111 | Right-trimming first does not change any fixed column's field |
| StockReport.SameVariant | scripts/process_confec01.py:66-147 | The garment-plant parser is the same configuration as the location-coded one |
| StockReport.SameParser | scripts/process_confec01.py:66-147 | Both location-coded parsers give the same result on every line |
| StockReport.LocationLayouts | scripts/process_estsc01.py:97-111 | The location-coded layout's fifteen columns are ascending and disjoint, with separators between them, so the round trip applies to it |
| StockReport.Estsc01Keys | scripts/process_estsc01.py:135-151 | Every accepted location-coded line yields exactly the fifteen declared keys, in order |
| StockReport.Tecido01Keys | scripts/process_tecido01.py:148-161 | Every accepted fabric-lot line yields exactly the twelve declared keys, in order |
| StockReport.Tecido01Category | scripts/process_tecido01.py:80-82 | Every fabric-lot record comes from a line starting with `TEC ACAB`, `TEC CRU`, `MALHA` or `FIAPO` |
| StockReport.Tecido01CrossReference | scripts/process_tecido01.py:76-78 | A trimmed line longer than ten characters with `.` second that mentions `TLS` never yields a record |
| StockReport.ClassifyAccepts | scripts/process_tecido01.py:67-82 | The converse of the rejections, for either report shape: a non-blank line that is not noise is parsed into the columns of its trimmed form when it is longer than ten characters with `.` second and no leading space (location-coded), or when it starts with a category and is not a cross-reference (fabric lots) |
| StockReport.CategoryAccepts | scripts/process_tecido01.py:67-82 | A non-blank fabric-lot line that is not a header, separator, quality total or `TLS` cross-reference and starts with `TEC ACAB`, `TEC CRU`, `MALHA` or `FIAPO` yields the record of its trimmed columns |
| StockReport.FabricLotShape | scripts/process_tecido01.py:67-82 | The sample fabric lot is already right-trimmed, is not blank, is no header or total, has no `.` second and starts with `TEC ACAB` |
| StockReport.FabricLotParsed | scripts/process_tecido01.py:88-127 | The sample fabric lot is accepted; its type is `TEC ACAB`, its entry date `14/04/24` becomes `2024-04-14` and its posting date `11/08/25` becomes `2025-08-11` |
| StockReport.FabricLotQuantity | scripts/process_tecido01.py:105-112 | On the sample fabric lot the quantity scan reads `62,00`, from two past the `A` to three past the comma |
| StockReport.DateField | scripts/process_tecido01.py:93-99 | A stripped date text padded into a date column is read back as that text's ISO form |
| StockReport.Estsc01Headers | scripts/process_estsc01.py:88-89 | Lines starting with `CORTTEX`, `MAPEAMENTO`, `PERIODO`, `LOCALIZAC` or `---` never yield a record |
| StockReport.Estsc01Totals | scripts/process_estsc01.py:88-89 | A line mentioning `TOTAL` anywhere never yields a record |
| StockReport.Estsc01Misshapen | scripts/process_estsc01.py:92-158 | A trimmed line of ten characters or fewer, without `.` second, or indented, never yields a record |
| StockReport.ShapeRejects | scripts/process_confec01.py:81-147 | The same shape rule holds for any location-coded configuration |
| StockReport.Tecido01Headers | scripts/process_tecido01.py:73-74 | Fabric-lot lines starting with `CORTTEX`, `LOCALIZAC` or `---` never yield a record |
| StockReport.Tecido01Totals | scripts/process_tecido01.py:73-74 | A fabric-lot line mentioning `TOTAL QUAL` never yields a record |
| StockReport.NoiseRejects | scripts/process_tecido01.py:73-74 | Any noise line never yields a record, for every configuration |
| StockReport.PrefixRejects | scripts/process_confec01.py:77-78 | A line starting with any noise prefix never yields a record |
| StockReport.InfixRejects | scripts/process_confec01.py:77-78 | A line holding any noise infix never yields a record |
| StockReport.ExtractIgnores | scripts/process_estsc01.py:97-111 | A character outside every fixed column never reaches a field |
| StockReport.ExtractPrefix | scripts/process_estsc01.py:97-111 | Characters past the last column never reach a field |
| StockReport.Estsc01Separators | scripts/process_estsc01.py:97-111 | The separator positions 10, 19, 44, …, 132 and everything from 142 on never reach a location-coded field |
| StockReport.Estsc01SampleHead | scripts/process_estsc01.py:95-98 | On the sample line the location is `1.01.A.001` and the code `0700278` |
| StockReport.PlainField | scripts/process_estsc01.py:97-111 | A stripped text padded into a text column is read back as that text |
| StockReport.DateToIso | scripts/process_tecido01.py:92-101 | A date text gives a result exactly when it has exactly two `/` |
| StockReport.DateRoundTrip | scripts/process_tecido01.py:95-99 | `D/M/Y` becomes `20Y-zfill(M)-zfill(D)` for any slash-free parts |
| StockReport.DateExample | scripts/process_tecido01.py:93-99 | `14/04/24` becomes `2024-04-14`, and `45/13/24` becomes `2024-13-45`: no range is checked |
| StockReport.DateZeroFill | scripts/process_tecido01.py:99 | `1/4/24` becomes `2024-04-01`: day and month are zero-filled |
| StockReport.DateRejects | scripts/process_tecido01.py:95-101 | Texts without `/`, or not splitting into three parts, give `None` |
| StockReport.MetrosAbsent | scripts/process_tecido01.py:106-108 | With no `A` at or after index 50 the metros text is empty |
| StockReport.MetrosToComma | scripts/process_tecido01.py:107-112 | With the first such `A` at `a` and the next comma at `c`, the metros text is the slice from `a+2` to `c+3` |
| StockReport.MetrosNoComma | scripts/process_tecido01.py:109-112 | With no comma after it, the metros text is the slice from `a+2` to `a+15` |
| Layout.AscendingTiled | scripts/process_estsc01.py:97-111 | Non-empty fixed ranges, each ending before the next starts, are pairwise disjoint with a separator between any two |
| Layout.RenderContains | scripts/process_estsc01.py:88-89 | A non-empty pattern without spaces found in a rendered row occurs within one cell's text |
| Upload.ParseStockLine | app/api/estoque/carregar-base/route.ts:24-99 | A line gives a record exactly when it is not blank, mentions no header phrase, and has a location, a code, a unit and a positive quantity; the record is the fields at the route's offsets |
| Upload.Accepts | app/api/estoque/carregar-base/route.ts:27-77 | The same acceptance stated column by column |
| Upload.Fields | app/api/estoque/carregar-base/route.ts:66-72 | Each weight is `undefined` exactly when its text is blank |
| Upload.Cut | app/api/estoque/carregar-base/route.ts:38-40 | A trimmed substring is stripped, and empty exactly when the substring is blank |
| Upload.OrUndefined | app/api/estoque/carregar-base/route.ts:54-61 | Empty text becomes `undefined`, other text stays as it is |
| Upload.QualityBlock | app/api/estoque/carregar-base/route.ts:43-47 | A QMM word never appears without a QUAL word |
| Upload.QualityRoundTrip | app/api/estoque/carregar-base/route.ts:43-47 | Words written with single spaces come back as QUAL, QMM and the rest joined as COR, which is `undefined` when there is no third word |
| Upload.QualityShort | app/api/estoque/carregar-base/route.ts:43-47 | A single word is QUAL alone; a blank block gives three `undefined`s |
| Upload.Quantity | app/api/estoque/carregar-base/route.ts:50-51 | A non-zero quantity is the number read after replacing the first comma; anything unreadable is 0 |
| Upload.QuantityFirstComma | app/api/estoque/carregar-base/route.ts:50-51 | `ip,fp…` reads as `ip.fp`, whatever follows the fraction |
| Upload.CommaToPoint | app/api/estoque/carregar-base/route.ts:50 | Only the first comma becomes a point |
| Upload.Weight | app/api/estoque/carregar-base/route.ts:67-72 | A weight is `undefined` exactly for blank text |
| Upload.NoCode | app/api/estoque/carregar-base/route.ts:75-77 | A line whose code columns are blank is no record |
| Upload.ClassifyLines | app/api/estoque/carregar-base/route.ts:167-184 | The loop's records are every parsed line in order, and its errors are the first fifty reportable lines, each with its 1-based number and its first fifty characters |
| Upload.RenderParse | app/api/estoque/carregar-base/route.ts:24-99 | A record written at the route's column offsets (stripped texts that fit their columns, single-spaced QUAL/QMM/COR words, a positive quantity and weights written with a decimal comma), on a line mentioning no header phrase, parses back to that same record |
| Upload.QualityOfText | app/api/estoque/carregar-base/route.ts:43-47 | The QUAL/QMM/COR text a writer puts in the shared column splits back into the record's QUAL, QMM and COR |
| Upload.QuantityOfFormat | app/api/estoque/carregar-base/route.ts:50-51 | A quantity written with a decimal comma reads back as itself |
| Upload.WeightOfText | app/api/estoque/carregar-base/route.ts:66-72 | A weight written as nothing, `NaN` or a comma decimal reads back as `undefined`, `NaN` or itself |
| Upload.ShownBack | app/api/estoque/carregar-base/route.ts:54-61 | An optional text that is absent or non-empty and stripped survives `|| undefined` |
| Upload.Advance | app/api/estoque/carregar-base/route.ts:170-184 | One loop step appends the line's record, or its error while fewer than fifty are listed |
| Upload.CapStep | app/api/estoque/carregar-base/route.ts:180-182 | Appending an error extends the first fifty only while there is room |
| Upload.RecordsSound | app/api/estoque/carregar-base/route.ts:172-175 | Every record comes from a line of the upload |
| Upload.RecordsComplete | app/api/estoque/carregar-base/route.ts:172-175 | Every accepted line contributes its record |
| Upload.ReportedSound | app/api/estoque/carregar-base/route.ts:176-182 | Each error names a reportable line by its number and quotes its first fifty characters |
| Upload.ReportedOrdered | app/api/estoque/carregar-base/route.ts:170-182 | Errors come in line order |
| Upload.ReportedComplete | app/api/estoque/carregar-base/route.ts:176-182 | Every reportable line is reported |
| Upload.HeaderNeverReported | app/api/estoque/carregar-base/route.ts:176-178 | A line the parser drops as a header is never reported as an error, because each header phrase starts with a loop word |
| Upload.Unreadable | app/api/estoque/carregar-base/route.ts:176-181 | A one-character visible line is no record and is reported |
| Upload.SummaryAsWritten | app/api/estoque/carregar-base/route.ts:214-221 | The route's summary: total is the records, invalid is the errors, valid plus invalid is total, at most the first five errors |
| Upload.NegativeValidCount | app/api/estoque/carregar-base/route.ts:216 | For the upload `["X"]` the route's valid count is −1 |
| Upload.Summarize | app/api/estoque/carregar-base/route.ts:214-221 | The corrected summary: the valid count is the number of records and is never negative |
| Upload.Company | app/api/estoque/carregar-base/route.ts:101-112 | The company is `CORTTEX`, `FATEX` or `DESCONHECIDA` |
| Upload.CompanyFirst | app/api/estoque/carregar-base/route.ts:103-110 | The first line naming a company decides it, with CORTTEX checked first within a line |
| Upload.CompanyUnknown | app/api/estoque/carregar-base/route.ts:101-112 | `DESCONHECIDA` exactly when no line names a company |
| Upload.SupportedIgnoresCase | app/api/estoque/carregar-base/route.ts:149-150 | The whitelist check ignores case: a name passes exactly when its lower-cased form does |
| Upload.Upload | app/api/estoque/carregar-base/route.ts:136-224 | An unsupported name is refused, and only that; otherwise the company and the counts of records and capped errors come from the lines split at newlines |
| Estoque.ParseLine | scripts/process_estoque.py:6-71 | A row exactly when the line is not blank and has at least fourteen tokens; its location and code are visible tokens |
| Estoque.ParseTokens | scripts/process_estoque.py:22-64 | A row exactly for fourteen or more tokens, with location token 0, code token 1, and numbers free of commas |
| Estoque.Tokens | scripts/process_estoque.py:19 | The tokens of a line contain no whitespace, and none is empty for a non-blank line |
| Estoque.TokenOr | scripts/process_estoque.py:45-49 | A missing trailing token is `''` |
| Estoque.Dotted | scripts/process_estoque.py:42 | A numeric token keeps its length and characters, with every comma made a point |
| Estoque.BlankLine | scripts/process_estoque.py:14-15 | A blank line has no row |
| Estoque.TokensRoundTrip | scripts/process_estoque.py:19-33 | Visible tokens written with single spaces split back into the same tokens, and the line's row is the tokens' row |
| Estoque.NarrowIsShiftedWide | scripts/process_estoque.py:35-64 | A fourteen-token row is the fifteen-token row with the nickname's fourth word removed and every later field shifted down by one |
| Estoque.ProcessFile | scripts/process_estoque.py:83-107 | At most one row, present exactly when the first data line after a `LOCALIZAC.`/`CODIGO` header parses, and then that line's row |
| Estoque.Skip | scripts/process_estoque.py:85-98 | A line the scan passes over is no data line, and the scan has seen a header exactly when one occurred |
| Estoque.FirstDataUnique | scripts/process_estoque.py:98-107 | There is at most one first data line |
| Permissions.Key | lib/auth.ts:103 | A key starts with `permissao:recurso` and equals it exactly when the value is empty; otherwise `:valor` follows |
| Permissions.CollectUserPermissions | lib/auth.ts:91-123 | A super admin gets exactly `['super_admin']`. For an ordinary user, each of the first positions holds its role grant's key or some user grant's key; a role key that no user grant's base key prefixes stays in place; every later position holds a user grant's key; without user grants the list is the role keys; user grants keep the list at least as long and at most one longer per grant |
| Permissions.CollectedKeysGranted | lib/auth.ts:100-120 | Every collected key is the key of a role grant or a user grant |
| Permissions.Override | lib/auth.ts:110-118 | When some key starts with the grant's base key, the first such key, and only it, is replaced in place by the grant's key; when none does, the grant's key is appended; the list grows exactly when nothing matched |
| Permissions.FindPrefix | lib/auth.ts:113 | The index found is the first key starting with the prefix, or −1 when none does |
| Permissions.OverrideAll | lib/auth.ts:109-120 | User grants applied in order never shrink the list and add at most one key each; the last grant's key is present; each original position keeps its key or holds a grant's key, and keeps it when no grant's base key prefixes it; appended positions hold grant keys |
| Permissions.GrantKeys | lib/auth.ts:101-106 | Role keys appear in the role's order, one per grant, each the key of its grant |
| Permissions.OverrideFirstOnly | lib/auth.ts:113-115 | With two keys `r:m:1` and `r:m:2` matching the grant `r:m`, only the first is replaced: the result is `[r:m, r:m:2]` |
| Permissions.OverrideMatchesPrefix | lib/auth.ts:113 | The match is by prefix: `read:menu` replaces `read:menu:dashboard` |
| Permissions.HasPermissionExactly | lib/auth.ts:192-214 | Access is granted exactly to super admins, to lists holding `super_admin`, or to lists holding one of the exact key, the key without value, `admin:<recurso>` or `admin:todos` |
| Permissions.Granting | lib/auth.ts:198-210 | The granting keys include the exact key, `admin:todos` and `super_admin` |
| Permissions.NoPermissionsDenied | lib/auth.ts:197-213 | Without permissions an ordinary session is denied |
| Permissions.HasPermissionMonotone | lib/auth.ts:197-213 | More keys never take access away |
| Permissions.HasAnyPermission | lib/auth.ts:217-221 | True exactly when some check passes, so false for none |
| Permissions.HasAllPermissions | lib/auth.ts:224-228 | True exactly when every check passes, so true for none |
| Permissions.ChecksMonotone | lib/auth.ts:217-228 | More keys never turn a passing any/all check into a failing one |
| Permissions.SuperAdminCollected | lib/auth.ts:194 | A super admin's collected keys pass every check |
| Permissions.ServiceHasPermission | services/AuthService.ts:91-98 | Granted exactly to a super admin or when some entry has the permission or `admin` on the resource or `todos` |
| Permissions.ServiceWildcards | services/AuthService.ts:95-96 | `(p, todos)` grants `p` everywhere; `(admin, todos)` grants everything |
| Permissions.ServiceMonotone | services/AuthService.ts:94-97 | More entries never revoke access, and no entries deny an ordinary user |
| Permissions.HookUsesLibraryKeys | components/useUserPermissions.ts:56-64 | For an ordinary user the menu and submenu checks look for exactly the library's `read:menu:<n>` / `read:submenu:<p>` key |
| Permissions.HookIgnoresAdminOverride | components/useUserPermissions.ts:56-59 | `admin:todos` passes the library's menu check but not the hook's, even with `isAdmin` |
| Permissions.HookAdminArea | components/useUserPermissions.ts:66 | `admin:todos` alone does not open the admin area; `isAdmin` alone opens it but no menu |
| Permissions.HookSuperAdmin | components/useUserPermissions.ts:56-66 | A super admin passes every hook check |
| SqlText.QuotedRoundTrip | extract-data.js:99 | Removing the outer quotes and undoubling a string's literal gives the string back |
| SqlText.QuotedInjective | extract-data.js:99 | Distinct strings have distinct literals |
| SqlText.UndoubleDouble | extract-data.js:99 | Undoubling inverts quote doubling |
| SqlText.Double | extract-data.js:99 | Doubling adds one character per quote |
| SqlText.EscapeStringRoundTrip | extract-data.js:96-101 | A string's SQL value reads back as the string |
| SqlText.BackupDateAgrees | scripts/backup-database.js:293 | Cutting to 19 characters and then replacing `T` gives the same text as the exporter's replace-then-cut |
| SqlText.BackupValueAgrees | scripts/backup-database.js:289-295 | The backup script writes every value exactly as `escapeSqlValue` does |
| SqlText.FormatRecord | scripts/backup-database.js:288-298 | A record's values are in parentheses |
| SqlText.BackupValues | scripts/backup-database.js:289-295 | One value per field, each the field's formatted value |
| SqlText.DateTextsAgree | scripts/export_database_sql.py:73-74 | For four-digit years the JavaScript date text and Python's `%Y-%m-%d %H:%M:%S` agree |
| SqlText.ExportersAgree | scripts/export_database_sql.py:68-72 | The JavaScript and Python exporters agree on nulls, strings and integers |
| SqlText.ExportersAgreeOnDates | scripts/export_database_sql.py:73-74 | They agree on datetimes of four-digit years |
| SqlText.ExportersDifferOnBooleans | scripts/export_database_sql.py:77-78 | They differ on booleans: `1`/`0` against `True`/`False` |
| SqlText.IntText | extract-data.js:101 | An integer's text is non-empty and holds no quote |
| SqlText.Pad | extract-data.js:92 | A padded number has exactly the width asked, all digits |
| Export.CsvCell | extract-data.js:116-123 | Null is empty; a string with `;` is quoted so that it reads back; other strings are verbatim; other values as shown |
| Export.CsvCells | extract-data.js:116-123 | One cell per header, each the header's value |
| Export.ConvertToCsv | extract-data.js:105-106 | No rows give the empty text |
| Export.CsvLines | extract-data.js:105-128 | Without line breaks in the values, the CSV text has one line more than rows; the header line splits back into the first row's keys and line `k+1` is row `k` |
| Export.CsvLineCells | extract-data.js:115-124 | Without `;` in the cells, a row line splits into exactly one cell per header |
| Export.HeaderLine | extract-data.js:108-112 | The header line splits back into the headers |
| Export.ConvertToSql | extract-data.js:131-132 | The SQL text is empty exactly for no rows |
| Export.SqlStatements | extract-data.js:131-170 | The statements start with the TRUNCATE comment and end with `COMMIT;`; each batch of at most a hundred rows gives one INSERT, so there are `ceil(n/100)` of them |
| Export.SqlBatches | extract-data.js:149-151 | The batches hold every row once and in order, at most a hundred each, `ceil(n/100)` of them |
| Export.BatchStatements | extract-data.js:157-160 | Each batch writes four statements, one an INSERT |
| Export.BackupTable | scripts/backup-database.js:207-225 | An empty table writes nothing; otherwise `ceil(n/100)` INSERT statements after the TRUNCATE |
| Export.BackupInserts | scripts/backup-database.js:213-219 | One INSERT per batch |
| Export.BackupRowAgrees | scripts/backup-database.js:215-216 | For distinct keys, the backup's row tuple is the exporter's row tuple under the record's own keys |
| Export.PyDataSection | scripts/export_database_sql.py:98-111 | No rows write nothing; otherwise `ceil(n/1000)` INSERT statements |
| Export.PyGroups | scripts/export_database_sql.py:105-108 | The groups hold every row tuple once and in order, at most a thousand each |
| Export.ModelName | scripts/backup-database.js:265-286 | A known table gives its mapped model; any other name is returned unchanged |
| Export.TablesHaveModels | scripts/backup-database.js:266-283 | The mapping knows exactly the sixteen tables the exporter lists |
| Export.ModelNameInverse | scripts/backup-database.js:266-283 | A known table's model leads back to the table |
| Export.ModelsDistinct | scripts/backup-database.js:266-283 | Two known tables never share a model |
| Export.Decide | extract-data.js:486-563 | Help first; an unknown format is refused exactly when help is not asked; an unknown table exactly when help is not asked and the format is supported; otherwise something is extracted: the full backup exactly when `--backup` is set, one table exactly when there is no backup and a table is named (and it is that table), all tables exactly when neither and `all` is on, and nothing when `all` is off without a table name |
| Export.TableClearsAll | extract-data.js:461-464 | `--table` turns `all` off unless `--all` follows |
| Export.AllStaysOff | extract-data.js:459-484 | Once off, `all` stays off unless `--all` comes later |
| Export.NoFlags | extract-data.js:459-484 | Arguments without flags leave the options as they were |
| Export.OneTableChosen | extract-data.js:459-548 | `--table <known table>` extracts that one table |
| Export.DefaultsExtractAll | extract-data.js:448-456 | Without arguments the options are the defaults and every table is extracted, as the help text's "(padrão)" for `--all` says |
| Export.BackupChosen | extract-data.js:474-475 | `--backup` alone makes the full backup |
| Export.TableWithoutName | extract-data.js:461-464 | `--table` as the last argument leaves no table name and turns `all` off, so nothing is extracted |
| Batches.Chunks | scripts/backup-database.js:212-214 | `ceil(n/size)` batches, each of 1 to `size` items, all but the last full |
| Batches.ChunksFlatten | scripts/backup-database.js:213-214 | The batches put back together are the list |
| Batches.HundredBatches | extract-data.js:149-150 | A hundred per batch makes `ceil(n/100)` batches |
| Batches.ThousandBatches | scripts/export_database_sql.py:106-107 | A thousand per group makes `ceil(n/1000)` groups |
| Batches.ChunksEmpty | scripts/backup-database.js:207 | No batch exactly for no items |
| Dashboard.StatusEstoque | app/api/estoque/dashboard/route.ts:145-150 | No stock when `atual <= 0`; low when `0 < atual <= minimo`; excess when above the minimum and `atual >= maximo`; normal exactly when `minimo < atual < maximo` and `atual > 0` |
| Dashboard.LowBeforeExcess | app/api/estoque/dashboard/route.ts:147-148 | Low wins over excess when both hold, because the checks run in order |
| Dashboard.LabelRoundTrip | app/api/estoque/dashboard/route.ts:145-150 | The four labels are distinct and each reads back as its state |
| Dashboard.PageStatus | app/executivo/estoque/page.tsx:96-101 | The page's copy is out of stock exactly at zero |
| Dashboard.CopiesAgree | app/executivo/estoque/page.tsx:96-101 | The two copies agree exactly when the stock is not negative |
| Cores.HexDigits | app/api/executivo/cores/route.ts:122 | The pattern matches exactly six hex digits, with an optional leading `#`, and gives those digits |
| Cores.HexToRgb | app/api/executivo/cores/route.ts:121-126 | Anything else gives `0, 0, 0`; a match gives three channels below 256 |
| Cores.SixDigits | app/api/executivo/cores/route.ts:124 | Each channel is the base-16 value of its digit pair, with or without `#` |
| Cores.HexRoundTrip | app/api/executivo/cores/route.ts:121-126 | Three channels written in hex convert back to themselves |
| Cores.White | app/api/executivo/cores/route.ts:124 | `#FFFFFF` gives `255, 255, 255` |
| Cores.IgnoresCase | app/api/executivo/cores/route.ts:122 | A colour converts the same as its lower-case form |
| Cores.Channel | app/api/executivo/cores/route.ts:124 | A channel is below 256 |
| Cores.DisplayId | app/api/executivo/cores/route.ts:58 | `COR-` followed by the id's decimal digits zero-padded to three: the length is 4 plus the larger of 3 and the digit count, the text ends with the id's digits, only zeros stand between `COR-` and them, and the digits' value is the id |
| Numbers.ZeroPadShape | app/api/executivo/cores/route.ts:58 | `padStart` with zeros keeps the text at the end and puts only zeros in front |
| Cores.DisplayIdInjective | app/api/executivo/cores/route.ts:58 | Distinct colours get distinct display ids |
| Cores.TotalPages | app/api/executivo/cores/route.ts:95 | A positive limit gives the ceiling of count over limit; a negative limit gives the ceiling of the negative quotient, the `n` with `n*limit <= count < (n-1)*limit`; a zero limit gives infinity, or not a number for no rows |
| Cores.TotalPagesCeil | app/api/executivo/cores/route.ts:95 | The page count covers every row and has no page to spare |
| Cores.PageIsBatch | app/api/executivo/cores/route.ts:12 | Page `p` skips `(p-1)*limit` rows and shows the `p`-th batch of the listing |
| Cores.NextPageExists | app/api/executivo/cores/route.ts:101-102 | A next page exists exactly when the page is before the last, and then its rows exist |
| Text.SplitJoin | app/api/estoque/carregar-base/route.ts:102 | Splitting text joined from separator-free parts at the separator gives the parts back |
| Text.SplitRunsJoin | app/api/estoque/carregar-base/route.ts:44 | Splitting single-space-joined visible words on whitespace runs gives the words back |
| Text.StripPadRight | scripts/process_estsc01.py:97 | Stripping a stripped text padded with spaces to any width gives the text back |
| Text.LowerTwice | app/api/estoque/carregar-base/route.ts:149 | Lower-casing is idempotent |
| Numbers.ParseFormat | scripts/process_estsc01.py:117 | Reading a decimal's canonical point-decimal text gives the decimal back |
| Numbers.ParseFormatComma | scripts/process_estsc01.py:117 | A decimal written with a comma, read after replacing every comma by a point, is the decimal again |
| Numbers.FirstCommaBack | app/api/estoque/carregar-base/route.ts:50 | Replacing only the first comma of a comma-decimal rendering gives the point-decimal rendering back, since the rendering holds one comma at most |
| Numbers.ParseFloatAgrees | app/api/estoque/carregar-base/route.ts:51 | On text that is one whole numeral not starting with whitespace, `parseFloat` reads the same number as the reports' numeral grammar |

## Left out

- Database access: the connections, the table-creation helpers and the INSERT loops of the three parser scripts; the Prisma transaction and the duplicate-file lookup of the upload route; and every other Prisma and MySQL call. These are I/O. The upload route's answer is modelled without them (`Upload.Upload`).
- File reading and decoding (`open(..., errors='ignore')`, `file.text()`), CSV/JSON/SQL file writing, prints and logging. These are I/O.
- Floating point: Python `float()` and JavaScript `parseFloat` are modelled over the plain numeral grammar only. Exponents, `inf`/`nan`, Python's underscores and leading or trailing garbage other than what `parseFloat` stops at are left out. The results are exact decimals, not doubles.
- The regular-expression header extractors `extrairCentroResponsavel` and `extrairArmazem`. They depend on regex engine semantics and feed nothing else in the model.
- Password hashing, tokens, cookies, `verifyRequest`, `authenticateUser` and the service's token code. These are foreign libraries and database access.
- React pages and components. The one exception is the stock page's status copy, which is modelled for the comparison with the dashboard route (`Dashboard.PageStatus`).
- A date's `toString` in the CSV exporter depends on the process's time zone. It is a parameter (`dateText`) of the CSV functions.
- The backup script's `createFullBackup`, the exporter's `validateExtractedData` and the JSON output format. These are file-system work.
- Python's `%Y` for years below 1000 is platform-dependent. `SqlText.PyDateText` writes the year without padding, and the two exporters are compared only for four-digit years (`SqlText.DateTextsAgree`).
- Cores.TotalPages: a limit that `parseInt` reads as not a number is not modelled; the limit is an integer. How the database treats a negative `take` is outside the model.
- Permissions.HasPermission carries no contract of its own. Its property is stated by `Permissions.HasPermissionExactly`, against the independent `Permissions.Granting` set.
- Permissions.CanAccessMenu, Permissions.CanAccessSubmenu and Permissions.CanAccessAdmin carry no contract of their own. Their properties are stated by `Permissions.HookUsesLibraryKeys`, `Permissions.HookAdminArea` and `Permissions.HookSuperAdmin`.
- Upload.Upload answers with the corrected summary (`Upload.Summarize`). The route's own valid count is modelled by `Upload.SummaryAsWritten`; see Findings.
- Upload.ClassifyLines: each error is a number and an excerpt, not the formatted message `Linha N: Formato inválido - …`; the message text adds nothing.
- Estoque.ProcessFile stops after the first data line, as the source does for debugging. Writing the CSV file is left out.
- Upload.ParseStockLine: a Dafny `char` is one Unicode scalar value, while JavaScript's `substring` counts UTF-16 code units. For lines with characters outside the Basic Multilingual Plane the route's columns shift against the model's, and its fifty-character excerpts can split a surrogate pair. The model agrees with the route on lines without such characters.
- Export.ModelName: the lookup `mapping[tableName] || tableName` also finds names inherited by every JavaScript object, such as `constructor`; the model's table is only the listed names.
- Dashboard.StatusEstoque: a stock level that is `NaN` fails every comparison and is classified `Normal` by the route; the model's levels are exact reals, so that case does not arise.
- Only ASCII letters are lower-cased (`Text.Lower`). The one non-ASCII character JavaScript lowers to ASCII, the Kelvin sign, lowers to `k`, which no whitelisted file name contains. So the whitelist check is unaffected.

## Findings

| source | as written | input that shows it | evidently intended | confidence | as-written member | corrected member |
|---|---|---|---|---|---|---|
| app/api/estoque/carregar-base/route.ts:216 | `registrosValidos` is the number of parsed records minus the number of reported error lines, although an error line is never a parsed record | an upload whose only line is `X`: no record, one reported error, so the valid count is −1 | the valid count is the number of parsed records, never negative | not executed | Upload.NegativeValidCount | Upload.Summarize |

=== FILE: base.dfy ===
/** Optional values: Python's `None` and JavaScript's `null`/`undefined`
    against a present value. */
module Base {

  datatype Option<+T> = None | Some(value: T) {

    /** The value, or `default` when absent. */
    function GetOr(default: T): T {
      match this
      case Some(v) => v
      case None => default
    }
  }
}

=== FILE: batches.dfy ===
/** Cutting a list into consecutive batches of at most a fixed size, as the
    exporters do before writing one INSERT statement per batch. */
module Batches {

  /** The number of batches of at most `size` that `n` items make. */
  function BatchCount(n: nat, size: nat): nat
    requires size > 0
  {
    if n == 0 then 0 else if n <= size then 1 else 1 + BatchCount(n - size, size)
  }

  /** JavaScript `for (i = 0; i < xs.length; i += size) xs.slice(i, i + size)`
      and Python `for i in range(0, len(xs), size): xs[i:i + size]`. */
  function Chunks<T>(xs: seq<T>, size: nat): (r: seq<seq<T>>)
    requires size > 0
    ensures |r| == BatchCount(|xs|, size)
    ensures forall b | 0 <= b < |r| :: 1 <= |r[b]| <= size
    ensures forall b | 0 <= b < |r| - 1 :: |r[b]| == size
    decreases |xs|
  {
    if xs == [] then []
    else if |xs| <= size then [xs]
    else [xs[..size]] + Chunks(xs[size..], size)
  }

  /** Batches of one hundred: `ceil(n / 100)` of them. */
  lemma {:induction false} HundredBatches(n: nat)
    ensures BatchCount(n, 100) == (n + 99) / 100
    decreases n
  {
    if n > 100 {
      HundredBatches(n - 100);
    }
  }

  /** Batches of one thousand: `ceil(n / 1000)` of them. */
  lemma {:induction false} ThousandBatches(n: nat)
    ensures BatchCount(n, 1000) == (n + 999) / 1000
    decreases n
  {
    if n > 1000 {
      ThousandBatches(n - 1000);
    }
  }

  /** The batches one after another. */
  function Flatten<T>(xss: seq<seq<T>>): seq<T> {
    if xss == [] then [] else xss[0] + Flatten(xss[1..])
  }

  /** The batches, put back together, are the list: every element is
      written once and in order. */
  lemma {:induction false} ChunksFlatten<T>(xs: seq<T>, size: nat)
    requires size > 0
    ensures Flatten(Chunks(xs, size)) == xs
    decreases |xs|
  {
    if xs != [] && |xs| > size {
      ChunksFlatten(xs[size..], size);
      var r := Chunks(xs, size);
      assert r[1..] == Chunks(xs[size..], size);
      assert xs == xs[..size] + xs[size..];
    }
  }

  /** No list gives no batch, and a non-empty one at least one. */
  lemma ChunksEmpty<T>(xs: seq<T>, size: nat)
    requires size > 0
    ensures Chunks(xs, size) == [] <==> xs == []
  {
  }
}

=== FILE: cores.dfy ===
/** The colours route's helpers: the hex-to-RGB text conversion, the
    display id of a colour and the page arithmetic of its listing. */
module Cores {
  import opened Base
  import opened Text
  import opened Numbers
  import opened Batches

  // ---------------------------------------------------------------------
  // Hex colours

  predicate IsHex(c: char) {
    '0' <= c <= '9' || 'a' <= c <= 'f' || 'A' <= c <= 'F'
  }

  predicate AllHex(s: string) {
    forall k | 0 <= k < |s| :: IsHex(s[k])
  }

  function HexValue(c: char): (v: nat)
    requires IsHex(c)
    ensures v < 16
  {
    if '0' <= c <= '9' then (c as int - '0' as int) as nat
    else if 'a' <= c <= 'f' then (c as int - 'a' as int + 10) as nat
    else (c as int - 'A' as int + 10) as nat
  }

  /** The six digits the pattern `^#?([a-f\d]{2}){3}$`, ignoring case,
      captures; `None` when it does not match. */
  function HexDigits(hex: string): (r: Option<string>)
    ensures r.Some? <==> (|hex| == 6 && AllHex(hex)) || (|hex| == 7 && hex[0] == '#' && AllHex(hex[1..]))
    ensures r.Some? ==> |r.value| == 6 && AllHex(r.value) && r.value == hex[|hex| - 6..]
  {
    if |hex| == 7 && hex[0] == '#' && AllHex(hex[1..]) then Some(hex[1..])
    else if |hex| == 6 && AllHex(hex) then
      assert hex[0] != '#';
      Some(hex)
    else None
  }

  /** `parseInt(pair, 16)` of two hex digits. */
  function Channel(hi: char, lo: char): (v: nat)
    requires IsHex(hi) && IsHex(lo)
    ensures v < 256
  {
    16 * HexValue(hi) + HexValue(lo)
  }

  /** Three channels written `r, g, b`. */
  function RgbText(r: nat, g: nat, b: nat): string {
    NatToDigits(r) + ", " + NatToDigits(g) + ", " + NatToDigits(b)
  }

  const Black := "0, 0, 0"

  /** `hexToRgb`: the three channels of a six-digit hex colour, or black. */
  function HexToRgb(hex: string): (r: string)
    ensures HexDigits(hex).None? ==> r == Black
    ensures HexDigits(hex).Some? ==> exists cr: nat, cg: nat, cb: nat | cr < 256 && cg < 256 && cb < 256 :: r == RgbText(cr, cg, cb)
  {
    match HexDigits(hex)
    case None => Black
    case Some(d) => RgbText(Channel(d[0], d[1]), Channel(d[2], d[3]), Channel(d[4], d[5]))
  }

  /** The upper-case hex digit of a value below sixteen. */
  function HexChar(v: nat): (c: char)
    requires v < 16
    ensures IsHex(c) && HexValue(c) == v
  {
    if v < 10 then ('0' as int + v) as char else ('A' as int + v - 10) as char
  }

  /** Two hex digits for a channel. */
  function HexPair(v: nat): (r: string)
    requires v < 256
    ensures |r| == 2 && AllHex(r) && Channel(r[0], r[1]) == v
  {
    [HexChar(v / 16), HexChar(v % 16)]
  }

  /** Six hex digits, with or without a leading `#`, convert pair by pair. */
  lemma SixDigits(d: string)
    requires |d| == 6 && AllHex(d)
    ensures HexToRgb(d) == RgbText(Channel(d[0], d[1]), Channel(d[2], d[3]), Channel(d[4], d[5]))
    ensures HexToRgb("#" + d) == RgbText(Channel(d[0], d[1]), Channel(d[2], d[3]), Channel(d[4], d[5]))
  {
    assert ("#" + d)[1..] == d;
  }

  /** Writing three channels in hex and converting back gives the channels:
      the conversion inverts hex formatting, with or without the `#`. */
  lemma HexRoundTrip(cr: nat, cg: nat, cb: nat)
    requires cr < 256 && cg < 256 && cb < 256
    ensures HexToRgb(HexPair(cr) + HexPair(cg) + HexPair(cb)) == RgbText(cr, cg, cb)
    ensures HexToRgb("#" + HexPair(cr) + HexPair(cg) + HexPair(cb)) == RgbText(cr, cg, cb)
  {
    var a, b, c := HexPair(cr), HexPair(cg), HexPair(cb);
    var d := a + b + c;
    Pairs(a, b, c);
    SixDigits(d);
    assert "#" + a + b + c == "#" + d;
  }

  lemma Pairs(a: string, b: string, c: string)
    requires |a| == 2 && |b| == 2 && |c| == 2 && AllHex(a) && AllHex(b) && AllHex(c)
    ensures var d := a + b + c;
      && |d| == 6 && AllHex(d)
      && d[0] == a[0] && d[1] == a[1] && d[2] == b[0] && d[3] == b[1] && d[4] == c[0] && d[5] == c[1]
  {
  }

  /** White: `#FFFFFF` gives `255, 255, 255`. */
  lemma White()
    ensures HexToRgb("#FFFFFF") == "255, 255, 255"
  {
    var d := "FFFFFF";
    AllF(d);
    SixDigits(d);
    assert "#FFFFFF" == "#" + d;
    TwoFiftyFive();
  }

  lemma AllF(d: string)
    requires d == "FFFFFF"
    ensures |d| == 6 && AllHex(d)
    ensures Channel(d[0], d[1]) == 255 && Channel(d[2], d[3]) == 255 && Channel(d[4], d[5]) == 255
  {
    assert forall k | 0 <= k < 6 :: d[k] == 'F';
  }

  lemma TwoFiftyFive()
    ensures RgbText(255, 255, 255) == "255, 255, 255"
  {
    assert NatToDigits(2) == "2";
    assert NatToDigits(25) == "25";
    assert NatToDigits(255) == "255";
  }

  /** A hex string converts the same as its lower-case form, digit by digit. */
  lemma LowerDigits(hex: string)
    ensures AllHex(Lower(hex)) <==> AllHex(hex)
  {
    var low := Lower(hex);
    forall k | 0 <= k < |hex|
      ensures IsHex(low[k]) <==> IsHex(hex[k])
    {
      LowerHex(hex[k]);
    }
  }

  /** Lower-casing keeps hex digits hex, with the same value, and makes no
      other character a hex digit or a `#`. */
  lemma LowerHex(c: char)
    ensures IsHex(LowerChar(c)) <==> IsHex(c)
    ensures IsHex(c) ==> HexValue(LowerChar(c)) == HexValue(c)
    ensures LowerChar(c) == '#' <==> c == '#'
  {
  }

  /** The pattern matches a string exactly when it matches its lower-case
      form, and captures the lower-case digits there. */
  lemma LowerMatches(hex: string)
    ensures HexDigits(Lower(hex)).Some? <==> HexDigits(hex).Some?
    ensures HexDigits(hex).Some? ==> HexDigits(Lower(hex)).value == Lower(HexDigits(hex).value)
  {
    var low := Lower(hex);
    LowerDigits(hex);
    if |hex| == 7 {
      assert low[1..] == Lower(hex[1..]);
      LowerDigits(hex[1..]);
      LowerHex(hex[0]);
    }
  }

  /** Lower-case digits have the same channel values. */
  lemma LowerChannels(d: string)
    requires |d| == 6 && AllHex(d)
    ensures AllHex(Lower(d))
    ensures var e := Lower(d);
      Channel(e[0], e[1]) == Channel(d[0], d[1]) && Channel(e[2], e[3]) == Channel(d[2], d[3]) && Channel(e[4], e[5]) == Channel(d[4], d[5])
  {
    LowerDigits(d);
    forall k | 0 <= k < 6
      ensures HexValue(Lower(d)[k]) == HexValue(d[k])
    {
      LowerHex(d[k]);
    }
  }

  /** Case does not matter. */
  lemma IgnoresCase(hex: string)
    ensures HexToRgb(Lower(hex)) == HexToRgb(hex)
  {
    LowerMatches(hex);
    match HexDigits(hex)
    case None =>
    case Some(d) =>
      LowerChannels(d);
  }

  // ---------------------------------------------------------------------
  // Display ids

  /** `"COR-" + id.toString().padStart(3, '0')`. */
  function DisplayId(id: nat): (r: string)
    ensures |r| == 4 + (if |NatToDigits(id)| < 3 then 3 else |NatToDigits(id)|)
    ensures r[..4] == "COR-"
    ensures AllDigits(r[4..]) && DigitsValue(r[4..]) == id
    ensures r[|r| - |NatToDigits(id)|..] == NatToDigits(id)
    ensures forall i | 4 <= i < |r| - |NatToDigits(id)| :: r[i] == '0'
  {
    var digits := ZeroPad(NatToDigits(id), 3);
    ZeroPadShape(NatToDigits(id), 3);
    var r := "COR-" + digits;
    assert r[4..] == digits;
    assert r[|r| - |NatToDigits(id)|..] == digits[|digits| - |NatToDigits(id)|..];
    r
  }

  /** Distinct colours get distinct display ids. */
  lemma DisplayIdInjective(a: nat, b: nat)
    requires DisplayId(a) == DisplayId(b)
    ensures a == b
  {
  }

  // ---------------------------------------------------------------------
  // Pages

  /** The rows the listing passes over before page `page`. */
  function Skip(page: int, limit: int): int {
    (page - 1) * limit
  }

  /** `Math.ceil(totalCount / limit)` as a JavaScript number: infinite or
      not a number when the limit is zero. */
  datatype PageCount = Pages(n: int) | Infinite | NotANumber

  function TotalPages(count: nat, limit: int): (r: PageCount)
    ensures limit > 0 ==> r == Pages(BatchCount(count, limit))
    ensures limit < 0 ==> r.Pages? && r.n * limit <= count < (r.n - 1) * limit
    ensures limit == 0 ==> r == (if count == 0 then NotANumber else Infinite)
  {
    if limit > 0 then Pages(BatchCount(count, limit))
    else if limit < 0 then Pages(-(count / -limit))
    else if count == 0 then NotANumber
    else Infinite
  }

  /** `page < totalPages`. */
  predicate HasNextPage(page: int, total: PageCount) {
    match total
    case Pages(n) => page < n
    case Infinite => true
    case NotANumber => false
  }

  predicate HasPrevPage(page: int) {
    page > 1
  }

  /** With a positive limit the page count is the ceiling of count over
      limit: enough pages for every row, and not one more. */
  lemma {:induction false} TotalPagesCeil(count: nat, limit: nat)
    requires limit > 0
    ensures BatchCount(count, limit) * limit >= count
    ensures count > 0 ==> (BatchCount(count, limit) - 1) * limit < count
    ensures BatchCount(count, limit) == 0 <==> count == 0
    decreases count
  {
    if count > limit {
      TotalPagesCeil(count - limit, limit);
      var n := BatchCount(count - limit, limit);
      assert (n + 1) * limit == n * limit + limit;
    }
  }

  /** Page `page` (from 1) of a positive limit shows the rows of the
      `page`-th batch of `limit` rows. */
  lemma {:induction false} PageIsBatch<T>(rows: seq<T>, limit: nat, page: nat)
    requires limit > 0 && 1 <= page <= BatchCount(|rows|, limit)
    ensures 0 <= Skip(page, limit) < |rows|
    ensures rows[Skip(page, limit)..Min(Skip(page, limit) + limit, |rows|)] == Chunks(rows, limit)[page - 1]
    decreases page
  {
    var chunks := Chunks(rows, limit);
    if page == 1 {
      assert Skip(page, limit) == 0;
      if |rows| <= limit {
        assert chunks == [rows];
      } else {
        assert chunks[0] == rows[..limit];
      }
    } else {
      assert |rows| > limit;
      var rest := rows[limit..];
      assert chunks == [rows[..limit]] + Chunks(rest, limit);
      PageIsBatch(rest, limit, page - 1);
      SkipStep(page, limit);
      SliceShift(rows, limit, Skip(page - 1, limit));
    }
  }

  lemma SkipStep(page: int, limit: int)
    ensures Skip(page, limit) == Skip(page - 1, limit) + limit
  {
  }

  lemma SliceShift<T>(rows: seq<T>, n: nat, s: nat)
    requires n <= |rows| && s <= |rows| - n
    ensures rows[n..][s..Min(s + n, |rows| - n)] == rows[s + n..Min(s + n + n, |rows|)]
  {
  }

  /** There is a next page exactly when the current page is before the
      last; a next page then starts inside the rows. */
  lemma NextPageExists(count: nat, limit: nat, page: nat)
    requires limit > 0 && page >= 1
    ensures HasNextPage(page, TotalPages(count, limit)) <==> page < BatchCount(count, limit)
    ensures HasNextPage(page, TotalPages(count, limit)) ==> Skip(page + 1, limit) < count
  {
    if HasNextPage(page, TotalPages(count, limit)) {
      TotalPagesCeil(count, limit);
      var n := BatchCount(count, limit);
      assert page <= n - 1;
      assert page * limit <= (n - 1) * limit;
    }
  }
}

=== FILE: dashboard.dfy ===
/** The stock-status classifier of the dashboard route, and the copy of it
    in the stock page, which tests for zero stock instead of no stock. */
module Dashboard {

  /** The four stock states. */
  datatype Status = ForaDeEstoque | BaixoEstoque | Excesso | Normal

  /** The text shown for a state. */
  function Label(s: Status): string {
    match s
    case ForaDeEstoque => "Fora de Estoque"
    case BaixoEstoque => "Baixo Estoque"
    case Excesso => "Excesso"
    case Normal => "Normal"
  }

  const Labels: set<string> := {"Fora de Estoque", "Baixo Estoque", "Excesso", "Normal"}

  /** The state a label names. */
  function StatusOf(text: string): (r: Status)
    requires text in Labels
  {
    if text == "Fora de Estoque" then ForaDeEstoque
    else if text == "Baixo Estoque" then BaixoEstoque
    else if text == "Excesso" then Excesso
    else Normal
  }

  /** Every label reads back as its state, so the four labels differ. */
  lemma LabelRoundTrip(s: Status)
    ensures Label(s) in Labels
    ensures StatusOf(Label(s)) == s
  {
  }

  /** `getStatusEstoque` of the dashboard route: no stock first, then low,
      then excess, else normal. Quantities are exact numbers. */
  function StatusEstoque(atual: real, minimo: real, maximo: real): (r: Status)
    ensures r == ForaDeEstoque <==> atual <= 0.0
    ensures r == BaixoEstoque <==> 0.0 < atual <= minimo
    ensures r == Excesso <==> 0.0 < atual && minimo < atual && maximo <= atual
    ensures r == Normal <==> 0.0 < atual && minimo < atual < maximo
  {
    if atual <= 0.0 then ForaDeEstoque
    else if atual <= minimo then BaixoEstoque
    else if atual >= maximo then Excesso
    else Normal
  }

  /** Low stock wins over excess when the minimum is not below the maximum:
      the checks run in order. */
  lemma LowBeforeExcess(atual: real, minimo: real, maximo: real)
    requires 0.0 < atual <= minimo && atual >= maximo
    ensures StatusEstoque(atual, minimo, maximo) == BaixoEstoque
  {
  }

  /** The stock page's copy: only exactly zero stock is out of stock. */
  function PageStatus(atual: real, minimo: real, maximo: real): (r: Status)
    ensures r == ForaDeEstoque <==> atual == 0.0
  {
    if atual == 0.0 then ForaDeEstoque
    else if atual <= minimo then BaixoEstoque
    else if atual >= maximo then Excesso
    else Normal
  }

  /** The two copies agree exactly when the stock is not negative. */
  lemma CopiesAgree(atual: real, minimo: real, maximo: real)
    ensures StatusEstoque(atual, minimo, maximo) == PageStatus(atual, minimo, maximo) <==> atual >= 0.0
  {
  }
}

=== FILE: estoque.dfy ===
/** The older, whitespace-tokenizing stock-line parser and its header scan:
    a line is cut into whitespace-separated tokens and the fields are read
    by token position, with one layout for fifteen or more tokens and one,
    shifted down by one, for exactly fourteen. */
module Estoque {
  import opened Base
  import opened Text

  /** The fifteen fields of a tokenized stock line. Numbers stay text, with
      their decimal commas turned into points. */
  datatype Row = Row(
    localizacao: string,
    codigo: string,
    apelido: string,
    familia: string,
    qual: string,
    qmm: string,
    cor: string,
    qtde: string,
    descCor: string,
    tam: string,
    tamd: string,
    embalagemVol: string,
    un: string,
    pesoLiq: string,
    pesoBruto: string)

  /** The fewest tokens a stock line has. */
  const MinTokens := 14

  /** Python `parts[i] if len(parts) > i else ''`. */
  function TokenOr(parts: seq<string>, i: nat): (r: string)
    ensures i < |parts| ==> r == parts[i]
    ensures |parts| <= i ==> r == []
  {
    if i < |parts| then parts[i] else []
  }

  /** A numeric token: every comma becomes a point, nothing is parsed. */
  function Dotted(s: string): (r: string)
    ensures |r| == |s| && ',' !in r
    ensures forall k | 0 <= k < |s| && s[k] != ',' :: r[k] == s[k]
  {
    ReplaceAll(s, ',', '.')
  }

  /** The fields by token position, for a line of fifteen or more tokens:
      the nickname is tokens 2 to 5. */
  function WideRow(parts: seq<string>): Row
    requires |parts| >= 15
  {
    Row(parts[0], parts[1], Join(parts[2..6], " "), parts[6], parts[7], parts[8], parts[9],
        Dotted(parts[10]), Join(parts[11..13], " "), parts[13],
        TokenOr(parts, 14), TokenOr(parts, 15), TokenOr(parts, 16),
        Dotted(TokenOr(parts, 17)), Dotted(TokenOr(parts, 18)))
  }

  /** The fields for a line of exactly fourteen tokens: the nickname is
      tokens 2 to 4 and every later field sits one token earlier. */
  function NarrowRow(parts: seq<string>): Row
    requires |parts| >= 14
  {
    Row(parts[0], parts[1], Join(parts[2..5], " "), parts[5], parts[6], parts[7], parts[8],
        Dotted(parts[9]), Join(parts[10..12], " "), parts[12],
        TokenOr(parts, 13), TokenOr(parts, 14), TokenOr(parts, 15),
        Dotted(TokenOr(parts, 16)), Dotted(TokenOr(parts, 17)))
  }

  /** The row of a line's tokens, or `None` for fewer than fourteen. */
  function ParseTokens(parts: seq<string>): (r: Option<Row>)
    ensures r.Some? <==> |parts| >= MinTokens
    ensures r.Some? ==> r.value.localizacao == parts[0] && r.value.codigo == parts[1]
    ensures r.Some? ==> ',' !in r.value.qtde && ',' !in r.value.pesoLiq && ',' !in r.value.pesoBruto
  {
    if |parts| < MinTokens then None
    else if |parts| >= 15 then Some(WideRow(parts))
    else Some(NarrowRow(parts))
  }

  /** The tokens of a line: its stripped text split on whitespace runs. */
  function Tokens(line: string): (parts: seq<string>)
    ensures |parts| >= 1
    ensures forall k | 0 <= k < |parts| :: NoSpace(Py, parts[k])
    ensures !AllSpace(Py, line) ==> forall k | 0 <= k < |parts| :: parts[k] != []
  {
    SplitRuns(Py, Strip(Py, line))
  }

  /** A stock line's row; `None` for a blank line or too few tokens. The
      source's handler for index and value errors is unreachable: with at
      least fourteen tokens every index it reads exists or is guarded. */
  function ParseLine(line: string): (r: Option<Row>)
    ensures r.Some? <==> !AllSpace(Py, line) && |Tokens(line)| >= MinTokens
    ensures r.Some? ==> r.value.localizacao != [] && r.value.codigo != []
    ensures r.Some? ==> NoSpace(Py, r.value.localizacao) && NoSpace(Py, r.value.codigo)
  {
    if |Strip(Py, line)| == 0 then None
    else ParseTokens(Tokens(line))
  }

  /** A blank line has no row. */
  lemma BlankLine(line: string)
    requires AllSpace(Py, line)
    ensures ParseLine(line).None?
  {
  }

  /** Visible tokens written with single spaces come back as the same
      tokens, so a line made of fourteen or more of them reads as the
      tokens' row. */
  lemma TokensRoundTrip(tokens: seq<string>)
    requires |tokens| >= 1
    requires forall k | 0 <= k < |tokens| :: tokens[k] != [] && NoSpace(Py, tokens[k])
    ensures Tokens(Join(tokens, " ")) == tokens
    ensures ParseLine(Join(tokens, " ")) == ParseTokens(tokens)
  {
    var line := Join(tokens, " ");
    var last := tokens[|tokens| - 1];
    assert !IsSpace(Py, tokens[0][0]);
    assert !IsSpace(Py, last[|last| - 1]);
    JoinStripped(Py, tokens);
    SplitRunsJoin(Py, tokens);
  }

  /** On a fourteen-token line every field after the nickname is the same
      as on the fifteen-token line with one more nickname token: the narrow
      layout is the wide one shifted down by one. */
  lemma NarrowIsShiftedWide(parts: seq<string>, extra: string)
    requires |parts| == 14
    ensures var wide := WideRow(parts[..5] + [extra] + parts[5..]);
      var narrow := NarrowRow(parts);
      && wide.apelido == Join(parts[2..5] + [extra], " ")
      && narrow.apelido == Join(parts[2..5], " ")
      && wide.(apelido := narrow.apelido) == narrow
  {
    var longer := parts[..5] + [extra] + parts[5..];
    assert longer[2..6] == parts[2..5] + [extra];
    assert longer[11..13] == parts[10..12];
    assert forall k | 6 <= k < 15 :: longer[k] == parts[k - 1];
  }

  // ---------------------------------------------------------------------
  // The header scan of a report file

  const HeaderWord := "LOCALIZAC."
  const CodeWord := "CODIGO"
  const TenDashes := "----------"

  /** The column-title line after which data starts. */
  predicate IsHeader(line: string) {
    Contains(line, HeaderWord) && Contains(line, CodeWord)
  }

  /** A header occurs among the first `i` lines. */
  predicate Started(lines: seq<string>, i: nat)
    requires i <= |lines|
  {
    exists j | 0 <= j < i :: IsHeader(RStrip(Py, lines[j]))
  }

  /** A right-trimmed line that is not a header, a separator or blank. */
  predicate Candidate(line: string) {
    !IsHeader(line) && !Contains(line, TenDashes) && !AllSpace(Py, line)
  }

  /** Line `k`, right-trimmed, is a data line: a header came before it and
      it is a candidate. */
  predicate IsData(lines: seq<string>, k: nat)
    requires k < |lines|
  {
    Started(lines, k) && Candidate(RStrip(Py, lines[k]))
  }

  /** A line the scan passes over is no data line, and the scan has
      started after it exactly when it had before or the line is a header. */
  lemma Skip(lines: seq<string>, i: nat, started: bool)
    requires i < |lines| && started == Started(lines, i)
    requires forall m | 0 <= m < i :: !IsData(lines, m)
    requires !(started && Candidate(RStrip(Py, lines[i])))
    ensures (started || IsHeader(RStrip(Py, lines[i]))) == Started(lines, i + 1)
    ensures forall m | 0 <= m < i + 1 :: !IsData(lines, m)
  {
  }

  /** The file scan: skip to the first header, skip separators, and parse
      only the first data line. */
  method ProcessFile(lines: seq<string>) returns (rows: seq<Row>)
    ensures |rows| <= 1
    ensures rows != [] <==> exists k | 0 <= k < |lines| :: FirstData(lines, k) && ParseLine(RStrip(Py, lines[k])).Some?
    ensures forall r | r in rows :: exists k | 0 <= k < |lines| :: FirstData(lines, k) && ParseLine(RStrip(Py, lines[k])) == Some(r)
  {
    rows := [];
    var started := false;
    var i := 0;
    while i < |lines|
      invariant 0 <= i <= |lines|
      invariant started == Started(lines, i)
      invariant forall m | 0 <= m < i :: !IsData(lines, m)
    {
      var line := RStrip(Py, lines[i]);
      if IsHeader(line) {
        Skip(lines, i, started);
        started := true;
        i := i + 1;
        continue;
      }
      if started && Contains(line, TenDashes) {
        Skip(lines, i, started);
        i := i + 1;
        continue;
      }
      if started && !AllSpace(Py, line) {
        var parsed := ParseLine(line);
        if parsed.Some? {
          rows := rows + [parsed.value];
        }
        Stopped(lines, i, rows, parsed);
        return;
      }
      Skip(lines, i, started);
      i := i + 1;
    }
    NoData(lines);
  }

  /** Line `k` is the first data line. */
  predicate FirstData(lines: seq<string>, k: nat)
    requires k < |lines|
  {
    IsData(lines, k) && forall m | 0 <= m < k :: !IsData(lines, m)
  }

  /** There is at most one first data line. */
  lemma FirstDataUnique(lines: seq<string>, i: nat, k: nat)
    requires i < |lines| && k < |lines| && FirstData(lines, i) && FirstData(lines, k)
    ensures i == k
  {
  }

  /** What the scan yields when it stops at line `i`. */
  lemma Stopped(lines: seq<string>, i: nat, rows: seq<Row>, parsed: Option<Row>)
    requires i < |lines| && FirstData(lines, i)
    requires parsed == ParseLine(RStrip(Py, lines[i]))
    requires rows == if parsed.Some? then [parsed.value] else []
    ensures rows != [] <==> exists k | 0 <= k < |lines| :: FirstData(lines, k) && ParseLine(RStrip(Py, lines[k])).Some?
    ensures forall r | r in rows :: exists k | 0 <= k < |lines| :: FirstData(lines, k) && ParseLine(RStrip(Py, lines[k])) == Some(r)
  {
    forall k | 0 <= k < |lines| && FirstData(lines, k)
      ensures k == i
    {
      FirstDataUnique(lines, i, k);
    }
    if parsed.Some? {
      assert rows == [parsed.value];
      assert FirstData(lines, i) && ParseLine(RStrip(Py, lines[i])) == Some(rows[0]);
    }
  }

  /** Without a data line there is no first one. */
  lemma NoData(lines: seq<string>)
    requires forall m | 0 <= m < |lines| :: !IsData(lines, m)
    ensures !exists k | 0 <= k < |lines| :: FirstData(lines, k) && ParseLine(RStrip(Py, lines[k])).Some?
  {
  }
}

=== FILE: export.dfy ===
/** The export documents: the JavaScript exporter's CSV and SQL texts and
    its command line, the backup script's per-table INSERT blocks and its
    table-to-model mapping, and the Python exporter's INSERT groups. */
module Export {
  import opened Base
  import opened Text
  import opened SqlText
  import opened Batches
  import opened Numbers

  // ---------------------------------------------------------------------
  // Records

  /** One field of a database row. */
  datatype Entry = Entry(key: string, value: JsValue)

  /** A row as JavaScript sees it: its fields in key order. */
  type Record = seq<Entry>

  /** `Object.keys(record)`. */
  function Keys(rec: Record): (r: seq<string>)
    ensures |r| == |rec| && forall k | 0 <= k < |rec| :: r[k] == rec[k].key
  {
    seq(|rec|, k requires 0 <= k < |rec| => rec[k].key)
  }

  /** `Object.values(record)`. */
  function Values(rec: Record): (r: seq<JsValue>)
    ensures |r| == |rec| && forall k | 0 <= k < |rec| :: r[k] == rec[k].value
  {
    seq(|rec|, k requires 0 <= k < |rec| => rec[k].value)
  }

  /** `record[key]`: the field's value, or `undefined` (here `JsNull`) when
      the record has no such key. */
  function Get(rec: Record, key: string): (r: JsValue)
    ensures (forall k | 0 <= k < |rec| :: rec[k].key != key) ==> r == JsNull
    ensures forall k | 0 <= k < |rec| && rec[k].key == key && key !in Keys(rec)[..k] :: r == rec[k].value
  {
    if rec == [] then JsNull
    else if rec[0].key == key then rec[0].value
    else
      var rest := Get(rec[1..], key);
      assert forall k | 1 <= k < |rec| :: Keys(rec)[..k] == [rec[0].key] + Keys(rec[1..])[..k - 1];
      rest
  }

  /** No key occurs twice, as in every JavaScript object. */
  predicate DistinctKeys(rec: Record) {
    forall i, j | 0 <= i < j < |rec| :: rec[i].key != rec[j].key
  }

  lemma GetOwnKey(rec: Record, k: nat)
    requires DistinctKeys(rec) && k < |rec|
    ensures Get(rec, rec[k].key) == rec[k].value
  {
    assert rec[k].key !in Keys(rec)[..k];
  }

  // ---------------------------------------------------------------------
  // CSV

  /** `value.toString()`; a date's text depends on the process's time zone
      and is a parameter. */
  function Shown(v: JsValue, dateText: DateTime -> string): string {
    match v
    case JsNull => "null"
    case JsBool(b) => if b then "true" else "false"
    case JsString(s) => s
    case JsDate(d) => dateText(d)
    case JsInt(i) => IntText(i)
    case JsOther(shown) => shown
  }

  /** One CSV cell: empty for null, a string holding `;` in double quotes
      with its quotes doubled, anything else as shown. */
  function CsvCell(v: JsValue, dateText: DateTime -> string): (r: string)
    ensures v.JsNull? ==> r == []
    ensures v.JsString? && ';' in v.s ==> Unquoted(r, '"') == Some(v.s)
    ensures v.JsString? && ';' !in v.s ==> r == v.s
    ensures !v.JsNull? && !v.JsString? ==> r == Shown(v, dateText)
  {
    if v.JsNull? then []
    else if v.JsString? && ';' in v.s then
      QuotedRoundTrip(v.s, '"');
      Quoted(v.s, '"')
    else Shown(v, dateText)
  }

  /** The cells of one row, one per header. */
  function CsvCells(row: Record, headers: seq<string>, dateText: DateTime -> string): (r: seq<string>)
    ensures |r| == |headers|
    ensures forall k | 0 <= k < |headers| :: r[k] == CsvCell(Get(row, headers[k]), dateText)
  {
    seq(|headers|, k requires 0 <= k < |headers| => CsvCell(Get(row, headers[k]), dateText))
  }

  function CsvLine(row: Record, headers: seq<string>, dateText: DateTime -> string): string {
    Join(CsvCells(row, headers, dateText), ";")
  }

  function CsvRows(data: seq<Record>, headers: seq<string>, dateText: DateTime -> string): (r: seq<string>)
    ensures |r| == |data| && forall k | 0 <= k < |data| :: r[k] == CsvLine(data[k], headers, dateText)
  {
    seq(|data|, k requires 0 <= k < |data| => CsvLine(data[k], headers, dateText))
  }

  /** `convertToCSV`: the first row's keys, then one line per row. */
  function ConvertToCsv(data: seq<Record>, dateText: DateTime -> string): (r: string)
    ensures data == [] ==> r == []
  {
    if data == [] then []
    else
      var headers := Keys(data[0]);
      Join([Join(headers, ";")] + CsvRows(data, headers, dateText), "\n")
  }

  /** No header holds a line break or a `;`. */
  predicate PlainHeaders(headers: seq<string>) {
    forall h | 0 <= h < |headers| :: '\n' !in headers[h] && ';' !in headers[h]
  }

  /** No cell holds a line break. */
  predicate SingleLineCells(data: seq<Record>, headers: seq<string>, dateText: DateTime -> string) {
    forall k, h | 0 <= k < |data| && 0 <= h < |headers| :: '\n' !in CsvCell(Get(data[k], headers[h]), dateText)
  }

  /** Without line breaks in the values, the CSV text splits into the
      header line and one line per row, in order, and the header line
      splits back into the first row's keys. */
  lemma CsvLines(data: seq<Record>, dateText: DateTime -> string)
    requires data != [] && PlainHeaders(Keys(data[0])) && SingleLineCells(data, Keys(data[0]), dateText)
    ensures var lines := SplitOn(ConvertToCsv(data, dateText), '\n');
      && |lines| == |data| + 1
      && (Keys(data[0]) != [] ==> SplitOn(lines[0], ';') == Keys(data[0]))
      && forall k | 0 <= k < |data| :: lines[k + 1] == CsvLine(data[k], Keys(data[0]), dateText)
  {
    var headers := Keys(data[0]);
    var lines := [Join(headers, ";")] + CsvRows(data, headers, dateText);
    assert ConvertToCsv(data, dateText) == Join(lines, "\n");
    CsvLinesSingle(data, headers, dateText);
    SplitJoin(lines, '\n');
    if headers != [] {
      HeaderLine(headers);
    }
  }

  /** Each line of the CSV text is free of line breaks. */
  lemma CsvLinesSingle(data: seq<Record>, headers: seq<string>, dateText: DateTime -> string)
    requires PlainHeaders(headers) && SingleLineCells(data, headers, dateText)
    ensures NoBreaks([Join(headers, ";")] + CsvRows(data, headers, dateText))
  {
    var rows := CsvRows(data, headers, dateText);
    forall k | 0 <= k < |data|
      ensures '\n' !in rows[k]
    {
      NoBreakInLine(data[k], headers, dateText);
    }
    NoBreakInJoin(headers, ';');
  }

  predicate NoBreaks(lines: seq<string>) {
    forall j | 0 <= j < |lines| :: '\n' !in lines[j]
  }

  /** The header line splits back into the headers. */
  lemma HeaderLine(headers: seq<string>)
    requires headers != [] && PlainHeaders(headers)
    ensures SplitOn(Join(headers, ";"), ';') == headers
  {
    SplitJoin(headers, ';');
  }

  /** With no `;` in the cells, a row line splits into exactly one cell per
      header. */
  lemma CsvLineCells(row: Record, headers: seq<string>, dateText: DateTime -> string)
    requires headers != []
    requires forall h | 0 <= h < |headers| :: ';' !in CsvCell(Get(row, headers[h]), dateText)
    ensures SplitOn(CsvLine(row, headers, dateText), ';') == CsvCells(row, headers, dateText)
    ensures |SplitOn(CsvLine(row, headers, dateText), ';')| == |headers|
  {
    SplitJoin(CsvCells(row, headers, dateText), ';');
  }

  lemma NoBreakInLine(row: Record, headers: seq<string>, dateText: DateTime -> string)
    requires forall h | 0 <= h < |headers| :: '\n' !in CsvCell(Get(row, headers[h]), dateText)
    ensures '\n' !in CsvLine(row, headers, dateText)
  {
    NoCharInJoin(CsvCells(row, headers, dateText), ";", '\n');
  }

  lemma NoBreakInJoin(parts: seq<string>, sep: char)
    requires sep != '\n' && forall k | 0 <= k < |parts| :: '\n' !in parts[k]
    ensures '\n' !in Join(parts, [sep])
  {
    NoCharInJoin(parts, [sep], '\n');
  }

  /** A character in none of the parts nor the separator is not in the
      join. */
  lemma {:induction false} NoCharInJoin(parts: seq<string>, sep: string, c: char)
    requires c !in sep && forall k | 0 <= k < |parts| :: c !in parts[k]
    ensures c !in Join(parts, sep)
  {
    if |parts| > 1 {
      NoCharInJoin(parts[1..], sep, c);
    }
  }

  // ---------------------------------------------------------------------
  // The exporter's SQL document

  /** A statement that inserts rows. */
  predicate IsInsert(s: string) {
    StartsWith(s, "INSERT INTO ")
  }

  /** The number of INSERT statements in a list of statements. */
  function CountInserts(ss: seq<string>): nat {
    if ss == [] then 0 else (if IsInsert(ss[0]) then 1 else 0) + CountInserts(ss[1..])
  }

  lemma {:induction false} CountInsertsAppend(a: seq<string>, b: seq<string>)
    ensures CountInserts(a + b) == CountInserts(a) + CountInserts(b)
  {
    if a != [] {
      assert (a + b)[0] == a[0] && (a + b)[1..] == a[1..] + b;
      CountInsertsAppend(a[1..], b);
      assert CountInserts(a + b) == (if IsInsert(a[0]) then 1 else 0) + CountInserts(a[1..] + b);
    } else {
      assert a + b == b;
    }
  }

  lemma NotInsert(s: string)
    requires s == [] || s[0] != 'I'
    ensures !IsInsert(s)
  {
  }

  /** The exporter's rows per INSERT statement. */
  const ExportBatch := 100

  function Backquoted(names: seq<string>): string {
    "`" + Join(names, "`, `") + "`"
  }

  function InsertHead(table: string, headers: seq<string>): (r: string)
    ensures IsInsert(r)
  {
    "INSERT INTO `" + table + "` (" + Backquoted(headers) + ") VALUES"
  }

  /** One row's values in the headers' order, in parentheses. */
  function RowTuple(row: Record, headers: seq<string>): (r: string)
    ensures |r| >= 2 && r[0] == '('
  {
    "(" + Join(seq(|headers|, k requires 0 <= k < |headers| => EscapeSqlValue(Get(row, headers[k]))), ", ") + ")"
  }

  function RowTuples(batch: seq<Record>, headers: seq<string>): (r: seq<string>)
    ensures |r| == |batch| && forall k | 0 <= k < |batch| :: r[k] == RowTuple(batch[k], headers)
  {
    seq(|batch|, k requires 0 <= k < |batch| => RowTuple(batch[k], headers))
  }

  /** The four statements of one batch. */
  function BatchStatements(table: string, headers: seq<string>, batch: seq<Record>): (r: seq<string>)
    requires batch != []
    ensures |r| == 4 && CountInserts(r) == 1
  {
    var values := Join(RowTuples(batch, headers), ",\n");
    JoinStartsWithHead(RowTuples(batch, headers), ",\n");
    var tail := [values, ";", ""];
    NoInserts(tail);
    var r := [InsertHead(table, headers)] + tail;
    assert r[0] == InsertHead(table, headers) && r[1..] == tail;
    r
  }

  function BatchesStatements(table: string, headers: seq<string>, batches: seq<seq<Record>>): (r: seq<string>)
    requires forall b | 0 <= b < |batches| :: batches[b] != []
    ensures |r| == 4 * |batches|
    ensures forall b | 0 <= b < |batches| :: r[4 * b..4 * b + 4] == BatchStatements(table, headers, batches[b])
    ensures CountInserts(r) == |batches|
  {
    if batches == [] then []
    else
      var first := BatchStatements(table, headers, batches[0]);
      var rest := BatchesStatements(table, headers, batches[1..]);
      CountInsertsAppend(first, rest);
      assert forall b | 1 <= b < |batches| :: (first + rest)[4 * b..4 * b + 4] == rest[4 * (b - 1)..4 * (b - 1) + 4];
      first + rest
  }

  function Prologue(table: string): (r: seq<string>)
    ensures |r| == 7 && CountInserts(r) == 0
    ensures r[0] == "-- Limpar tabela " + table && r[1] == "TRUNCATE TABLE `" + table + "`;"
  {
    var r := ["-- Limpar tabela " + table, "TRUNCATE TABLE `" + table + "`;", "",
      "-- Desabilitar verificações para importação", "SET FOREIGN_KEY_CHECKS = 0;", "SET AUTOCOMMIT = 0;", ""];
    NoInserts(r);
    r
  }

  const Epilogue: seq<string> := ["-- Reabilitar verificações", "SET FOREIGN_KEY_CHECKS = 1;", "SET AUTOCOMMIT = 1;", "COMMIT;"]

  lemma EpilogueNoInserts()
    ensures CountInserts(Epilogue) == 0
  {
    NoInserts(Epilogue);
  }

  lemma NoInserts(ss: seq<string>)
    requires forall k | 0 <= k < |ss| :: ss[k] == [] || ss[k][0] != 'I'
    ensures CountInserts(ss) == 0
  {
  }

  /** The statements of `convertToSQL` for a non-empty table: the prologue,
      four statements for each batch of a hundred rows, the epilogue. */
  function SqlStatements(table: string, data: seq<Record>): (r: seq<string>)
    requires data != []
    ensures |r| == 11 + 4 * |Chunks(data, ExportBatch)|
    ensures var batches := Chunks(data, ExportBatch);
      forall b | 0 <= b < |batches| :: r[7 + 4 * b..11 + 4 * b] == BatchStatements(table, Keys(data[0]), batches[b])
    ensures |r| == 11 + 4 * ((|data| + 99) / 100)
    ensures r[0] == "-- Limpar tabela " + table && r[|r| - 1] == "COMMIT;"
    ensures CountInserts(r) == (|data| + 99) / 100
  {
    var batches := Chunks(data, ExportBatch);
    HundredBatches(|data|);
    var middle := BatchesStatements(table, Keys(data[0]), batches);
    EpilogueNoInserts();
    Assemble(Prologue(table), middle, Epilogue, |batches|);
    Prologue(table) + middle + Epilogue
  }

  /** The shape of prologue, middle and epilogue put together. */
  lemma Assemble(p: seq<string>, m: seq<string>, e: seq<string>, n: nat)
    requires |p| == 7 && |e| == 4 && |m| == 4 * n
    ensures var r := p + m + e;
      && |r| == 11 + |m| && r[0] == p[0] && r[|r| - 1] == e[3]
      && CountInserts(r) == CountInserts(p) + CountInserts(m) + CountInserts(e)
      && forall b | 0 <= b < n :: r[7 + 4 * b..11 + 4 * b] == m[4 * b..4 * b + 4]
  {
    CountInsertsAppend(p, m);
    CountInsertsAppend(p + m, e);
    var r := p + m + e;
    forall b | 0 <= b < n
      ensures r[7 + 4 * b..11 + 4 * b] == m[4 * b..4 * b + 4]
    {
      SliceOfMiddle(p, m, e, 4 * b, 4 * b + 4);
    }
  }

  lemma SliceOfMiddle(p: seq<string>, m: seq<string>, e: seq<string>, i: nat, j: nat)
    requires i <= j <= |m|
    ensures (p + m + e)[|p| + i..|p| + j] == m[i..j]
  {
  }

  /** `convertToSQL`: empty for no rows, else the statements one per line. */
  function ConvertToSql(table: string, data: seq<Record>): (r: string)
    ensures data == [] <==> r == []
  {
    if data == [] then []
    else
      var ss := SqlStatements(table, data);
      JoinStartsWithHead(ss, "\n");
      Join(ss, "\n")
  }

  /** The exporter's batches hold every row once and in order, each a
      hundred rows but possibly the last, and there are `ceil(n / 100)` of
      them. */
  lemma SqlBatches(data: seq<Record>)
    ensures var batches := Chunks(data, ExportBatch);
      && Flatten(batches) == data
      && |batches| == (|data| + 99) / 100
      && forall b | 0 <= b < |batches| :: 1 <= |batches[b]| <= 100
  {
    ChunksFlatten(data, ExportBatch);
    HundredBatches(|data|);
  }

  // ---------------------------------------------------------------------
  // The backup script

  /** One INSERT statement of the backup: the batch's first record names the
      columns, every record gives its own values in its own order. */
  function BackupInsert(table: string, batch: seq<Record>): (r: string)
    requires batch != []
    ensures IsInsert(r)
  {
    "INSERT INTO `" + table + "` (" + Backquoted(Keys(batch[0])) + ") VALUES\n"
      + Join(seq(|batch|, k requires 0 <= k < |batch| => FormatRecord(Values(batch[k]))), ",\n") + ";\n\n"
  }

  function BackupInserts(table: string, batches: seq<seq<Record>>): (r: seq<string>)
    requires forall b | 0 <= b < |batches| :: batches[b] != []
    ensures |r| == |batches| && CountInserts(r) == |batches|
    ensures forall b | 0 <= b < |batches| :: r[b] == BackupInsert(table, batches[b])
  {
    if batches == [] then [] else [BackupInsert(table, batches[0])] + BackupInserts(table, batches[1..])
  }

  /** What the backup appends for one table: nothing for an empty table;
      else a comment with the row count, a TRUNCATE, and one INSERT per
      hundred rows. */
  function BackupTable(table: string, records: seq<Record>): (r: seq<string>)
    ensures records == [] ==> r == []
    ensures records != [] ==> |r| == 2 + (|records| + 99) / 100
    ensures CountInserts(r) == (|records| + 99) / 100
  {
    if records == [] then []
    else
      var head := ["\n-- Tabela: " + table + " (" + NatToDigits(|records|) + " registros)\n", "TRUNCATE TABLE `" + table + "`;\n\n"];
      var inserts := BackupInserts(table, Chunks(records, ExportBatch));
      HundredBatches(|records|);
      NoInserts(head);
      CountInsertsAppend(head, inserts);
      head + inserts
  }

  /** For a record with distinct keys written under its own keys, the
      backup's value tuple is the exporter's: the two scripts write the
      same row the same way. */
  lemma BackupRowAgrees(rec: Record)
    requires DistinctKeys(rec)
    ensures FormatRecord(Values(rec)) == RowTuple(rec, Keys(rec))
  {
    var keys := Keys(rec);
    var exported := seq(|keys|, k requires 0 <= k < |keys| => EscapeSqlValue(Get(rec, keys[k])));
    forall k | 0 <= k < |rec|
      ensures BackupValues(Values(rec))[k] == exported[k]
    {
      GetOwnKey(rec, k);
      BackupValueAgrees(rec[k].value);
    }
    assert BackupValues(Values(rec)) == exported;
  }

  // ---------------------------------------------------------------------
  // The Python exporter

  /** The Python exporter's rows per INSERT statement. */
  const PyGroup := 1000

  /** One row's values in parentheses, separated by `, `. */
  function PyTuple(linha: seq<PyValue>): (r: string)
    ensures |r| >= 2 && r[0] == '(' && r[|r| - 1] == ')'
  {
    "(" + Join(seq(|linha|, k requires 0 <= k < |linha| => EscaparValorSql(linha[k])), ", ") + ")"
  }

  function PyTuples(dados: seq<seq<PyValue>>): (r: seq<string>)
    ensures |r| == |dados| && forall k | 0 <= k < |dados| :: r[k] == PyTuple(dados[k])
  {
    seq(|dados|, k requires 0 <= k < |dados| => PyTuple(dados[k]))
  }

  /** One INSERT statement of a group of row tuples. */
  function PyInsert(tabela: string, colunas: seq<string>, grupo: seq<string>): (r: string)
    ensures IsInsert(r)
  {
    "INSERT INTO " + tabela + " (" + Join(colunas, ", ") + ") VALUES\n" + Join(grupo, ",\n") + ";\n\n"
  }

  function PyInserts(tabela: string, colunas: seq<string>, grupos: seq<seq<string>>): (r: seq<string>)
    ensures |r| == |grupos| && CountInserts(r) == |grupos|
    ensures forall g | 0 <= g < |grupos| :: r[g] == PyInsert(tabela, colunas, grupos[g])
  {
    if grupos == [] then [] else [PyInsert(tabela, colunas, grupos[0])] + PyInserts(tabela, colunas, grupos[1..])
  }

  /** The data part of `criar_arquivo_sql`: nothing without rows; else a
      comment and one INSERT per thousand rows. */
  function PyDataSection(tabela: string, colunas: seq<string>, dados: seq<seq<PyValue>>): (r: seq<string>)
    ensures dados == [] ==> r == []
    ensures dados != [] ==> |r| == 1 + (|dados| + 999) / 1000
    ensures CountInserts(r) == (|dados| + 999) / 1000
  {
    if dados == [] then []
    else
      var comment := ["-- Dados da tabela " + tabela + "\n"];
      var inserts := PyInserts(tabela, colunas, Chunks(PyTuples(dados), PyGroup));
      ThousandBatches(|dados|);
      NoInserts(comment);
      CountInsertsAppend(comment, inserts);
      comment + inserts
  }

  /** The Python groups hold every row tuple once and in order, at most a
      thousand each. */
  lemma PyGroups(dados: seq<seq<PyValue>>)
    ensures var grupos := Chunks(PyTuples(dados), PyGroup);
      && Flatten(grupos) == PyTuples(dados)
      && |grupos| == (|dados| + 999) / 1000
      && forall g | 0 <= g < |grupos| :: 1 <= |grupos[g]| <= 1000
  {
    ChunksFlatten(PyTuples(dados), PyGroup);
    ThousandBatches(|dados|);
  }

  // ---------------------------------------------------------------------
  // Table names and models

  /** The tables the exporter knows, in its order. */
  const Tables: seq<string> := [
    "usuarios", "empresas", "usuario_permissoes", "password_reset_tokens", "sessao_usuarios", "cores",
    "familia", "tamanhos", "depositos", "unegs", "skus", "representantes", "clientes", "fornecedores",
    "transportadoras", "tabelas_dinamicas"]

  /** Each table's data-access model. */
  const TableModels: map<string, string> := map[
    "usuarios" := "usuario", "empresas" := "empresa", "usuario_permissoes" := "usuarioPermissao",
    "password_reset_tokens" := "passwordResetToken", "sessao_usuarios" := "sessaoUsuario", "cores" := "cor",
    "familia" := "familia", "tamanhos" := "tamanho", "depositos" := "deposito", "unegs" := "uNEG",
    "skus" := "sKU", "representantes" := "representante", "clientes" := "cliente",
    "fornecedores" := "fornecedor", "transportadoras" := "transportadora",
    "tabelas_dinamicas" := "tabelaDinamica"]

  /** `getModelName`: the mapped model, or the name itself. */
  function ModelName(table: string): (r: string)
    ensures table in TableModels ==> r == TableModels[table]
    ensures table !in TableModels ==> r == table
  {
    if table in TableModels then TableModels[table] else table
  }

  /** Every table the exporter knows has a model, and the mapping knows no
      other table. */
  lemma TablesHaveModels()
    ensures forall t | t in Tables :: t in TableModels
    ensures forall t | t in TableModels :: t in Tables
  {
  }

  /** The model each known table is read through, backwards. */
  const ModelTables: map<string, string> := map[
    "usuario" := "usuarios", "empresa" := "empresas", "usuarioPermissao" := "usuario_permissoes",
    "passwordResetToken" := "password_reset_tokens", "sessaoUsuario" := "sessao_usuarios", "cor" := "cores",
    "familia" := "familia", "tamanho" := "tamanhos", "deposito" := "depositos", "uNEG" := "unegs",
    "sKU" := "skus", "representante" := "representantes", "cliente" := "clientes",
    "fornecedor" := "fornecedores", "transportadora" := "transportadoras",
    "tabelaDinamica" := "tabelas_dinamicas"]

  /** A known table's model leads back to the table. */
  lemma ModelNameInverse(t: string)
    requires t in Tables
    ensures ModelName(t) in ModelTables && ModelTables[ModelName(t)] == t
  {
    var k :| 0 <= k < |Tables| && Tables[k] == t;
    if k < 4 {
      InverseFirst(k);
    } else if k < 8 {
      InverseLow(k);
    } else {
      InverseHigh(k);
    }
  }

  lemma InverseFirst(k: nat)
    requires k < 4
    ensures ModelName(Tables[k]) in ModelTables && ModelTables[ModelName(Tables[k])] == Tables[k]
  {
  }

  lemma InverseLow(k: nat)
    requires 4 <= k < 8
    ensures ModelName(Tables[k]) in ModelTables && ModelTables[ModelName(Tables[k])] == Tables[k]
  {
  }

  lemma InverseHigh(k: nat)
    requires 8 <= k < |Tables|
    ensures ModelName(Tables[k]) in ModelTables && ModelTables[ModelName(Tables[k])] == Tables[k]
  {
  }

  /** Two known tables never share a model. */
  lemma ModelsDistinct(a: string, b: string)
    requires a in Tables && b in Tables && a != b
    ensures ModelName(a) != ModelName(b)
  {
    ModelNameInverse(a);
    ModelNameInverse(b);
  }

  // ---------------------------------------------------------------------
  // The exporter's command line

  /** The exporter's options; `None` is `undefined` left by a flag at the
      end of the arguments, or the initial `null` table. */
  datatype Options = Options(
    table: Option<string>, format: Option<string>, outputDir: Option<string>,
    all: bool, backup: bool, validate: bool, help: bool)

  const Formats: seq<string> := ["json", "csv", "sql"]

  const Defaults := Options(None, Some("json"), Some("./exports"), true, false, false, false)

  /** `args[++i]`: the next argument, if any. */
  function Next(args: seq<string>, i: nat): Option<string> {
    if i + 1 < |args| then Some(args[i + 1]) else None
  }

  /** The argument loop from position `i`. */
  function ParseFrom(args: seq<string>, i: nat, o: Options): (r: Options)
    decreases |args| - i
  {
    if i >= |args| then o
    else if args[i] == "--table" then ParseFrom(args, i + 2, o.(table := Next(args, i), all := false))
    else if args[i] == "--format" then ParseFrom(args, i + 2, o.(format := Next(args, i)))
    else if args[i] == "--output" then ParseFrom(args, i + 2, o.(outputDir := Next(args, i)))
    else if args[i] == "--all" then ParseFrom(args, i + 1, o.(all := true))
    else if args[i] == "--backup" then ParseFrom(args, i + 1, o.(backup := true))
    else if args[i] == "--validate" then ParseFrom(args, i + 1, o.(validate := true))
    else if args[i] == "--help" then ParseFrom(args, i + 1, o.(help := true))
    else ParseFrom(args, i + 1, o)
  }

  function ParseArgs(args: seq<string>): Options {
    ParseFrom(args, 0, Defaults)
  }

  /** Once `all` is off, it stays off unless `--all` comes later. */
  lemma {:induction false} AllStaysOff(args: seq<string>, i: nat, o: Options)
    requires !o.all
    requires forall k | i <= k < |args| :: args[k] != "--all"
    ensures !ParseFrom(args, i, o).all
    decreases |args| - i
  {
    if i < |args| {
      if args[i] == "--table" {
        AllStaysOff(args, i + 2, o.(table := Next(args, i), all := false));
      } else if args[i] == "--format" {
        AllStaysOff(args, i + 2, o.(format := Next(args, i)));
      } else if args[i] == "--output" {
        AllStaysOff(args, i + 2, o.(outputDir := Next(args, i)));
      } else if args[i] == "--backup" {
        AllStaysOff(args, i + 1, o.(backup := true));
      } else if args[i] == "--validate" {
        AllStaysOff(args, i + 1, o.(validate := true));
      } else if args[i] == "--help" {
        AllStaysOff(args, i + 1, o.(help := true));
      } else {
        AllStaysOff(args, i + 1, o);
      }
    }
  }

  /** `--table` turns `all` off for good unless `--all` follows it. */
  lemma TableClearsAll(args: seq<string>, i: nat, o: Options)
    requires i < |args| && args[i] == "--table"
    requires forall k | i + 2 <= k < |args| :: args[k] != "--all"
    ensures !ParseFrom(args, i, o).all
  {
    AllStaysOff(args, i + 2, o.(table := Next(args, i), all := false));
  }

  /** Without flags the options are the defaults. */
  lemma {:induction false} NoFlags(args: seq<string>, i: nat, o: Options)
    requires forall k | i <= k < |args| :: |args[k]| < 2 || args[k][..2] != "--"
    ensures ParseFrom(args, i, o) == o
    decreases |args| - i
  {
    if i < |args| {
      NotAFlag(args[i]);
      NoFlags(args, i + 1, o);
    }
  }

  lemma NotAFlag(a: string)
    requires |a| < 2 || a[..2] != "--"
    ensures a != "--table" && a != "--format" && a != "--output" && a != "--all"
    ensures a != "--backup" && a != "--validate" && a != "--help"
  {
  }

  /** JavaScript truthiness of the table option: `undefined`, `null` and
      the empty string are false. */
  predicate Truthy(table: Option<string>) {
    table.Some? && table.value != []
  }

  datatype Mode = FullBackup | OneTable(name: string) | AllTables | NoTables

  datatype Outcome = ShowHelp | InvalidFormat | InvalidTable | Extract(mode: Mode)

  /** A supported output format. */
  predicate KnownFormat(format: Option<string>) {
    format.Some? && format.value in Formats
  }

  /** Options that pass every check of `main`: no help, a supported format
      and no unknown table. */
  predicate Runnable(o: Options) {
    !o.help && KnownFormat(o.format) && !(Truthy(o.table) && o.table.value !in Tables)
  }

  /** What `main` does with the options: help first, then the format check,
      then the table check, then backup, one table or all of them. */
  function Decide(o: Options): (r: Outcome)
    ensures r == ShowHelp <==> o.help
    ensures r == InvalidFormat <==> !o.help && !KnownFormat(o.format)
    ensures r == InvalidTable <==> !o.help && KnownFormat(o.format) && Truthy(o.table) && o.table.value !in Tables
    ensures r.Extract? <==> Runnable(o)
    ensures r.Extract? && Truthy(o.table) ==> o.table.value in Tables
    ensures r == Extract(FullBackup) <==> Runnable(o) && o.backup
    ensures r.Extract? && r.mode.OneTable? <==> Runnable(o) && !o.backup && Truthy(o.table)
    ensures r.Extract? && r.mode.OneTable? ==> Some(r.mode.name) == o.table
    ensures r == Extract(AllTables) <==> Runnable(o) && !o.backup && !Truthy(o.table) && o.all
    ensures r == Extract(NoTables) <==> Runnable(o) && !o.backup && !Truthy(o.table) && !o.all
  {
    if o.help then ShowHelp
    else if !(o.format.Some? && o.format.value in Formats) then InvalidFormat
    else if Truthy(o.table) && o.table.value !in Tables then InvalidTable
    else if o.backup then Extract(FullBackup)
    else if Truthy(o.table) then Extract(OneTable(o.table.value))
    else if o.all then Extract(AllTables)
    else Extract(NoTables)
  }

  /** A known table named after `--table`, with a valid format and no
      later `--all`, `--backup` or `--help`, is extracted alone. */
  lemma OneTableChosen(args: seq<string>)
    requires |args| == 2 && args[0] == "--table" && args[1] in Tables
    ensures Decide(ParseArgs(args)) == Extract(OneTable(args[1]))
  {
    var o := Defaults.(table := Some(args[1]), all := false);
    assert ParseArgs(args) == ParseFrom(args, 2, o);
  }

  /** With no arguments every table is extracted as JSON: `--all` is the
      default. */
  lemma DefaultsExtractAll()
    ensures ParseArgs([]) == Defaults
    ensures Decide(ParseArgs([])) == Extract(AllTables)
  {
  }

  /** `--backup` alone makes the full backup. */
  lemma BackupChosen(args: seq<string>)
    requires args == ["--backup"]
    ensures Decide(ParseArgs(args)) == Extract(FullBackup)
  {
    assert ParseArgs(args) == ParseFrom(args, 1, Defaults.(backup := true));
  }

  /** `--table` as the last argument leaves the table undefined but turns
      `all` off, so nothing is extracted. */
  lemma TableWithoutName(args: seq<string>)
    requires args == ["--table"]
    ensures Decide(ParseArgs(args)) == Extract(NoTables)
  {
    assert ParseArgs(args) == ParseFrom(args, 2, Defaults.(table := None, all := false));
  }
}

=== FILE: layout.dfy ===
/** Fixed-column report layouts: where each field sits on a line, and the
    line a report generator writes for given field texts. */
module Layout {
  import opened Text

  /** Where a field's text sits on a report line. */
  datatype Locator =
    /** Python `line[start:end]`. */
    | Fixed(start: nat, end: nat)
    /** A scan: from `skip` places past the first `marker` at or after `from`,
        up to `overhang` places past the next `stop` character, or `fallback`
        places on when there is none; empty when there is no marker. */
    | AfterMarker(marker: char, from: nat, skip: nat, stop: char, fallback: nat, overhang: nat)

  /** How a field's stripped text is normalised. */
  datatype Kind = Plain | Numeric | DayMonthYear

  datatype Column = Column(name: string, at: Locator, kind: Kind)

  // ---------------------------------------------------------------------
  // Rendering: the report generator's side of a fixed-column layout

  /** Every column is a non-empty fixed slice, left to right, with at least one
      separator position between neighbours. */
  predicate Tiled(cols: seq<Column>) {
    && (forall k | 0 <= k < |cols| :: cols[k].at.Fixed? && cols[k].at.start < cols[k].at.end)
    && (forall i, j | 0 <= i < j < |cols| :: cols[i].at.end < cols[j].at.start)
    && (forall k | 0 <= k < |cols| :: cols[k].at.end <= cols[|cols| - 1].at.end)
  }

  /** `Tiled` checked on neighbours only. */
  predicate Ascending(cols: seq<Column>) {
    && (forall k | 0 <= k < |cols| :: cols[k].at.Fixed? && cols[k].at.start < cols[k].at.end)
    && (forall k | 0 < k < |cols| :: cols[k - 1].at.end < cols[k].at.start)
  }

  /** Neighbours in order make every pair in order. */
  lemma {:induction false} AscendingTiled(cols: seq<Column>)
    requires Ascending(cols)
    ensures Tiled(cols)
    decreases |cols|
  {
    if |cols| > 1 {
      var init := cols[..|cols| - 1];
      assert Ascending(init);
      AscendingTiled(init);
      forall i, j | 0 <= i < j < |cols|
        ensures cols[i].at.end < cols[j].at.start
      {
        if j == |cols| - 1 && i < j - 1 {
          assert init[i].at.end < init[j - 1].at.start;
        }
      }
      forall k | 0 <= k < |cols|
        ensures cols[k].at.end <= cols[|cols| - 1].at.end
      {
        if k < |cols| - 1 {
          assert init[k].at.end <= init[|init| - 1].at.end;
        }
      }
    }
  }

  function Width(c: Column): nat
    requires c.at.Fixed?
  {
    if c.at.start < c.at.end then c.at.end - c.at.start else 0
  }

  /** Each text fits its fixed column. */
  predicate Fits(cols: seq<Column>, texts: seq<string>) {
    && |texts| == |cols|
    && forall k | 0 <= k < |cols| :: cols[k].at.Fixed? && |texts[k]| <= Width(cols[k])
  }

  /** Where a fixed column ends; a scanned field has no fixed place. */
  function EndOf(c: Column): nat {
    if c.at.Fixed? then c.at.end else 0
  }

  /** The first column from `j` on that ends after position `p`, or `|cols|`
      when there is none. */
  function Owner(cols: seq<Column>, p: nat, j: nat): (k: nat)
    requires j <= |cols|
    ensures j <= k <= |cols|
    ensures forall m | j <= m < k :: EndOf(cols[m]) <= p
    ensures k < |cols| ==> p < EndOf(cols[k])
    decreases |cols| - j
  {
    if j == |cols| then j
    else if p < EndOf(cols[j]) then j
    else Owner(cols, p, j + 1)
  }

  /** The character a rendered line holds at position `p`: the text of the
      column that covers `p`, a blank where no text is. */
  function CharAt(cols: seq<Column>, texts: seq<string>, p: nat): char {
    var k := Owner(cols, p, 0);
    if k < |cols| && k < |texts| && cols[k].at.Fixed? && cols[k].at.start <= p
      && p - cols[k].at.start < |texts[k]|
    then texts[k][p - cols[k].at.start]
    else ' '
  }

  /** The line length of a layout: where its last column ends. */
  function LineEnd(cols: seq<Column>): nat {
    if cols == [] then 0 else EndOf(cols[|cols| - 1])
  }

  /** The characters of a rendered line, position by position. */
  function Line(cols: seq<Column>, texts: seq<string>): (r: string)
    ensures |r| == LineEnd(cols)
    ensures forall p | 0 <= p < |r| :: r[p] == CharAt(cols, texts, p)
  {
    seq(LineEnd(cols), p requires 0 <= p => CharAt(cols, texts, p))
  }

  /** A report line carrying `texts` in the layout `cols`: each text
      left-aligned in its column, blanks everywhere else. */
  function Render(cols: seq<Column>, texts: seq<string>): (r: string)
    requires Tiled(cols) && Fits(cols, texts)
    ensures |r| == if cols == [] then 0 else cols[|cols| - 1].at.end
    ensures forall k | 0 <= k < |cols| ::
      Slice(r, cols[k].at.start, cols[k].at.end) == PadRight(texts[k], Width(cols[k]))
  {
    var r := Line(cols, texts);
    forall k | 0 <= k < |cols|
      ensures Slice(r, cols[k].at.start, cols[k].at.end) == PadRight(texts[k], Width(cols[k]))
    {
      LineCell(cols, texts, k, r);
    }
    r
  }

  /** Inside its span a column owns every position. */
  lemma OwnerOf(cols: seq<Column>, p: nat, k: nat)
    requires Tiled(cols) && k < |cols| && cols[k].at.start <= p < cols[k].at.end
    ensures Owner(cols, p, 0) == k
  {
  }

  /** Inside its text a column shows that text. */
  lemma TextAt(cols: seq<Column>, texts: seq<string>, k: nat, p: nat)
    requires Tiled(cols) && Fits(cols, texts) && k < |cols|
    requires cols[k].at.start <= p < cols[k].at.start + |texts[k]|
    ensures CharAt(cols, texts, p) == texts[k][p - cols[k].at.start]
  {
    OwnerOf(cols, p, k);
  }

  /** The position just past a column's text is blank. */
  lemma BlankAfterText(cols: seq<Column>, texts: seq<string>, k: nat, p: nat)
    requires Tiled(cols) && Fits(cols, texts) && k < |cols|
    requires p == cols[k].at.start + |texts[k]|
    ensures CharAt(cols, texts, p) == ' '
  {
    if p < cols[k].at.end {
      OwnerOf(cols, p, k);
    } else {
      var o := Owner(cols, p, 0);
      assert o > k;
      assert o < |cols| ==> cols[k].at.end < cols[o].at.start;
    }
  }

  /** Column `k` of a rendered line holds its text, blank-padded. */
  lemma LineCell(cols: seq<Column>, texts: seq<string>, k: nat, r: string)
    requires Tiled(cols) && Fits(cols, texts) && k < |cols| && r == Line(cols, texts)
    ensures Slice(r, cols[k].at.start, cols[k].at.end) == PadRight(texts[k], Width(cols[k]))
  {
    var s, e := cols[k].at.start, cols[k].at.end;
    var cell := PadRight(texts[k], Width(cols[k]));
    assert e <= |r|;
    forall p | s <= p < e
      ensures r[p] == cell[p - s]
    {
      CellChar(cols, texts, k, p, cell);
    }
    assert r[s..e] == cell;
  }

  lemma CellChar(cols: seq<Column>, texts: seq<string>, k: nat, p: nat, cell: string)
    requires Tiled(cols) && Fits(cols, texts) && k < |cols|
    requires cols[k].at.start <= p < cols[k].at.end && cell == PadRight(texts[k], Width(cols[k]))
    ensures p - cols[k].at.start < |cell| && CharAt(cols, texts, p) == cell[p - cols[k].at.start]
  {
    var t := texts[k];
    var i := p - cols[k].at.start;
    if i < |t| {
      TextAt(cols, texts, k, p);
      assert cell[..|t|][i] == t[i];
    } else {
      OwnerOf(cols, p, k);
    }
  }

  /** A space-free pattern on a rendered line occurs inside one of the texts. */
  lemma RenderContains(cols: seq<Column>, texts: seq<string>, pat: string)
    requires Tiled(cols) && Fits(cols, texts)
    requires ' ' !in pat && pat != []
    ensures Contains(Render(cols, texts), pat) ==> exists k | 0 <= k < |cols| :: Contains(texts[k], pat)
  {
    var r := Line(cols, texts);
    assert Render(cols, texts) == r;
    if Contains(r, pat) {
      var q :| 0 <= q <= |r| - |pat| && OccursAt(r, pat, q);
      var k := OccurrenceInText(cols, texts, pat, r, q);
    }
  }

  /** The column whose text holds a space-free occurrence on a rendered line. */
  lemma OccurrenceInText(cols: seq<Column>, texts: seq<string>, pat: string, r: string, q: nat) returns (k: nat)
    requires Tiled(cols) && Fits(cols, texts) && ' ' !in pat && pat != []
    requires r == Line(cols, texts) && OccursAt(r, pat, q)
    ensures k < |cols| && Contains(texts[k], pat)
  {
    assert r[q] == pat[0];
    k := NonBlankOwner(cols, texts, q);
    var s, t := cols[k].at.start, texts[k];
    OccurrenceChar(cols, texts, pat, r, q, k, |pat| - 1);
    forall i | 0 <= i < |pat|
      ensures t[q - s + i] == pat[i]
    {
      OccurrenceChar(cols, texts, pat, r, q, k, i);
    }
    assert t[q - s..q - s + |pat|] == pat;
    assert OccursAt(t, pat, q - s);
  }

  /** Each character of such an occurrence is the matching character of the
      column's text. */
  lemma OccurrenceChar(cols: seq<Column>, texts: seq<string>, pat: string, r: string, q: nat, k: nat, i: nat)
    requires Tiled(cols) && Fits(cols, texts) && ' ' !in pat && i < |pat|
    requires r == Line(cols, texts) && OccursAt(r, pat, q)
    requires k < |cols| && cols[k].at.start <= q < cols[k].at.start + |texts[k]|
    ensures q + i < cols[k].at.start + |texts[k]|
    ensures texts[k][q - cols[k].at.start + i] == pat[i]
  {
    InText(cols, texts, pat, r, q, k, i);
    var p := q + i;
    assert r[q..q + |pat|][i] == r[p];
    OwnerOf(cols, p, k);
    assert CharAt(cols, texts, p) == texts[k][p - cols[k].at.start];
  }

  /** A non-blank position lies inside the text of the column that owns it. */
  lemma NonBlankOwner(cols: seq<Column>, texts: seq<string>, p: nat) returns (k: nat)
    requires CharAt(cols, texts, p) != ' '
    ensures k < |cols| && k < |texts| && cols[k].at.Fixed?
    ensures cols[k].at.start <= p < cols[k].at.start + |texts[k]|
  {
    k := Owner(cols, p, 0);
  }

  /** A space-free occurrence that starts inside a column's text stays inside
      it: the blank after the text would stop it. */
  lemma {:induction false} InText(cols: seq<Column>, texts: seq<string>, pat: string, r: string, q: nat, k: nat, j: nat)
    requires Tiled(cols) && Fits(cols, texts) && ' ' !in pat && j < |pat|
    requires r == Line(cols, texts) && OccursAt(r, pat, q)
    requires k < |cols| && cols[k].at.start <= q < cols[k].at.start + |texts[k]|
    ensures q + j < cols[k].at.start + |texts[k]|
  {
    if j > 0 {
      InText(cols, texts, pat, r, q, k, j - 1);
      var p := q + j;
      assert r[p] == pat[j];
      if p == cols[k].at.start + |texts[k]| {
        BlankAfterText(cols, texts, k, p);
        assert false;
      }
    }
  }
}

=== FILE: numbers.dfy ===
/** Decimal digits, exact decimal numbers and the numeric text grammar shared
    by Python's `float()` and JavaScript's `parseFloat` on report fields. */
module Numbers {
  import opened Base
  import opened Text

  predicate IsDigit(c: char) {
    '0' <= c <= '9'
  }

  predicate AllDigits(s: string) {
    forall i | 0 <= i < |s| :: IsDigit(s[i])
  }

  function DigitValue(c: char): nat
    requires IsDigit(c)
  {
    (c as int - '0' as int) as nat
  }

  function DigitChar(n: nat): (c: char)
    requires n < 10
    ensures IsDigit(c) && DigitValue(c) == n
  {
    ('0' as int + n) as char
  }

  function Pow10(n: nat): (p: nat)
    ensures p >= 1
  {
    if n == 0 then 1 else 10 * Pow10(n - 1)
  }

  /** The value of a string of decimal digits, most significant first. */
  function DigitsValue(s: string): nat
    requires AllDigits(s)
  {
    if s == [] then 0 else 10 * DigitsValue(s[..|s| - 1]) + DigitValue(s[|s| - 1])
  }

  /** Decimal text of `n` (JavaScript `n.toString()`, Python `str(n)`): digits
      only, no superfluous leading zero, and it reads back as `n`. */
  function NatToDigits(n: nat): (r: string)
    ensures |r| >= 1 && AllDigits(r)
    ensures DigitsValue(r) == n
    ensures |r| > 1 ==> r[0] != '0'
    decreases n
  {
    if n < 10 then [DigitChar(n)]
    else
      var r := NatToDigits(n / 10) + [DigitChar(n % 10)];
      assert r[..|r| - 1] == NatToDigits(n / 10);
      r
  }

  lemma {:induction false} DigitsValueAppend(a: string, b: string)
    requires AllDigits(a) && AllDigits(b)
    ensures AllDigits(a + b)
    ensures DigitsValue(a + b) == DigitsValue(a) * Pow10(|b|) + DigitsValue(b)
    decreases |b|
  {
    if b == [] {
      assert a + b == a;
    } else {
      var b' := b[..|b| - 1];
      assert (a + b)[..|a + b| - 1] == a + b';
      DigitsValueAppend(a, b');
      assert b[..|b| - 1] == b';
      Distrib(DigitsValue(a), DigitsValue(b'), Pow10(|b'|), DigitValue(b[|b| - 1]));
    }
  }

  lemma Distrib(x: int, y: int, p: int, d: int)
    ensures 10 * (x * p + y) + d == x * (10 * p) + (10 * y + d)
  {
  }

  /** An exact decimal number: `mantissa / 10^scale`. The scale records how
      many digits followed the decimal separator in the text it came from. */
  datatype Decimal = Decimal(mantissa: int, scale: nat) {

    predicate IsPositive() {
      mantissa > 0
    }

    function Value(): real {
      mantissa as real / Pow10(scale) as real
    }
  }

  /** The numeric text accepted in report fields: an optional sign, then digits
      with at most one '.', with at least one digit in all. This is the common
      core of Python's `float()` and JavaScript's `parseFloat`. */
  function ParseDecimal(s: string): (r: Option<Decimal>)
    ensures r.Some? ==> ',' !in s && ' ' !in s
    ensures r.Some? && s != [] && s[0] == '-' ==> r.value.mantissa <= 0
    ensures r.Some? && (s == [] || s[0] != '-') ==> r.value.mantissa >= 0
  {
    var signed := |s| > 0 && (s[0] == '+' || s[0] == '-');
    var body := if signed then s[1..] else s;
    match ParseUnsigned(body)
    case None => None
    case Some(d) =>
      assert signed ==> s == [s[0]] + body;
      Some(if signed && s[0] == '-' then Decimal(-d.mantissa, d.scale) else d)
  }

  /** Digits with at most one '.', at least one digit in all. */
  function ParseUnsigned(body: string): (r: Option<Decimal>)
    ensures r.Some? ==> r.value.mantissa >= 0
    ensures r.Some? ==> forall i | 0 <= i < |body| :: IsDigit(body[i]) || body[i] == '.'
  {
    var dot := Find(body, '.', 0);
    var ip := if dot < 0 then body else body[..dot];
    var fp := if dot < 0 then [] else body[dot + 1..];
    if AllDigits(ip) && AllDigits(fp) && |ip| + |fp| > 0 then
      DigitsValueAppend(ip, fp);
      NumeralChars(body, dot, ip, fp);
      Some(Decimal(DigitsValue(ip + fp), |fp|))
    else
      None
  }

  /** Digits around the first '.' leave only digits and that '.'. */
  lemma NumeralChars(body: string, dot: int, ip: string, fp: string)
    requires dot == Find(body, '.', 0) && AllDigits(ip) && AllDigits(fp)
    requires dot < 0 ==> ip == body
    requires dot >= 0 ==> ip == body[..dot] && fp == body[dot + 1..]
    ensures forall i | 0 <= i < |body| :: IsDigit(body[i]) || body[i] == '.'
  {
    forall i | 0 <= i < |body|
      ensures IsDigit(body[i]) || body[i] == '.'
    {
      if dot < 0 || i < dot {
        assert body[i] == ip[i];
      } else if i > dot {
        assert body[i] == fp[i - dot - 1];
      }
    }
  }

  /** The fraction part of a canonical decimal text: empty, or '.' and digits. */
  function Frac(fp: string): string {
    if fp == [] then [] else "." + fp
  }

  function Abs(m: int): nat {
    if m < 0 then -m else m
  }

  /** `s` widened to at least `width` characters with leading zeros. */
  function ZeroPad(s: string, width: nat): (r: string)
    ensures |r| == if |s| < width then width else |s|
    ensures AllDigits(s) ==> AllDigits(r) && DigitsValue(r) == DigitsValue(s)
  {
    if |s| < width then
      LeadingZeros(width - |s|, s);
      Repeat('0', width - |s|) + s
    else s
  }

  /** Padding only puts zeros in front: the text ends with the original. */
  lemma ZeroPadShape(s: string, width: nat)
    ensures var r := ZeroPad(s, width);
      && r[|r| - |s|..] == s
      && forall i | 0 <= i < |r| - |s| :: r[i] == '0'
  {
    var r := ZeroPad(s, width);
    if |s| < width {
      assert r == Repeat('0', width - |s|) + s;
    }
  }

  lemma {:induction false} LeadingZeros(n: nat, s: string)
    ensures AllDigits(s) ==> AllDigits(Repeat('0', n) + s) && DigitsValue(Repeat('0', n) + s) == DigitsValue(s)
  {
    if AllDigits(s) {
      DigitsValueAppend(Repeat('0', n), s);
      ZerosValue(n);
    }
  }

  lemma {:induction false} ZerosValue(n: nat)
    ensures AllDigits(Repeat('0', n)) && DigitsValue(Repeat('0', n)) == 0
  {
    if n > 0 {
      ZerosValue(n - 1);
      assert Repeat('0', n) == Repeat('0', n - 1) + ['0'];
      assert Repeat('0', n)[..n - 1] == Repeat('0', n - 1);
    }
  }

  /** Canonical text of a decimal: '-' for a negative mantissa, then the
      unsigned text of its magnitude. */
  function FormatDecimal(d: Decimal): string {
    var u := UnsignedText(Abs(d.mantissa), d.scale);
    if d.mantissa < 0 then "-" + u else u
  }

  /** `a / 10^scale` written with at least one integer digit and exactly
      `scale` fraction digits after a '.'. */
  function UnsignedText(a: nat, scale: nat): string {
    var digits := ZeroPad(NatToDigits(a), scale + 1);
    digits[..|digits| - scale] + Frac(digits[|digits| - scale..])
  }

  /** The unsigned text of a magnitude is an integer part of at least one
      digit and `scale` fraction digits that together spell the magnitude. */
  lemma UnsignedTextParts(a: nat, scale: nat) returns (ip: string, fp: string)
    ensures |ip| >= 1 && AllDigits(ip) && AllDigits(fp) && |fp| == scale
    ensures AllDigits(ip + fp) && DigitsValue(ip + fp) == a
    ensures UnsignedText(a, scale) == ip + Frac(fp)
  {
    var digits := ZeroPad(NatToDigits(a), scale + 1);
    assert AllDigits(digits) && DigitsValue(digits) == a;
    ip, fp := SplitDigits(digits, |digits| - scale);
  }

  /** Cutting a numeral in two gives two numerals that join back to it. */
  lemma SplitDigits(digits: string, n: nat) returns (ip: string, fp: string)
    requires AllDigits(digits) && n <= |digits|
    ensures ip == digits[..n] && fp == digits[n..] && ip + fp == digits
    ensures AllDigits(ip) && AllDigits(fp) && |ip| == n && |fp| == |digits| - n
  {
    ip, fp := digits[..n], digits[n..];
    assert ip + fp == digits;
  }

  /** The unsigned text of a magnitude parses back to it. */
  lemma ParseUnsignedText(a: nat, scale: nat)
    ensures UnsignedText(a, scale) != [] && IsDigit(UnsignedText(a, scale)[0])
    ensures ParseUnsigned(UnsignedText(a, scale)) == Some(Decimal(a, scale))
  {
    var ip, fp := UnsignedTextParts(a, scale);
    var u := UnsignedText(a, scale);
    ParseCanonical(ip, fp);
    HeadOfParts(u, ip, Frac(fp));
  }

  lemma HeadOfParts(u: string, ip: string, rest: string)
    requires ip != [] && u == ip + rest
    ensures u != [] && u[0] == ip[0]
  {
  }

  /** Parsing the canonical text of a decimal gives the decimal back. */
  lemma ParseFormat(d: Decimal)
    ensures ParseDecimal(FormatDecimal(d)) == Some(d)
  {
    var a: nat := Abs(d.mantissa);
    var u := UnsignedText(a, d.scale);
    ParseUnsignedText(a, d.scale);
    FormatSign(d, u);
    if d.mantissa < 0 {
      ParseNegative(FormatDecimal(d), u, Decimal(a, d.scale));
    } else {
      NoSign(u);
    }
  }

  /** The canonical text is the magnitude's text, after a '-' when negative. */
  lemma FormatSign(d: Decimal, u: string)
    requires u == UnsignedText(Abs(d.mantissa), d.scale)
    ensures d.mantissa < 0 ==> FormatDecimal(d) == "-" + u
    ensures d.mantissa >= 0 ==> FormatDecimal(d) == u
  {
  }

  /** A '-' before an unsigned numeral negates it. */
  lemma ParseNegative(s: string, u: string, x: Decimal)
    requires s == "-" + u && ParseUnsigned(u) == Some(x)
    ensures ParseDecimal(s) == Some(Decimal(-x.mantissa, x.scale))
  {
    assert s[1..] == u;
  }

  lemma ParseCanonical(ip: string, fp: string)
    requires |ip| >= 1 && AllDigits(ip) && AllDigits(fp)
    ensures AllDigits(ip + fp)
    ensures ParseUnsigned(ip + Frac(fp)) == Some(Decimal(DigitsValue(ip + fp), |fp|))
  {
    DigitsValueAppend(ip, fp);
    if fp == [] {
      assert ip + Frac(fp) == ip + fp == ip;
      ParseWhole(ip);
    } else {
      PointedUnsigned(ip, fp, ip + Frac(fp));
    }
  }

  /** Digits alone read as a whole number. */
  lemma ParseWhole(ip: string)
    requires |ip| >= 1 && AllDigits(ip)
    ensures ParseUnsigned(ip) == Some(Decimal(DigitsValue(ip), 0))
  {
    assert '.' !in ip by {
      assert forall k | 0 <= k < |ip| :: IsDigit(ip[k]);
    }
    assert ip + [] == ip;
  }

  /** Digits, a '.', digits: the unsigned grammar splits at that '.'. */
  lemma PointedUnsigned(ip: string, fp: string, u: string)
    requires |ip| >= 1 && AllDigits(ip) && |fp| >= 1 && AllDigits(fp) && u == ip + "." + fp
    ensures ParseUnsigned(u) == Some(Decimal(DigitsValue(ip + fp), |fp|))
    ensures IsDigit(u[0])
  {
    assert u[..|ip|] == ip && u[|ip|] == '.';
    assert '.' !in ip by {
      assert forall k | 0 <= k < |ip| :: IsDigit(ip[k]);
    }
    FindAfterFree(u, ip, '.');
    assert u[|ip| + 1..] == fp;
    HeadOfParts(u, ip, "." + fp);
  }


  /** Report numbers use ',' as the decimal separator. */
  function FormatComma(d: Decimal): string {
    ReplaceAll(FormatDecimal(d), '.', ',')
  }

  /** A comma-decimal rendering, with its commas turned back into points as the
      report parsers do, parses to the decimal it renders. */
  lemma ParseFormatComma(d: Decimal)
    ensures ParseDecimal(ReplaceAll(FormatComma(d), ',', '.')) == Some(d)
  {
    var t := FormatDecimal(d);
    ParseFormat(d);
    NoCommaParsed(t, d);
    SwapBack(t, '.', ',');
  }

  /** JavaScript's `replace(',', '.')` on a comma-decimal rendering restores the
      canonical text: the rendering has at most one comma. */
  lemma FirstCommaBack(d: Decimal)
    ensures ReplaceFirst(FormatComma(d), ',', '.') == FormatDecimal(d)
  {
    var t := FormatDecimal(d);
    ParseFormat(d);
    NoCommaParsed(t, d);
    var i := OnePoint(d);
    SwapFirstBack(t, i);
  }

  /** A canonical rendering has no '.' other than at one index. */
  lemma OnePoint(d: Decimal) returns (i: nat)
    ensures forall k | 0 <= k < |FormatDecimal(d)| && k != i :: FormatDecimal(d)[k] != '.'
  {
    var a := Abs(d.mantissa);
    var u := UnsignedText(a, d.scale);
    var ip, fp := UnsignedTextParts(a, d.scale);
    FormatSign(d, u);
    PointOfParts(ip, fp, u);
    if d.mantissa < 0 {
      PointAfterSign(u, |ip|, FormatDecimal(d));
      i := |ip| + 1;
    } else {
      i := |ip|;
    }
  }

  /** Digits, then an optional '.' and digits: no '.' but the one after the
      integer digits. */
  lemma PointOfParts(ip: string, fp: string, u: string)
    requires AllDigits(ip) && AllDigits(fp) && u == ip + Frac(fp)
    ensures forall k | 0 <= k < |u| && k != |ip| :: u[k] != '.'
  {
    forall k | 0 <= k < |u| && k != |ip|
      ensures u[k] != '.'
    {
      if k < |ip| {
        assert u[k] == ip[k];
        assert IsDigit(ip[k]);
      } else {
        assert u[k] == fp[k - |ip| - 1];
        assert IsDigit(fp[k - |ip| - 1]);
      }
    }
  }

  /** A leading '-' moves the only '.' one place on. */
  lemma PointAfterSign(u: string, i: nat, t: string)
    requires forall k | 0 <= k < |u| && k != i :: u[k] != '.'
    requires t == "-" + u
    ensures forall k | 0 <= k < |t| && k != i + 1 :: t[k] != '.'
  {
    forall k | 0 <= k < |t| && k != i + 1
      ensures t[k] != '.'
    {
      if k > 0 {
        assert t[k] == u[k - 1];
      }
    }
  }

  /** Turning every '.' into ',' and then the first ',' back into '.' restores
      text that has no ',' and at most one '.'. */
  lemma SwapFirstBack(t: string, i: nat)
    requires ',' !in t
    requires forall k | 0 <= k < |t| && k != i :: t[k] != '.'
    ensures ReplaceFirst(ReplaceAll(t, '.', ','), ',', '.') == t
  {
    var c := ReplaceAll(t, '.', ',');
    if i < |t| && t[i] == '.' {
      assert c[i] == ',';
      assert ',' !in c[..i];
      assert c[i := '.'] == t;
    } else {
      assert c == t;
    }
  }

  lemma NoCommaParsed(t: string, d: Decimal)
    requires ParseDecimal(t) == Some(d)
    ensures ',' !in t
  {
    NotNone(ParseDecimal(t), Some(d));
  }

  /** Turning `a` into an absent `b` and back restores the string. */
  lemma SwapBack(t: string, a: char, b: char)
    requires b !in t
    ensures ReplaceAll(ReplaceAll(t, a, b), b, a) == t
  {
    var u := ReplaceAll(ReplaceAll(t, a, b), b, a);
    forall k | 0 <= k < |t|
      ensures u[k] == t[k]
    {
      assert t[k] != b;
    }
  }

  /** The characters a comma-decimal rendering is made of. */
  predicate IsNumeral(c: char) {
    IsDigit(c) || c == '-' || c == ','
  }

  /** Canonical decimal text: digits and at most a '.', starting and ending
      with a digit. */
  predicate Canonical(u: string) {
    && u != []
    && (forall i | 0 <= i < |u| :: IsDigit(u[i]) || u[i] == '.')
    && IsDigit(u[0])
    && IsDigit(u[|u| - 1])
  }

  lemma CanonicalParts(ip: string, fp: string)
    requires |ip| >= 1 && AllDigits(ip) && AllDigits(fp)
    ensures Canonical(ip + Frac(fp))
  {
    var u := ip + Frac(fp);
    forall i | 0 <= i < |u|
      ensures IsDigit(u[i]) || u[i] == '.'
    {
      if i < |ip| {
        assert u[i] == ip[i];
      } else if i > |ip| {
        assert u[i] == fp[i - |ip| - 1];
      }
    }
    if fp != [] {
      assert u[|u| - 1] == fp[|fp| - 1];
    }
  }

  lemma UnsignedTextShape(a: nat, scale: nat)
    ensures Canonical(UnsignedText(a, scale))
  {
    var ip, fp := UnsignedTextParts(a, scale);
    CanonicalParts(ip, fp);
  }

  /** A comma-decimal rendering is non-empty, made of digits, '-' and ',', starts
      with a digit or '-' and ends with a digit, so no whitespace surrounds it. */
  lemma FormatCommaShape(d: Decimal)
    ensures FormatComma(d) != []
    ensures forall i | 0 <= i < |FormatComma(d)| :: IsNumeral(FormatComma(d)[i])
    ensures IsDigit(FormatComma(d)[|FormatComma(d)| - 1])
    ensures IsStripped(Py, FormatComma(d)) && IsStripped(Js, FormatComma(d))
  {
    var t := FormatDecimal(d);
    SignedShape(d, t);
    CommaShape(t, FormatComma(d));
  }

  /** Decimal text with an optional leading '-': digits, '.' and '-' only,
      starting with a digit or '-' and ending with a digit. */
  predicate SignedText(t: string) {
    && t != []
    && (forall i | 0 <= i < |t| :: IsDigit(t[i]) || t[i] == '.' || t[i] == '-')
    && (IsDigit(t[0]) || t[0] == '-')
    && IsDigit(t[|t| - 1])
  }

  lemma SignedShape(d: Decimal, t: string)
    requires t == FormatDecimal(d)
    ensures SignedText(t)
  {
    var a := Abs(d.mantissa);
    var u := UnsignedText(a, d.scale);
    FormatSign(d, u);
    UnsignedTextShape(a, d.scale);
    if d.mantissa < 0 {
      MinusCanonical(t, u);
    }
  }

  lemma MinusCanonical(t: string, u: string)
    requires Canonical(u) && t == "-" + u
    ensures SignedText(t)
  {
    forall i | 0 <= i < |t|
      ensures IsDigit(t[i]) || t[i] == '.' || t[i] == '-'
    {
      if i > 0 {
        assert t[i] == u[i - 1];
      }
    }
    assert t[|t| - 1] == u[|u| - 1];
  }

  /** Turning the '.' of signed decimal text into ',' leaves numeral characters
      only, with no whitespace at either end. */
  lemma CommaShape(t: string, r: string)
    requires SignedText(t) && r == ReplaceAll(t, '.', ',')
    ensures r != [] && |r| == |t|
    ensures forall i | 0 <= i < |r| :: IsNumeral(r[i])
    ensures IsDigit(r[|r| - 1])
    ensures IsStripped(Py, r) && IsStripped(Js, r)
  {
    forall i | 0 <= i < |r|
      ensures IsNumeral(r[i])
    {
      assert r[i] == if t[i] == '.' then ',' else t[i];
    }
    NumeralNotSpace(r[0]);
    NumeralNotSpace(r[|r| - 1]);
  }

  lemma NumeralNotSpace(c: char)
    requires IsNumeral(c)
    ensures !IsSpace(Py, c) && !IsSpace(Js, c)
  {
  }

  lemma NotNone(a: Option<Decimal>, b: Option<Decimal>)
    requires a == b && b.Some?
    ensures a.Some?
  {
  }

  // ---------------------------------------------------------------------
  // JavaScript parseFloat: the longest numeric prefix

  /** A JavaScript number as `parseFloat` produces it on report text. */
  datatype JsNumber = NaN | Finite(value: Decimal)

  /** Length of the run of digits in `s` from index `i`. */
  function DigitRun(s: string, i: nat): (n: nat)
    requires i <= |s|
    ensures i + n <= |s|
    ensures forall k | i <= k < i + n :: IsDigit(s[k])
    ensures i + n < |s| ==> !IsDigit(s[i + n])
    decreases |s| - i
  {
    if i < |s| && IsDigit(s[i]) then 1 + DigitRun(s, i + 1) else 0
  }

  /** The longest prefix of `s` made of digits with at most one '.'. */
  function NumeralPrefix(s: string): (p: string)
    ensures |p| <= |s| && p == s[..|p|]
  {
    var i := DigitRun(s, 0);
    if i < |s| && s[i] == '.' then s[..i + 1 + DigitRun(s, i + 1)] else s[..i]
  }

  /** JavaScript `parseFloat` on the decimal grammar: leading whitespace is
      skipped, then the longest prefix of the form sign, digits, at most one
      '.', with at least one digit, is read; NaN when there is none. */
  function ParseFloat(s: string): (n: JsNumber)
  {
    var t := LStrip(Js, s);
    var signed := |t| > 0 && (t[0] == '+' || t[0] == '-');
    var body := if signed then t[1..] else t;
    match ParseUnsigned(NumeralPrefix(body))
    case None => NaN
    case Some(d) => Finite(if signed && t[0] == '-' then Decimal(-d.mantissa, d.scale) else d)
  }

  /** `parseFloat` on text with no leading whitespace reads the numeral
      prefix of what follows the optional sign. */
  lemma ParseFloatBody(s: string, signed: bool, body: string)
    requires s != [] && !IsSpace(Js, s[0])
    requires signed == (s[0] == '+' || s[0] == '-')
    requires body == if signed then s[1..] else s
    ensures ParseFloat(s) == match ParseUnsigned(NumeralPrefix(body))
      case None => NaN
      case Some(d) => Finite(if signed && s[0] == '-' then Decimal(-d.mantissa, d.scale) else d)
  {
    assert LStrip(Js, s) == s;
  }

  /** On text that is all numeral, `parseFloat` and the report grammar agree. */
  lemma ParseFloatAgrees(s: string)
    requires ParseDecimal(s).Some? && (s == [] || !IsSpace(Js, s[0]))
    ensures ParseFloat(s) == Finite(ParseDecimal(s).value)
  {
    var signed := |s| > 0 && (s[0] == '+' || s[0] == '-');
    var body := if signed then s[1..] else s;
    NumeralPrefixWhole(body);
  }

  /** Text starting with a digit has no sign. */
  lemma NoSign(u: string)
    requires u != [] && IsDigit(u[0])
    ensures ParseDecimal(u) == ParseUnsigned(u)
  {
  }

  /** A whole numeral is its own longest numeral prefix. */
  lemma NumeralPrefixWhole(body: string)
    requires ParseUnsigned(body).Some?
    ensures NumeralPrefix(body) == body
  {
    assert body + [] == body;
    NumeralPrefixExtend(body, []);
  }

  /** A digit run ends at the first non-digit. */
  lemma RunEnds(s: string, i: nat, j: nat)
    requires i <= j <= |s|
    requires forall k | i <= k < j :: IsDigit(s[k])
    requires j == |s| || !IsDigit(s[j])
    ensures i + DigitRun(s, i) == j
  {
  }

  /** `parseFloat` stops at the first character that cannot continue the
      numeral: digits, a '.' and digits followed by anything else, such as a
      unit, read as the decimal the digits spell. */
  lemma ParseFloatPointed(ip: string, fp: string, t: string)
    requires |ip| >= 1 && AllDigits(ip) && |fp| >= 1 && AllDigits(fp) && Stops(t)
    ensures ParseFloat(ip + "." + fp + t) == Finite(Decimal(DigitsValue(ip + fp), |fp|))
  {
    var w := ip + "." + fp;
    var u := w + t;
    PointedUnsigned(ip, fp, w);
    HeadOfParts(u, w, t);
    ExtendPointed(ip, fp, t, u);
    ParseFloatAt(u, w, Decimal(DigitsValue(ip + fp), |fp|));
  }

  /** Text that starts with a digit reads as its longest numeral prefix. */
  lemma ParseFloatAt(s: string, p: string, x: Decimal)
    requires s != [] && IsDigit(s[0])
    requires NumeralPrefix(s) == p && ParseUnsigned(p) == Some(x)
    ensures ParseFloat(s) == Finite(x)
  {
    ParseFloatBody(s, false, s);
  }

  /** Text that cannot continue a numeral leaves its longest prefix alone. */
  lemma NumeralPrefixExtend(body: string, t: string)
    requires ParseUnsigned(body).Some? && Stops(t)
    ensures NumeralPrefix(body + t) == body
  {
    var dot := Find(body, '.', 0);
    if dot < 0 {
      assert AllDigits(body);
      ExtendWhole(body, t, body + t);
    } else {
      var ip := body[..dot];
      var fp := body[dot + 1..];
      assert AllDigits(ip) && AllDigits(fp);
      assert body == ip + "." + fp;
      ExtendPointed(ip, fp, t, body + t);
    }
  }

  /** Text that is empty or starts with neither a digit nor a '.'. */
  predicate Stops(t: string) {
    t == [] || (!IsDigit(t[0]) && t[0] != '.')
  }

  lemma ExtendWhole(body: string, t: string, u: string)
    requires AllDigits(body) && Stops(t)
    requires u == body + t
    ensures NumeralPrefix(u) == body
  {
    assert forall k | 0 <= k < |body| :: u[k] == body[k];
    assert t != [] ==> u[|body|] == t[0];
    RunEnds(u, 0, |body|);
    assert u[..|body|] == body;
  }

  lemma ExtendPointed(ip: string, fp: string, t: string, u: string)
    requires AllDigits(ip) && AllDigits(fp) && Stops(t)
    requires u == ip + "." + fp + t
    ensures NumeralPrefix(u) == ip + "." + fp
  {
    var dot := |ip|;
    var end := dot + 1 + |fp|;
    assert forall k | 0 <= k < dot :: u[k] == ip[k];
    assert u[dot] == '.';
    RunEnds(u, 0, dot);
    assert forall k | dot + 1 <= k < end :: u[k] == fp[k - dot - 1];
    assert t != [] ==> u[end] == t[0];
    RunEnds(u, dot + 1, end);
    assert u[..end] == ip + "." + fp;
  }
}

=== FILE: permissions.dfy ===
/** Permission keys and the three access checks built on them: the session
    library's `permissao:recurso[:valor]` keys with their super-admin and
    `admin:` overrides, the service's (permissao, recurso) wildcard matcher,
    and the client hook's menu, submenu and admin checks. */
module Permissions {
  import opened Base
  import opened Text

  // ---------------------------------------------------------------------
  // Keys

  /** A permission grant of a role or a user. A missing, null or empty
      `valor` is JavaScript-falsy; all three are the empty string here. */
  datatype Grant = Grant(permissao: string, recurso: string, valor: string)

  /** `permissao:recurso`, the key without a value. */
  function BaseKey(permissao: string, recurso: string): string {
    permissao + ":" + recurso
  }

  /** `permissao:recurso`, followed by `:valor` when the value is truthy. */
  function Key(permissao: string, recurso: string, valor: string): (k: string)
    ensures StartsWith(k, BaseKey(permissao, recurso))
    ensures valor == [] <==> k == BaseKey(permissao, recurso)
    ensures |k| == |BaseKey(permissao, recurso)| + (if valor == [] then 0 else 1 + |valor|)
  {
    var base := BaseKey(permissao, recurso);
    var k := base + (if valor != [] then ":" + valor else []);
    assert k[..|base|] == base;
    k
  }

  function GrantKey(g: Grant): string {
    Key(g.permissao, g.recurso, g.valor)
  }

  // ---------------------------------------------------------------------
  // Collecting a user's keys

  /** What the library reads of a user. Absent role or user grant lists
      contribute nothing, like empty ones. */
  datatype User = User(isSuperAdmin: bool, roleGrants: seq<Grant>, userGrants: seq<Grant>)

  const SuperAdmin := "super_admin"

  /** JavaScript `keys.findIndex(p => p.startsWith(prefix))`. */
  function FindPrefix(keys: seq<string>, prefix: string): (r: int)
    ensures -1 <= r < |keys|
    ensures r >= 0 ==> StartsWith(keys[r], prefix) && forall k | 0 <= k < r :: !StartsWith(keys[k], prefix)
    ensures r < 0 ==> forall k | 0 <= k < |keys| :: !StartsWith(keys[k], prefix)
  {
    if keys == [] then -1
    else if StartsWith(keys[0], prefix) then 0
    else
      var r := FindPrefix(keys[1..], prefix);
      if r < 0 then -1 else r + 1
  }

  /** The base key a user grant looks for among the collected keys. */
  function GrantBase(g: Grant): string {
    BaseKey(g.permissao, g.recurso)
  }

  /** `i` is the first index of `keys` whose key starts with `prefix`. */
  predicate FirstMatch(keys: seq<string>, prefix: string, i: int) {
    && 0 <= i < |keys|
    && StartsWith(keys[i], prefix)
    && forall k | 0 <= k < i :: !StartsWith(keys[k], prefix)
  }

  /** One user grant: it replaces the first key starting with its base key,
      in place, or is appended when there is none. */
  function Override(keys: seq<string>, g: Grant): (r: seq<string>)
    ensures forall i | FirstMatch(keys, GrantBase(g), i) :: r == keys[i := GrantKey(g)]
    ensures (forall x | x in keys :: !StartsWith(x, GrantBase(g))) ==> r == keys + [GrantKey(g)]
    ensures |r| == |keys| || |r| == |keys| + 1
    ensures GrantKey(g) in r
    ensures forall x | x in r :: x == GrantKey(g) || x in keys
    ensures forall x | x in keys && !StartsWith(x, GrantBase(g)) :: x in r
    ensures |r| == |keys| + 1 <==> forall x | x in keys :: !StartsWith(x, GrantBase(g))
    ensures forall k | 0 <= k < |keys| :: r[k] == keys[k] || (r[k] == GrantKey(g) && StartsWith(keys[k], GrantBase(g)))
    ensures forall k | |keys| <= k < |r| :: r[k] == GrantKey(g)
  {
    var i := FindPrefix(keys, GrantBase(g));
    if i >= 0 then
      var r := keys[i := GrantKey(g)];
      assert r[i] == GrantKey(g);
      assert forall k | 0 <= k < |keys| && k != i :: r[k] == keys[k];
      assert forall j | FirstMatch(keys, GrantBase(g), j) :: j == i;
      r
    else keys + [GrantKey(g)]
  }

  /** The keys of a list of grants, in the list's order. */
  function GrantKeys(grants: seq<Grant>): (r: seq<string>)
    ensures |r| == |grants|
    ensures forall k | 0 <= k < |grants| :: r[k] == GrantKey(grants[k])
  {
    seq(|grants|, k requires 0 <= k < |grants| => GrantKey(grants[k]))
  }

  /** No grant of `grants` looks for a key that `x` starts with. */
  predicate Untouched(x: string, grants: seq<Grant>) {
    forall j | 0 <= j < |grants| :: !StartsWith(x, GrantBase(grants[j]))
  }

  /** The user grants applied in order over the role's keys: every earlier
      position keeps its key or holds a user key, every appended position
      holds a user key, and a key no grant looks for stays where it was. */
  function OverrideAll(keys: seq<string>, grants: seq<Grant>): (r: seq<string>)
    ensures |keys| <= |r| <= |keys| + |grants|
    ensures forall x | x in r :: x in keys || exists j | 0 <= j < |grants| :: x == GrantKey(grants[j])
    ensures grants != [] ==> GrantKey(grants[|grants| - 1]) in r
    ensures forall k | 0 <= k < |keys| :: r[k] == keys[k] || r[k] in GrantKeys(grants)
    ensures forall k | |keys| <= k < |r| :: r[k] in GrantKeys(grants)
    ensures forall k | 0 <= k < |keys| && Untouched(keys[k], grants) :: r[k] == keys[k]
    decreases |grants|
  {
    if grants == [] then keys
    else
      var g, rest := grants[0], grants[1..];
      var next := Override(keys, g);
      var r := OverrideAll(next, rest);
      GrantKeysCons(grants);
      OverrideAllStep(keys, grants, next, r);
      r
  }

  /** The contract of `OverrideAll` for a first grant, given the contract for
      the others. */
  lemma OverrideAllStep(keys: seq<string>, grants: seq<Grant>, next: seq<string>, r: seq<string>)
    requires grants != [] && next == Override(keys, grants[0])
    requires |next| <= |r| <= |next| + |grants| - 1
    requires forall x | x in r :: x in next || exists j | 0 <= j < |grants[1..]| :: x == GrantKey(grants[1..][j])
    requires |grants| > 1 ==> GrantKey(grants[|grants| - 1]) in r
    requires |grants| == 1 ==> r == next
    requires forall k | 0 <= k < |next| :: r[k] == next[k] || r[k] in GrantKeys(grants[1..])
    requires forall k | |next| <= k < |r| :: r[k] in GrantKeys(grants[1..])
    requires forall k | 0 <= k < |next| && Untouched(next[k], grants[1..]) :: r[k] == next[k]
    ensures |keys| <= |r| <= |keys| + |grants|
    ensures forall x | x in r :: x in keys || exists j | 0 <= j < |grants| :: x == GrantKey(grants[j])
    ensures GrantKey(grants[|grants| - 1]) in r
    ensures forall k | 0 <= k < |keys| :: r[k] == keys[k] || r[k] in GrantKeys(grants)
    ensures forall k | |keys| <= k < |r| :: r[k] in GrantKeys(grants)
    ensures forall k | 0 <= k < |keys| && Untouched(keys[k], grants) :: r[k] == keys[k]
  {
    var g, rest := grants[0], grants[1..];
    GrantKeysCons(grants);
    forall x | x in r
      ensures x in keys || exists j | 0 <= j < |grants| :: x == GrantKey(grants[j])
    {
      if x !in keys {
        if x in next {
          assert x == GrantKey(grants[0]);
        } else {
          var j :| 0 <= j < |rest| && x == GrantKey(rest[j]);
          assert x == GrantKey(grants[j + 1]);
        }
      }
    }
    forall k | 0 <= k < |keys|
      ensures r[k] == keys[k] || r[k] in GrantKeys(grants)
    {
      assert next[k] == keys[k] || next[k] == GrantKey(g);
    }
    forall k | |keys| <= k < |r|
      ensures r[k] in GrantKeys(grants)
    {
      if k < |next| {
        assert next[k] == GrantKey(g);
      }
    }
    forall k | 0 <= k < |keys| && Untouched(keys[k], grants)
      ensures r[k] == keys[k]
    {
      assert !StartsWith(keys[k], GrantBase(g));
      assert next[k] == keys[k];
      assert forall j | 0 <= j < |rest| :: rest[j] == grants[j + 1];
      assert Untouched(next[k], rest);
    }
  }

  /** The keys of a list of grants are the first grant's key, then the keys of
      the others. */
  lemma GrantKeysCons(grants: seq<Grant>)
    requires grants != []
    ensures GrantKeys(grants) == [GrantKey(grants[0])] + GrantKeys(grants[1..])
    ensures forall x | x in GrantKeys(grants[1..]) :: x in GrantKeys(grants)
  {
    var a, b := GrantKeys(grants), [GrantKey(grants[0])] + GrantKeys(grants[1..]);
    assert forall k | 0 <= k < |a| :: a[k] == b[k];
  }

  /** A user's permission keys: a super admin has only `super_admin`; anyone
      else has the role's keys, each left in place or replaced by a user key,
      followed by user keys that replaced nothing. */
  function CollectUserPermissions(u: User): (r: seq<string>)
    ensures u.isSuperAdmin ==> r == [SuperAdmin]
    ensures !u.isSuperAdmin ==> |u.roleGrants| <= |r| <= |u.roleGrants| + |u.userGrants|
    ensures !u.isSuperAdmin && u.userGrants == [] ==> r == GrantKeys(u.roleGrants)
    ensures !u.isSuperAdmin && u.userGrants != [] ==> GrantKey(u.userGrants[|u.userGrants| - 1]) in r
    ensures !u.isSuperAdmin ==> forall k | 0 <= k < |u.roleGrants| ::
      r[k] == GrantKey(u.roleGrants[k]) || r[k] in GrantKeys(u.userGrants)
    ensures !u.isSuperAdmin ==> forall k | |u.roleGrants| <= k < |r| :: r[k] in GrantKeys(u.userGrants)
    ensures !u.isSuperAdmin ==> forall k | 0 <= k < |u.roleGrants| && Untouched(GrantKey(u.roleGrants[k]), u.userGrants) ::
      r[k] == GrantKey(u.roleGrants[k])
  {
    if u.isSuperAdmin then [SuperAdmin]
    else OverrideAll(GrantKeys(u.roleGrants), u.userGrants)
  }

  /** A user grant replaces the first matching key only, in place: with two
      keys for `r:m`, a grant without a value rewrites the first and keeps the
      second. */
  lemma OverrideFirstOnly()
    ensures Override(["r:m:1", "r:m:2"], Grant("r", "m", "")) == ["r:m", "r:m:2"]
  {
    var keys, g := ["r:m:1", "r:m:2"], Grant("r", "m", "");
    assert GrantBase(g) == "r:m" == GrantKey(g);
    assert keys[0][..3] == "r:m";
    assert FirstMatch(keys, GrantBase(g), 0);
    assert keys[0 := "r:m"] == ["r:m", "r:m:2"];
  }

  /** Every collected key of an ordinary user is the key of one of its role
      or user grants. */
  lemma CollectedKeysGranted(u: User)
    requires !u.isSuperAdmin
    ensures forall x | x in CollectUserPermissions(u) ::
      (exists j | 0 <= j < |u.roleGrants| :: x == GrantKey(u.roleGrants[j])) ||
      (exists j | 0 <= j < |u.userGrants| :: x == GrantKey(u.userGrants[j]))
  {
    var role := GrantKeys(u.roleGrants);
    forall x | x in CollectUserPermissions(u) && x in role
      ensures exists j | 0 <= j < |u.roleGrants| :: x == GrantKey(u.roleGrants[j])
    {
      var j :| 0 <= j < |role| && role[j] == x;
      assert x == GrantKey(u.roleGrants[j]);
    }
  }

  /** The override matches by prefix: a user grant replaces a key of the
      same permission and resource with a value, and equally a key whose
      resource merely starts with the grant's (`read:menus` for a `read` on
      `menu`). */
  lemma OverrideMatchesPrefix(g: Grant, rest: string)
    ensures Override([BaseKey(g.permissao, g.recurso) + rest], g) == [GrantKey(g)]
  {
    var base := BaseKey(g.permissao, g.recurso);
    assert (base + rest)[..|base|] == base;
  }

  // ---------------------------------------------------------------------
  // The library's check

  /** What the library's check reads of a session; `None` is a missing
      permission list. */
  datatype Session = Session(isSuperAdmin: bool, permissions: Option<seq<string>>)

  const AdminAll := "admin:todos"

  /** The session library's `hasPermission`. */
  function HasPermission(s: Session, permissao: string, recurso: string, valor: string): bool {
    if s.isSuperAdmin || (s.permissions.Some? && SuperAdmin in s.permissions.value) then true
    else if s.permissions.Some? then
      var keys := s.permissions.value;
      if Key(permissao, recurso, valor) in keys then true
      else if valor != [] && BaseKey(permissao, recurso) in keys then true
      else if "admin:" + recurso in keys then true
      else AdminAll in keys
    else false
  }

  /** The keys any one of which grants `permissao` on `recurso` with
      `valor`. */
  function Granting(permissao: string, recurso: string, valor: string): (r: set<string>)
    ensures Key(permissao, recurso, valor) in r && AdminAll in r && SuperAdmin in r
  {
    {SuperAdmin, Key(permissao, recurso, valor), "admin:" + recurso, AdminAll}
    + (if valor != [] then {BaseKey(permissao, recurso)} else {})
  }

  /** Access is granted exactly to super admins and to sessions holding one
      of the granting keys. */
  lemma HasPermissionExactly(s: Session, permissao: string, recurso: string, valor: string)
    ensures HasPermission(s, permissao, recurso, valor) <==>
      s.isSuperAdmin || (s.permissions.Some? && exists x | x in s.permissions.value :: x in Granting(permissao, recurso, valor))
  {
  }

  /** Without permissions an ordinary session is denied everything. */
  lemma NoPermissionsDenied(s: Session, permissao: string, recurso: string, valor: string)
    requires !s.isSuperAdmin && (s.permissions.None? || s.permissions.value == [])
    ensures !HasPermission(s, permissao, recurso, valor)
  {
  }

  /** More keys never take access away. */
  lemma HasPermissionMonotone(s: Session, more: seq<string>, permissao: string, recurso: string, valor: string)
    requires s.permissions.Some? ==> forall x | x in s.permissions.value :: x in more
    requires HasPermission(s, permissao, recurso, valor)
    ensures HasPermission(s.(permissions := Some(more)), permissao, recurso, valor)
  {
    HasPermissionExactly(s, permissao, recurso, valor);
    HasPermissionExactly(s.(permissions := Some(more)), permissao, recurso, valor);
  }

  /** A check of one permission, as the multi-permission checks take them. */
  datatype Check = Check(permissao: string, recurso: string, valor: string)

  function Passes(s: Session, c: Check): bool {
    HasPermission(s, c.permissao, c.recurso, c.valor)
  }

  /** `checks.some(...)`: true when some check passes, false for none. */
  function HasAnyPermission(s: Session, checks: seq<Check>): (r: bool)
    ensures r <==> exists k | 0 <= k < |checks| :: Passes(s, checks[k])
  {
    if checks == [] then false
    else
      var rest := HasAnyPermission(s, checks[1..]);
      assert rest <==> exists k | 1 <= k < |checks| :: Passes(s, checks[k]) by {
        assert forall k | 1 <= k < |checks| :: checks[1..][k - 1] == checks[k];
      }
      Passes(s, checks[0]) || rest
  }

  /** `checks.every(...)`: true when every check passes, true for none. */
  function HasAllPermissions(s: Session, checks: seq<Check>): (r: bool)
    ensures r <==> forall k | 0 <= k < |checks| :: Passes(s, checks[k])
  {
    if checks == [] then true
    else
      var rest := HasAllPermissions(s, checks[1..]);
      assert rest <==> forall k | 1 <= k < |checks| :: Passes(s, checks[k]) by {
        assert forall k | 1 <= k < |checks| :: checks[1..][k - 1] == checks[k];
      }
      Passes(s, checks[0]) && rest
  }

  /** More keys never turn a passing list of checks into a failing one. */
  lemma ChecksMonotone(s: Session, more: seq<string>, checks: seq<Check>)
    requires s.permissions.Some? ==> forall x | x in s.permissions.value :: x in more
    ensures HasAnyPermission(s, checks) ==> HasAnyPermission(s.(permissions := Some(more)), checks)
    ensures HasAllPermissions(s, checks) ==> HasAllPermissions(s.(permissions := Some(more)), checks)
  {
    forall k | 0 <= k < |checks| && Passes(s, checks[k])
      ensures Passes(s.(permissions := Some(more)), checks[k])
    {
      HasPermissionMonotone(s, more, checks[k].permissao, checks[k].recurso, checks[k].valor);
    }
  }

  /** A super admin's collected keys pass every check. */
  lemma SuperAdminCollected(u: User, permissao: string, recurso: string, valor: string)
    requires u.isSuperAdmin
    ensures HasPermission(Session(false, Some(CollectUserPermissions(u))), permissao, recurso, valor)
  {
  }

  // ---------------------------------------------------------------------
  // The service's check

  /** A stored permission entry: a permission on a resource. */
  datatype Entry = Entry(permissao: string, recurso: string)

  const Admin := "admin"
  const Everything := "todos"

  /** The entry grants `permissao` on `recurso`, directly or through the
      `admin` permission or the `todos` resource. */
  predicate Covers(e: Entry, permissao: string, recurso: string) {
    (e.permissao == permissao || e.permissao == Admin) && (e.recurso == recurso || e.recurso == Everything)
  }

  /** The service's `hasPermission`: super admins, then `some` over the
      entries. */
  function ServiceHasPermission(isSuperAdmin: bool, entries: seq<Entry>, permissao: string, recurso: string): (r: bool)
    ensures r <==> isSuperAdmin || exists k | 0 <= k < |entries| :: Covers(entries[k], permissao, recurso)
  {
    if isSuperAdmin then true else SomeCovers(entries, permissao, recurso)
  }

  function SomeCovers(entries: seq<Entry>, permissao: string, recurso: string): (r: bool)
    ensures r <==> exists k | 0 <= k < |entries| :: Covers(entries[k], permissao, recurso)
  {
    if entries == [] then false
    else
      var rest := SomeCovers(entries[1..], permissao, recurso);
      assert rest <==> exists k | 1 <= k < |entries| :: Covers(entries[k], permissao, recurso) by {
        assert forall k | 1 <= k < |entries| :: entries[1..][k - 1] == entries[k];
      }
      Covers(entries[0], permissao, recurso) || rest
  }

  /** `(p, todos)` grants `p` on every resource, and `(admin, todos)`
      grants everything. */
  lemma ServiceWildcards(entries: seq<Entry>, p: string, permissao: string, recurso: string)
    ensures Entry(p, Everything) in entries ==> ServiceHasPermission(false, entries, p, recurso)
    ensures Entry(Admin, Everything) in entries ==> ServiceHasPermission(false, entries, permissao, recurso)
  {
  }

  /** More entries never revoke access, and no entries deny an ordinary
      user. */
  lemma ServiceMonotone(entries: seq<Entry>, more: seq<Entry>, permissao: string, recurso: string)
    requires forall e | e in entries :: e in more
    ensures ServiceHasPermission(false, entries, permissao, recurso) ==> ServiceHasPermission(false, more, permissao, recurso)
    ensures !ServiceHasPermission(false, [], permissao, recurso)
  {
    if ServiceHasPermission(false, entries, permissao, recurso) {
      var k :| 0 <= k < |entries| && Covers(entries[k], permissao, recurso);
      assert entries[k] in more;
    }
  }

  // ---------------------------------------------------------------------
  // The client hook's checks

  /** The permission state the client hook fetches. */
  datatype HookState = HookState(isAdmin: bool, isSuperAdmin: bool, permissions: seq<string>)

  function CanAccessMenu(h: HookState, menu: string): bool {
    h.isSuperAdmin || "read:menu:" + menu in h.permissions
  }

  function CanAccessSubmenu(h: HookState, path: string): bool {
    h.isSuperAdmin || "read:submenu:" + path in h.permissions
  }

  function CanAccessAdmin(h: HookState): bool {
    h.isAdmin || h.isSuperAdmin || "admin.full_access" in h.permissions || "*" in h.permissions
  }

  /** For an ordinary user the menu and submenu checks look for exactly the
      library's key of a `read` grant on `menu` or `submenu` with that
      value; `isAdmin` alone grants neither. */
  lemma HookUsesLibraryKeys(h: HookState, name: string)
    requires !h.isSuperAdmin && name != []
    ensures CanAccessMenu(h, name) <==> Key("read", "menu", name) in h.permissions
    ensures CanAccessSubmenu(h, name) <==> Key("read", "submenu", name) in h.permissions
  {
    assert Key("read", "menu", name) == "read:menu:" + name;
    assert Key("read", "submenu", name) == "read:submenu:" + name;
  }

  /** The hook honours no `admin:` override: a session holding only
      `admin:todos` passes the library's check on a menu but not the hook's. */
  lemma HookIgnoresAdminOverride(name: string)
    ensures HasPermission(Session(false, Some([AdminAll])), "read", "menu", name)
    ensures !CanAccessMenu(HookState(true, false, [AdminAll]), name)
  {
    assert "read:menu:" + name != AdminAll by {
      assert ("read:menu:" + name)[0] == 'r' != AdminAll[0];
    }
  }

  /** The admin area follows the hook's own flags, not the library's keys:
      `admin:todos` alone does not open it, while `isAdmin` alone opens it
      without opening any menu. */
  lemma HookAdminArea(name: string)
    ensures !CanAccessAdmin(HookState(false, false, [AdminAll]))
    ensures CanAccessAdmin(HookState(true, false, []))
    ensures !CanAccessMenu(HookState(true, false, []), name)
  {
  }

  /** A super admin passes every hook check. */
  lemma HookSuperAdmin(h: HookState, menu: string, path: string)
    requires h.isSuperAdmin
    ensures CanAccessMenu(h, menu) && CanAccessSubmenu(h, path) && CanAccessAdmin(h)
  {
  }
}

=== FILE: sql_text.dfy ===
/** How the export scripts write one value as SQL text: the JavaScript
    exporter's `escapeSqlValue` and `formatDate`, the backup script's value
    formatting, and the Python exporter's `escapar_valor_sql`, with the
    quote doubling they share and the date texts they produce. */
module SqlText {
  import opened Base
  import opened Text
  import opened Numbers

  // ---------------------------------------------------------------------
  // Quote doubling

  /** Every `q` written twice: SQL's `'` → `''` and CSV's `"` → `""`. */
  function Double(s: string, q: char): (r: string)
    ensures |r| == |s| + Count(s, q)
  {
    if s == [] then [] else (if s[0] == q then [q, q] else [s[0]]) + Double(s[1..], q)
  }

  /** Reading doubled text back: a lone `q` is malformed. */
  function Undouble(t: string, q: char): (r: Option<string>)
    decreases |t|
  {
    if t == [] then Some([])
    else if t[0] != q then
      match Undouble(t[1..], q)
      case Some(rest) => Some([t[0]] + rest)
      case None => None
    else if |t| >= 2 && t[1] == q then
      match Undouble(t[2..], q)
      case Some(rest) => Some([q] + rest)
      case None => None
    else None
  }

  /** Undoubling inverts doubling. */
  lemma {:induction false} UndoubleDouble(s: string, q: char)
    ensures Undouble(Double(s, q), q) == Some(s)
  {
    if s != [] {
      UndoubleDouble(s[1..], q);
      var t := Double(s, q);
      if s[0] == q {
        assert t[2..] == Double(s[1..], q);
      } else {
        assert t[1..] == Double(s[1..], q);
      }
      assert s == [s[0]] + s[1..];
    }
  }

  /** `s` between two `q`s with every inner `q` doubled. */
  function Quoted(s: string, q: char): (r: string)
    ensures |r| >= 2 && r[0] == q && r[|r| - 1] == q
  {
    [q] + Double(s, q) + [q]
  }

  /** The text between the outer quotes, undoubled; `None` when the text is
      not a quoted literal. */
  function Unquoted(t: string, q: char): (r: Option<string>) {
    if |t| >= 2 && t[0] == q && t[|t| - 1] == q then Undouble(t[1..|t| - 1], q) else None
  }

  /** Removing the outer quotes and undoubling gives the original text back;
      so distinct texts have distinct literals. */
  lemma QuotedRoundTrip(s: string, q: char)
    ensures Unquoted(Quoted(s, q), q) == Some(s)
  {
    var t := Quoted(s, q);
    assert t[1..|t| - 1] == Double(s, q);
    UndoubleDouble(s, q);
  }

  lemma QuotedInjective(a: string, b: string, q: char)
    requires Quoted(a, q) == Quoted(b, q)
    ensures a == b
  {
    QuotedRoundTrip(a, q);
    QuotedRoundTrip(b, q);
  }

  // ---------------------------------------------------------------------
  // Numbers as text

  /** JavaScript `toString` and Python `str` of an integer. */
  function IntText(i: int): (r: string)
    ensures r != [] && '\'' !in r
  {
    if i < 0 then "-" + NatToDigits(-i) else NatToDigits(i)
  }

  /** The last `w` decimal digits of `n`, zero-padded. */
  function Pad(n: nat, w: nat): (r: string)
    ensures |r| == w && forall k | 0 <= k < w :: IsDigit(r[k])
  {
    if w == 0 then [] else Pad(n / 10, w - 1) + [DigitChar(n % 10)]
  }

  // ---------------------------------------------------------------------
  // Dates

  /** A calendar instant in UTC with millisecond precision. */
  datatype DateTime = DateTime(year: int, month: nat, day: nat, hour: nat, minute: nat, second: nat, millis: nat)

  /** The year of an ISO string: four digits for years 0 to 9999, else a
      sign and six digits. */
  function YearText(y: int): (r: string)
    ensures 0 <= y <= 9999 ==> r == Pad(y, 4)
    ensures 'T' !in r
  {
    if 0 <= y <= 9999 then Pad(y, 4) else (if y < 0 then "-" else "+") + Pad(if y < 0 then -y else y, 6)
  }

  function DatePart(d: DateTime): (r: string)
    ensures 'T' !in r
  {
    YearText(d.year) + "-" + Pad(d.month, 2) + "-" + Pad(d.day, 2)
  }

  function TimePart(d: DateTime): (r: string)
    ensures |r| == 8
  {
    Clock(d.hour, d.minute, d.second)
  }

  /** JavaScript `toISOString`. */
  function IsoString(d: DateTime): string {
    DatePart(d) + "T" + TimePart(d) + MillisPart(d)
  }

  function MillisPart(d: DateTime): string {
    "." + Pad(d.millis, 3) + "Z"
  }

  /** The exporter's `formatDate`: the ISO string with its first `T` made a
      space, cut to 19 characters. */
  function FormatDate(d: DateTime): string {
    Substring(ReplaceFirst(IsoString(d), 'T', ' '), 0, 19)
  }

  /** The backup script's date text: the ISO string cut to 19 characters,
      then its first `T` made a space. */
  function BackupDate(d: DateTime): string {
    ReplaceFirst(Slice(IsoString(d), 0, 19), 'T', ' ')
  }

  /** Cutting and replacing the first occurrence commute. */
  lemma SliceReplaceFirst(s: string, a: char, b: char, n: nat)
    ensures Slice(ReplaceFirst(s, a, b), 0, n) == ReplaceFirst(Slice(s, 0, n), a, b)
  {
    var t := Slice(s, 0, n);
    var i := Find(s, a, 0);
    if i < 0 {
      assert a !in t;
    } else {
      assert s[i] == a && a !in s[..i];
      if i < |t| {
        assert t[i] == a && t[..i] == s[..i];
      } else {
        assert a !in t by {
          forall k | 0 <= k < |t|
            ensures t[k] != a
          {
            assert s[..i][k] == s[k];
          }
        }
      }
    }
  }

  /** The two JavaScript scripts write the same date text. */
  lemma BackupDateAgrees(d: DateTime)
    ensures BackupDate(d) == FormatDate(d)
  {
    SliceReplaceFirst(IsoString(d), 'T', ' ', 19);
  }

  /** A number of exactly `w` digits is its own `w`-digit padding. */
  lemma {:induction false} NatToDigitsIsPad(n: nat, w: nat)
    requires w >= 1 && Pow10(w - 1) <= n < Pow10(w)
    ensures NatToDigits(n) == Pad(n, w)
  {
    if w > 1 {
      NatToDigitsIsPad(n / 10, w - 1);
    }
  }

  lemma FourDigitYear(y: nat)
    requires 1000 <= y <= 9999
    ensures NatToDigits(y) == Pad(y, 4)
  {
    assert Pow10(4) == 10000 && Pow10(3) == 1000 by {
      assert Pow10(1) == 10 && Pow10(2) == 100;
    }
    NatToDigitsIsPad(y, 4);
  }

  /** A Python `datetime`; its year is never negative. */
  datatype Stamp = Stamp(year: nat, month: nat, day: nat, hour: nat, minute: nat, second: nat)

  /** The instant a JavaScript `Date` and a Python `datetime` share, to the
      second. */
  function ToStamp(d: DateTime): (s: Stamp)
    requires d.year >= 0
    ensures s.year == d.year && s.second == d.second
  {
    Stamp(d.year, d.month, d.day, d.hour, d.minute, d.second)
  }

  function Clock(hour: nat, minute: nat, second: nat): (r: string)
    ensures |r| == 8
  {
    Pad(hour, 2) + ":" + Pad(minute, 2) + ":" + Pad(second, 2)
  }

  /** Python's `%Y-%m-%d`: `%Y` is the year in decimal without padding, as
      the C library writes it. */
  function PyDateText(year: nat, month: nat, day: nat): string {
    NatToDigits(year) + "-" + Pad(month, 2) + "-" + Pad(day, 2)
  }

  /** Python's `%Y-%m-%d %H:%M:%S`. */
  function PyDateTimeText(s: Stamp): string {
    PyDateText(s.year, s.month, s.day) + " " + Clock(s.hour, s.minute, s.second)
  }

  /** For four-digit years the JavaScript date text and Python's datetime
      text agree: `YYYY-MM-DD HH:MM:SS`. */
  lemma DateTextsAgree(d: DateTime)
    requires 1000 <= d.year <= 9999
    ensures FormatDate(d) == PyDateTimeText(ToStamp(d))
  {
    FourDigitYear(d.year);
    assert DatePart(d) == PyDateText(d.year, d.month, d.day);
    CutAfterTime(DatePart(d), TimePart(d), MillisPart(d));
  }

  /** An ISO-shaped text, its `T` made a space and cut after the seconds. */
  lemma CutAfterTime(date: string, time: string, tail: string)
    requires |date| == 10 && |time| == 8 && 'T' !in date
    ensures Substring(ReplaceFirst(date + "T" + time + tail, 'T', ' '), 0, 19) == date + " " + time
  {
    var iso := date + "T" + time + tail;
    assert iso[|date|] == 'T' && iso[..|date|] == date;
    var replaced := ReplaceFirst(iso, 'T', ' ');
    assert replaced == iso[|date| := ' '];
    assert replaced[..19] == date + " " + time;
  }

  // ---------------------------------------------------------------------
  // Values

  /** A JavaScript value as the exporters see it; `undefined` is `null`,
      numbers other than integers are the text `toString` gives them. */
  datatype JsValue = JsNull | JsBool(b: bool) | JsString(s: string) | JsDate(d: DateTime) | JsInt(i: int) | JsOther(shown: string)

  /** The exporter's `escapeSqlValue`. */
  function EscapeSqlValue(v: JsValue): string {
    match v
    case JsNull => "NULL"
    case JsBool(b) => if b then "1" else "0"
    case JsString(s) => Quoted(s, '\'')
    case JsDate(d) => "'" + FormatDate(d) + "'"
    case JsInt(i) => IntText(i)
    case JsOther(shown) => shown
  }

  /** The backup script's value formatting inside `formatRecordForSQL`. */
  function BackupValue(v: JsValue): string {
    match v
    case JsNull => "NULL"
    case JsBool(b) => if b then "1" else "0"
    case JsString(s) => Quoted(s, '\'')
    case JsDate(d) => "'" + BackupDate(d) + "'"
    case JsInt(i) => IntText(i)
    case JsOther(shown) => shown
  }

  /** The backup script writes every value exactly as the exporter does. */
  lemma BackupValueAgrees(v: JsValue)
    ensures BackupValue(v) == EscapeSqlValue(v)
  {
    if v.JsDate? {
      BackupDateAgrees(v.d);
    }
  }

  /** A string's SQL literal reads back as the string. */
  lemma EscapeStringRoundTrip(s: string)
    ensures Unquoted(EscapeSqlValue(JsString(s)), '\'') == Some(s)
  {
    QuotedRoundTrip(s, '\'');
  }

  /** `formatRecordForSQL`: the values in parentheses, separated by `, `. */
  function FormatRecord(values: seq<JsValue>): (r: string)
    ensures |r| >= 2 && r[0] == '(' && r[|r| - 1] == ')'
  {
    "(" + Join(BackupValues(values), ", ") + ")"
  }

  function BackupValues(values: seq<JsValue>): (r: seq<string>)
    ensures |r| == |values|
    ensures forall k | 0 <= k < |values| :: r[k] == BackupValue(values[k])
  {
    seq(|values|, k requires 0 <= k < |values| => BackupValue(values[k]))
  }

  /** A Python value as the exporter sees it; `datetime` is tested before
      `date`, of which it is a subclass. */
  datatype PyValue = PyNone | PyString(s: string) | PyDateTime(stamp: Stamp) | PyDate(year: nat, month: nat, day: nat)
    | PyBool(b: bool) | PyInt(i: int) | PyOther(shown: string)

  /** The Python exporter's `escapar_valor_sql`. */
  function EscaparValorSql(v: PyValue): string {
    match v
    case PyNone => "NULL"
    case PyString(s) => Quoted(s, '\'')
    case PyDateTime(stamp) => "'" + PyDateTimeText(stamp) + "'"
    case PyDate(y, m, d) => "'" + PyDateText(y, m, d) + "'"
    case PyBool(b) => if b then "True" else "False"
    case PyInt(i) => IntText(i)
    case PyOther(shown) => shown
  }

  /** The JavaScript and Python exporters agree on nulls, strings and
      integers. */
  lemma ExportersAgree(s: string, i: int)
    ensures EscapeSqlValue(JsNull) == EscaparValorSql(PyNone)
    ensures EscapeSqlValue(JsString(s)) == EscaparValorSql(PyString(s))
    ensures EscapeSqlValue(JsInt(i)) == EscaparValorSql(PyInt(i))
  {
  }

  /** They agree on datetimes of four-digit years. */
  lemma ExportersAgreeOnDates(d: DateTime)
    requires 1000 <= d.year <= 9999
    ensures EscapeSqlValue(JsDate(d)) == EscaparValorSql(PyDateTime(ToStamp(d)))
  {
    DateTextsAgree(d);
  }

  /** They differ on booleans: `1`/`0` against `True`/`False`. */
  lemma ExportersDifferOnBooleans(b: bool)
    ensures EscapeSqlValue(JsBool(b)) == (if b then "1" else "0")
    ensures EscaparValorSql(PyBool(b)) == (if b then "True" else "False")
    ensures EscapeSqlValue(JsBool(b)) != EscaparValorSql(PyBool(b))
  {
    assert |EscapeSqlValue(JsBool(b))| == 1;
  }
}

=== FILE: stock_report.dfy ===
/** The fixed-column stock reports (location-coded finished goods and fabric
    lots): line classification, column extraction and field normalisation. */
module StockReport {
  import opened Base
  import opened Text
  import opened Numbers
  import opened Layout

  /** A normalised field value; `None` is SQL NULL. */
  datatype Value =
    | Str(text: string)
    | Num(amount: Option<Decimal>)
    | Day(iso: Option<string>)

  datatype Field = Field(name: string, value: Value)

  type Record = seq<Field>

  /** How a report recognises a data line once blanks and noise are gone. */
  datatype Shape =
    /** Longer than ten characters, a '.' second and not indented. */
    | LocationCoded
    /** Starts with one of `categories`; a location-coded line mentioning
        `crossRef` is a cross-reference, not data. */
    | Category(categories: seq<string>, crossRef: string)

  /** One report layout. */
  datatype Variant = Variant(
    noisePrefixes: seq<string>,
    noiseInfixes: seq<string>,
    shape: Shape,
    columns: seq<Column>)

  datatype Skip = Blank | Noise | CrossReference | Misshapen

  datatype Outcome = Parsed(record: Record) | Skipped(reason: Skip)

  // ---------------------------------------------------------------------
  // Field extraction

  /** The raw text a locator selects on a (right-trimmed) line. */
  function RawText(at: Locator, line: string): (r: string)
    ensures |r| <= |line|
  {
    match at
    case Fixed(start, end) => Slice(line, start, end)
    case AfterMarker(marker, from, skip, stop, fallback, overhang) =>
      // The source tests `find(marker) + skip > 1`, which for skip == 2 is the
      // same as the marker being present.
      var a := Find(line, marker, from);
      if a < 0 then []
      else
        var s := a + skip;
        var e := Find(line, stop, s);
        var end := if e < 0 then s + fallback else e;
        Slice(line, s, end + overhang)
  }

  /** `DD/MM/YY` to `20YY-MM-DD`: text with a '/' must split into exactly three
      parts; month and day are zero-filled to two places, the year is not. */
  function DateToIso(t: string): (r: Option<string>)
    ensures r.Some? <==> Count(t, '/') == 2
  {
    if t != [] && '/' in t then
      var parts := SplitOn(t, '/');
      if |parts| == 3 then Some("20" + parts[2] + "-" + ZFill(parts[1], 2) + "-" + ZFill(parts[0], 2))
      else None
    else
      CountAbsent(t, '/');
      None
  }

  /** A field value from its raw text: stripped, then for numbers an empty
      text is NULL and a comma is the decimal separator, and an unreadable
      number or date is NULL. */
  function Normalize(kind: Kind, raw: string): (v: Value)
    ensures kind == Plain <==> v.Str?
    ensures kind == Numeric <==> v.Num?
    ensures v.Str? ==> IsStripped(Py, v.text) && |v.text| <= |raw|
    ensures v.Num? && v.amount.Some? ==> !AllSpace(Py, raw)
  {
    var t := Strip(Py, raw);
    match kind
    case Plain => Str(t)
    case Numeric => Num(if t == [] then None else ParseDecimal(ReplaceAll(t, ',', '.')))
    case DayMonthYear => Day(DateToIso(t))
  }

  /** One field per column, named after it, in column order. */
  function Extract(columns: seq<Column>, line: string): (r: Record)
    ensures |r| == |columns|
    ensures forall k | 0 <= k < |r| :: r[k].name == columns[k].name
    ensures forall k | 0 <= k < |r| :: (columns[k].kind == Plain <==> r[k].value.Str?)
  {
    seq(|columns|, k requires 0 <= k < |columns| =>
      Field(columns[k].name, Normalize(columns[k].kind, RawText(columns[k].at, line))))
  }

  // ---------------------------------------------------------------------
  // Line classification

  predicate IsNoise(v: Variant, line: string) {
    || (exists p | p in v.noisePrefixes :: StartsWith(line, p))
    || (exists q | q in v.noiseInfixes :: Contains(line, q))
  }

  /** What the report parser makes of one raw line: right-trim it, drop blank
      lines and noise (headers, separators, totals), check the data-line shape,
      then cut the columns out of the trimmed line. */
  function Classify(v: Variant, raw: string): (r: Outcome)
    ensures r == Skipped(Blank) <==> AllSpace(Py, raw)
    ensures r.Parsed? ==> |r.record| == |v.columns|
    ensures r.Parsed? ==> !IsNoise(v, RStrip(Py, raw))
    ensures r.Parsed? && v.shape.Category? ==>
      exists c | c in v.shape.categories :: StartsWith(raw, c)
    ensures r.Parsed? && v.shape.LocationCoded? ==>
      var line := RStrip(Py, raw); |line| > 10 && line[1] == '.' && line[0] != ' '
    ensures r.Parsed? && v.shape.Category? ==>
      var line := RStrip(Py, raw); !(|line| > 10 && line[1] == '.' && Contains(line, v.shape.crossRef))
    ensures r.Parsed? ==> r.record == Extract(v.columns, RStrip(Py, raw))
  {
    var line := RStrip(Py, raw);
    assert AllSpace(Py, line) <==> AllSpace(Py, raw) by {
      assert forall k | 0 <= k < |line| :: raw[k] == line[k];
    }
    if Strip(Py, line) == [] then Skipped(Blank)
    else if IsNoise(v, line) then Skipped(Noise)
    else
      match v.shape
      case LocationCoded =>
        if |line| > 10 && line[1] == '.' && !StartsWith(line, " ") then Parsed(Extract(v.columns, line))
        else Skipped(Misshapen)
      case Category(categories, crossRef) =>
        if |line| > 10 && line[1] == '.' && Contains(line, crossRef) then Skipped(CrossReference)
        else if exists c | c in categories :: StartsWith(line, c) then
          PrefixStartsWith(raw, line, categories);
          Parsed(Extract(v.columns, line))
        else Skipped(Misshapen)
  }

  /** A prefix of `s` that starts with one of `cs` makes `s` start with it. */
  lemma PrefixStartsWith(s: string, line: string, cs: seq<string>)
    requires |line| <= |s| && line == s[..|line|]
    requires exists c | c in cs :: StartsWith(line, c)
    ensures exists c | c in cs :: StartsWith(s, c)
  {
    var c :| c in cs && StartsWith(line, c);
    assert s[..|c|] == line[..|c|];
  }

  /** The converse of the rejections: a non-blank line that is not noise
      and has its report's data-line shape is parsed, into the columns of
      the trimmed line. */
  lemma ClassifyAccepts(v: Variant, raw: string)
    requires !AllSpace(Py, raw) && !IsNoise(v, RStrip(Py, raw))
    ensures v.shape.LocationCoded? ==>
      var line := RStrip(Py, raw);
      |line| > 10 && line[1] == '.' && line[0] != ' ' ==> Classify(v, raw) == Parsed(Extract(v.columns, line))
    ensures v.shape.Category? ==>
      var line := RStrip(Py, raw);
      && !(|line| > 10 && line[1] == '.' && Contains(line, v.shape.crossRef))
      && (exists c | c in v.shape.categories :: StartsWith(line, c))
      ==> Classify(v, raw) == Parsed(Extract(v.columns, line))
  {
    var line := RStrip(Py, raw);
    assert !StartsWith(line, " ") <== line[0] != ' ' by {
      if |line| > 0 && StartsWith(line, " ") { assert line[..1][0] == line[0]; }
    }
  }

  /** The record of a data line, or `None`. */
  function ParseLine(v: Variant, raw: string): (r: Option<Record>)
    ensures r.Some? <==> Classify(v, raw).Parsed?
    ensures r.Some? ==> |r.value| == |v.columns| && !AllSpace(Py, raw)
  {
    match Classify(v, raw)
    case Parsed(record) => Some(record)
    case Skipped(_) => None
  }

  // ---------------------------------------------------------------------
  // Round trip: a row rendered in a location-coded layout reads back

  /** The text a report shows for a value: numbers with a decimal comma, NULL
      as a blank. */
  function CellText(v: Value): string {
    match v
    case Str(t) => t
    case Num(None) => []
    case Num(Some(d)) => FormatComma(d)
    case Day(None) => []
    case Day(Some(iso)) => iso
  }

  function Cells(vals: seq<Value>): (texts: seq<string>)
    ensures |texts| == |vals|
    ensures forall k | 0 <= k < |vals| :: texts[k] == CellText(vals[k])
  {
    seq(|vals|, k requires 0 <= k < |vals| => CellText(vals[k]))
  }

  /** A value of the right kind whose text fits, as the report generator
      would write it: texts without surrounding whitespace. */
  predicate CellFits(c: Column, v: Value) {
    && c.at.Fixed?
    && (c.kind == Plain ==> v.Str? && IsStripped(Py, v.text))
    && (c.kind == Numeric ==> v.Num?)
    && c.kind != DayMonthYear
    && |CellText(v)| <= Width(c)
  }

  /** Normalising a padded cell gives back the value it shows. */
  lemma CellRoundTrip(c: Column, v: Value)
    requires CellFits(c, v)
    ensures Normalize(c.kind, PadRight(CellText(v), Width(c))) == v
  {
    var w := Width(c);
    match v
    case Str(t) =>
      StripPadRight(Py, t, w);
    case Num(None) =>
      assert AllSpace(Py, PadRight([], w));
    case Num(Some(d)) =>
      FormatCommaShape(d);
      StripPadRight(Py, FormatComma(d), w);
      ParseFormatComma(d);
  }

  /** The record a row of values makes in a layout. */
  function RecordOf(cols: seq<Column>, vals: seq<Value>): (r: Record)
    requires |vals| == |cols|
    ensures |r| == |cols|
    ensures forall k | 0 <= k < |cols| :: r[k] == Field(cols[k].name, vals[k])
  {
    seq(|cols|, k requires 0 <= k < |cols| => Field(cols[k].name, vals[k]))
  }

  /** Reading the columns of a rendered row gives the row back. */
  lemma ExtractRendered(cols: seq<Column>, vals: seq<Value>)
    requires Tiled(cols) && |vals| == |cols| && forall k | 0 <= k < |cols| :: CellFits(cols[k], vals[k])
    ensures Fits(cols, Cells(vals))
    ensures Extract(cols, Render(cols, Cells(vals))) == RecordOf(cols, vals)
  {
    var texts := Cells(vals);
    var line := Render(cols, texts);
    forall k | 0 <= k < |cols|
      ensures Extract(cols, line)[k] == RecordOf(cols, vals)[k]
    {
      assert RawText(cols[k].at, line) == PadRight(texts[k], Width(cols[k]));
      CellRoundTrip(cols[k], vals[k]);
    }
  }

  /** The line a report generator writes for a row of values. */
  function RenderRow(cols: seq<Column>, vals: seq<Value>): (line: string)
    requires Tiled(cols) && |vals| == |cols| && forall k | 0 <= k < |cols| :: CellFits(cols[k], vals[k])
    ensures Extract(cols, line) == RecordOf(cols, vals)
    ensures |line| == if cols == [] then 0 else cols[|cols| - 1].at.end
    ensures forall k | 0 <= k < |cols| ::
      Slice(line, cols[k].at.start, cols[k].at.end) == PadRight(CellText(vals[k]), Width(cols[k]))
  {
    ExtractRendered(cols, vals);
    Render(cols, Cells(vals))
  }

  /** Right-trimming a line first does not change its fixed columns. */
  lemma ExtractRStrip(cols: seq<Column>, line: string)
    requires forall k | 0 <= k < |cols| :: cols[k].at.Fixed?
    ensures Extract(cols, RStrip(Py, line)) == Extract(cols, line)
  {
    var a := Extract(cols, RStrip(Py, line));
    var b := Extract(cols, line);
    forall k | 0 <= k < |cols|
      ensures a[k] == b[k]
    {
      FieldRStrip(cols[k], line);
    }
  }

  lemma FieldRStrip(c: Column, line: string)
    requires c.at.Fixed?
    ensures Normalize(c.kind, RawText(c.at, RStrip(Py, line))) == Normalize(c.kind, RawText(c.at, line))
  {
    var a := RawText(c.at, RStrip(Py, line));
    var b := RawText(c.at, line);
    assert a == Slice(RStrip(Py, line), c.at.start, c.at.end);
    assert b == Slice(line, c.at.start, c.at.end);
    StripSliceRStrip(Py, line, c.at.start, c.at.end);
    NormalizeStripped(c.kind, a, b);
  }

  /** A field's value depends only on its raw text with the blanks trimmed. */
  lemma NormalizeStripped(kind: Kind, a: string, b: string)
    requires Strip(Py, a) == Strip(Py, b)
    ensures Normalize(kind, a) == Normalize(kind, b)
  {
  }

  // ---------------------------------------------------------------------
  // Round trip through the line classifier

  /** A location-coded layout whose rendered rows the classifier accepts:
      the location column comes first and holds the '.', the second column
      starts past index 10, no noise prefix has a '.' second, and no noise
      infix can occur in a number. */
  predicate LocationLayout(v: Variant) {
    && v.shape == LocationCoded
    && Tiled(v.columns) && |v.columns| >= 2
    && v.columns[0].at.start == 0 && v.columns[0].at.end >= 2 && v.columns[1].at.start >= 10
    && (forall k | 0 <= k < |v.columns| :: v.columns[k].kind != DayMonthYear)
    && (forall p | p in v.noisePrefixes :: |p| >= 2 && p[1] != '.')
    && (forall q | q in v.noiseInfixes :: q != [] && ' ' !in q && !IsNumeral(q[0]))
  }

  /** A row of a location-coded report: a location such as `1.01.A.001`, a
      non-blank second field, and no noise infix in any text field. */
  predicate LocationRow(v: Variant, vals: seq<Value>) {
    && |vals| == |v.columns| && |vals| >= 2
    && (forall k | 0 <= k < |vals| :: CellFits(v.columns[k], vals[k]))
    && vals[0].Str? && |vals[0].text| >= 2 && vals[0].text[1] == '.'
    && CellText(vals[1]) != []
    && (forall k, q | 0 <= k < |vals| && q in v.noiseInfixes :: vals[k].Str? ==> !Contains(vals[k].text, q))
  }

  /** A rendered row of a location-coded report parses back to its record. */
  lemma RenderParse(v: Variant, vals: seq<Value>)
    requires LocationLayout(v) && LocationRow(v, vals)
    ensures ParseLine(v, RenderRow(v.columns, vals)) == Some(RecordOf(v.columns, vals))
  {
    var cols := v.columns;
    var line := RenderRow(cols, vals);
    LocationLead(cols, vals, line);
    SecondLead(cols, vals, line);
    TrimmedLead(line, cols[1].at.start);
    forall q | q in v.noiseInfixes
      ensures !Contains(line, q)
    {
      RowClean(v, vals, q);
    }
    LocationAccepts(v, line);
    ExtractRStrip(v.columns, line);
  }

  /** Right-trimming keeps a line's first characters up to a visible one. */
  lemma TrimmedLead(line: string, s: nat)
    requires s < |line| && !IsSpace(Py, line[s]) && s >= 2
    ensures var t := RStrip(Py, line);
      |t| > s && t[0] == line[0] && t[1] == line[1]
  {
  }

  /** The classifier accepts a non-blank line of a location-coded report
      whose trimmed form is long enough, has a '.' second, starts with a
      visible character and holds no noise. */
  lemma LocationAccepts(v: Variant, line: string)
    requires v.shape == LocationCoded
    requires forall p | p in v.noisePrefixes :: |p| >= 2 && p[1] != '.'
    requires forall q | q in v.noiseInfixes :: !Contains(line, q)
    requires |RStrip(Py, line)| > 10 && RStrip(Py, line)[1] == '.' && line[0] != ' '
    requires line[0] == RStrip(Py, line)[0] && !IsSpace(Py, line[0])
    ensures ParseLine(v, line) == Some(Extract(v.columns, RStrip(Py, line)))
  {
    var t := RStrip(Py, line);
    assert !AllSpace(Py, line) by { assert !IsSpace(Py, line[0]); }
    assert !StartsWith(t, " ") by { assert t[..1][0] == t[0]; }
    forall q | q in v.noiseInfixes
      ensures !Contains(t, q)
    {
      ContainsWithin(line, 0, |t|, q);
      assert line[0..|t|] == t;
    }
    assert !IsNoise(v, t);
  }

  /** A rendered row starts with its location, whose second character is
      the '.'. */
  lemma LocationLead(cols: seq<Column>, vals: seq<Value>, line: string)
    requires |cols| >= 1 && |vals| == |cols| && cols[0].at.Fixed? && cols[0].at.start == 0
    requires Slice(line, 0, cols[0].at.end) == PadRight(CellText(vals[0]), Width(cols[0]))
    requires vals[0].Str? && IsStripped(Py, vals[0].text) && |vals[0].text| >= 2 && vals[0].text[1] == '.'
    ensures |line| > 1 && line[1] == '.' && !IsSpace(Py, line[0]) && line[0] != ' '
  {
    CellStart(line, 0, cols[0].at.end, vals[0].text, Width(cols[0]));
  }

  /** The second column of a rendered row starts with a visible character. */
  lemma SecondLead(cols: seq<Column>, vals: seq<Value>, line: string)
    requires |cols| >= 2 && |vals| == |cols| && cols[1].at.Fixed?
    requires Slice(line, cols[1].at.start, cols[1].at.end) == PadRight(CellText(vals[1]), Width(cols[1]))
    requires CellText(vals[1]) != [] && !vals[1].Day?
    requires vals[1].Str? ==> IsStripped(Py, vals[1].text)
    ensures |line| > cols[1].at.start && !IsSpace(Py, line[cols[1].at.start])
  {
    CellLead(vals[1]);
    CellStart(line, cols[1].at.start, cols[1].at.end, CellText(vals[1]), Width(cols[1]));
  }

  /** A non-empty text left-aligned in a cell of a line begins the cell. */
  lemma CellStart(line: string, i: nat, j: nat, text: string, w: nat)
    requires Slice(line, i, j) == PadRight(text, w) && text != []
    ensures i < |line| && line[i] == text[0]
    ensures |text| >= 2 ==> i + 1 < |line| && line[i + 1] == text[1]
  {
    var cell := PadRight(text, w);
    assert cell[..|text|] == text;
    assert cell[0] == text[0];
    if |text| >= 2 {
      assert cell[1] == text[1];
    }
  }

  /** A non-empty cell text starts with a visible character. */
  lemma CellLead(v: Value)
    requires v.Str? ==> IsStripped(Py, v.text)
    requires !v.Day?
    ensures CellText(v) != [] ==> !IsSpace(Py, CellText(v)[0])
  {
    if v.Num? && v.amount.Some? {
      FormatCommaShape(v.amount.value);
    }
  }

  /** No noise infix occurs anywhere on a rendered row. */
  lemma RowClean(v: Variant, vals: seq<Value>, q: string)
    requires LocationLayout(v) && LocationRow(v, vals) && q in v.noiseInfixes
    ensures !Contains(RenderRow(v.columns, vals), q)
  {
    assert q != [] && ' ' !in q && !IsNumeral(q[0]);
    assert forall k | 0 <= k < |vals| :: vals[k].Str? ==> !Contains(vals[k].text, q);
    RenderClean(v.columns, vals, q);
  }

  /** A pattern without blanks that starts with a non-numeral and occurs in
      no text cell occurs nowhere on the rendered row. */
  lemma RenderClean(cols: seq<Column>, vals: seq<Value>, q: string)
    requires Tiled(cols) && |vals| == |cols| && forall k | 0 <= k < |cols| :: CellFits(cols[k], vals[k])
    requires q != [] && ' ' !in q && !IsNumeral(q[0])
    requires forall k | 0 <= k < |vals| :: vals[k].Str? ==> !Contains(vals[k].text, q)
    ensures !Contains(RenderRow(cols, vals), q)
  {
    var texts := Cells(vals);
    forall k | 0 <= k < |vals|
      ensures !Contains(texts[k], q)
    {
      assert CellFits(cols[k], vals[k]);
      CellClean(vals[k], q);
    }
    ExtractRendered(cols, vals);
    RenderContains(cols, texts, q);
  }

  /** A number's text cannot contain a pattern that starts with a
      non-numeral. */
  lemma CellClean(v: Value, q: string)
    requires q != [] && !IsNumeral(q[0]) && !v.Day?
    requires v.Str? ==> !Contains(v.text, q)
    ensures !Contains(CellText(v), q)
  {
    if v.Num? {
      if v.amount.Some? {
        FormatCommaShape(v.amount.value);
      }
      NotContainsFirst(CellText(v), q);
    }
  }

  // ---------------------------------------------------------------------
  // The three report layouts

  function TextAt(name: string, start: nat, end: nat): Column {
    Column(name, Fixed(start, end), Plain)
  }

  function NumberAt(name: string, start: nat, end: nat): Column {
    Column(name, Fixed(start, end), Numeric)
  }

  /** Finished goods by warehouse location (`estsc01.txt`). */
  const Estsc01 := Variant(
    ["CORTTEX", "MAPEAMENTO", "PERIODO", "LOCALIZAC", "---"],
    ["TOTAL"],
    LocationCoded,
    [ TextAt("localizacao", 0, 10), TextAt("codigo", 11, 19), TextAt("apelido", 20, 44),
      TextAt("familia", 45, 47), TextAt("qual", 48, 51), TextAt("qmm", 52, 55),
      TextAt("cor", 56, 59), NumberAt("qtde", 60, 69), TextAt("desc_cor", 70, 94),
      TextAt("tam", 95, 98), TextAt("tamd", 99, 103), TextAt("embalagem_vol", 104, 119),
      TextAt("un", 120, 122), NumberAt("peso_liq", 123, 132), NumberAt("peso_bruto", 133, 142) ])

  /** Finished goods of the garment plant (`confec01.txt`), whose parser is a
      copy of the one above. */
  const Confec01 := Variant(
    ["CORTTEX", "MAPEAMENTO", "PERIODO", "LOCALIZAC", "---"],
    ["TOTAL"],
    LocationCoded,
    [ TextAt("localizacao", 0, 10), TextAt("codigo", 11, 19), TextAt("apelido", 20, 44),
      TextAt("familia", 45, 47), TextAt("qual", 48, 51), TextAt("qmm", 52, 55),
      TextAt("cor", 56, 59), NumberAt("qtde", 60, 69), TextAt("desc_cor", 70, 94),
      TextAt("tam", 95, 98), TextAt("tamd", 99, 103), TextAt("embalagem_vol", 104, 119),
      TextAt("un", 120, 122), NumberAt("peso_liq", 123, 132), NumberAt("peso_bruto", 133, 142) ])

  /** Fabric lots (`tecido01.txt`). */
  const Tecido01 := Variant(
    ["CORTTEX", "LOCALIZAC", "---"],
    ["TOTAL QUAL"],
    Category(["TEC ACAB", "TEC CRU", "MALHA", "FIAPO"], "TLS"),
    [ TextAt("tipo", 0, 10), TextAt("produto", 11, 25), TextAt("codigo", 26, 40),
      Column("entrada", Fixed(41, 50), DayMonthYear), TextAt("qualidade", 51, 55),
      Column("metros", Metros, Numeric),
      Column("lancamento", Fixed(71, 80), DayMonthYear), TextAt("oper", 81, 90),
      NumberAt("peso", 91, 100), TextAt("un", 101, 105), TextAt("localizacao", 106, 115),
      TextAt("nota", 116, 125) ])

  /** The fabric-lot quantity: from two places past the first 'A' at or after
      index 50 up to three places past the next comma, or fifteen places past
      the 'A' when no comma follows. */
  const Metros := AfterMarker('A', 50, 2, ',', 10, 3)

  /** The two location-coded parsers are one configuration. */
  lemma SameVariant()
    ensures Confec01 == Estsc01
  {
  }

  lemma SameParser(raw: string)
    ensures ParseLine(Confec01, raw) == ParseLine(Estsc01, raw)
  {
    SameVariant();
  }

  /** The location-coded layout meets the round-trip conditions: its columns
      are ascending and disjoint with a separator between neighbours, and its
      noise rules cannot fire on a rendered row. */
  lemma LocationLayouts()
    ensures LocationLayout(Estsc01) && LocationLayout(Confec01)
  {
    Estsc01Tiled();
    Estsc01Kinds();
    Estsc01Noise();
    Estsc01Infix();
    SameVariant();
  }

  lemma Estsc01Tiled()
    ensures Tiled(Estsc01.columns)
  {
    Estsc01Ascending();
    AscendingTiled(Estsc01.columns);
  }

  lemma Estsc01Ascending()
    ensures Ascending(Estsc01.columns)
  {
    var c := Estsc01.columns;
    assert |c| == 15;
    assert forall k | 0 <= k < 15 :: c[k].at.Fixed? && c[k].at.start < c[k].at.end;
    assert forall k | 0 < k < 15 :: c[k - 1].at.end < c[k].at.start;
  }

  lemma Estsc01Kinds()
    ensures |Estsc01.columns| == 15
    ensures Estsc01.columns[0].at == Fixed(0, 10) && Estsc01.columns[1].at == Fixed(11, 19)
    ensures forall k | 0 <= k < |Estsc01.columns| :: Estsc01.columns[k].kind != DayMonthYear
  {
  }

  lemma Estsc01Noise()
    ensures forall p | p in Estsc01.noisePrefixes :: |p| >= 2 && p[1] != '.'
  {
  }

  lemma Estsc01Infix()
    ensures forall q | q in Estsc01.noiseInfixes :: q != [] && ' ' !in q && !IsNumeral(q[0])
  {
  }

  /** Every record of the location-coded report has its fifteen keys, in
      order. */
  lemma Estsc01Keys(raw: string)
    ensures ParseLine(Estsc01, raw).Some? ==>
      |ParseLine(Estsc01, raw).value| == 15 &&
      forall k | 0 <= k < 15 :: ParseLine(Estsc01, raw).value[k].name == Estsc01.columns[k].name
  {
  }

  /** Every record of the fabric-lot report has its twelve keys, in order,
      and starts with one of the four categories. */
  lemma Tecido01Keys(raw: string)
    ensures ParseLine(Tecido01, raw).Some? ==>
      && |ParseLine(Tecido01, raw).value| == 12
      && (forall k | 0 <= k < 12 :: ParseLine(Tecido01, raw).value[k].name == Tecido01.columns[k].name)
  {
  }

  /** Every fabric-lot record comes from a line starting with one of the four
      categories. */
  lemma Tecido01Category(raw: string)
    ensures ParseLine(Tecido01, raw).Some? ==>
      StartsWith(raw, "TEC ACAB") || StartsWith(raw, "TEC CRU") || StartsWith(raw, "MALHA") || StartsWith(raw, "FIAPO")
  {
  }

  /** The fabric-lot parser accepts every non-blank line that is not noise,
      not a `TLS` cross-reference and starts with a category, and its record
      is the columns of the trimmed line. */
  lemma CategoryAccepts(raw: string)
    requires !AllSpace(Py, raw)
    requires !IsNoise(Tecido01, RStrip(Py, raw))
    requires var line := RStrip(Py, raw); !(|line| > 10 && line[1] == '.' && Contains(line, "TLS"))
    requires exists c | c in Tecido01.shape.categories :: StartsWith(RStrip(Py, raw), c)
    ensures ParseLine(Tecido01, raw) == Some(Extract(Tecido01.columns, RStrip(Py, raw)))
  {
  }

  /** A fabric lot laid out on the parser's columns: category `TEC ACAB`,
      entry date `14/04/24`, quality `1`, quantity `62,00` after the `A`
      marker and posting date `11/08/25`. */
  const FabricLot :=
    "TEC ACAB   " + "2.855-72/0     " + "080.6481-01    " + "14/04/24  " + "1    " + "A " + "62,00        "
    + "11/08/25  " + "676       " + "37,200    " + "MT   " + "1.08.A.001 " + "559005"

  /** The fabric lot is accepted, with its category and both dates in ISO
      form. */
  lemma FabricLotParsed()
    ensures ParseLine(Tecido01, FabricLot).Some?
    ensures var r := ParseLine(Tecido01, FabricLot).value;
      && r[0] == Field("tipo", Str("TEC ACAB"))
      && r[3] == Field("entrada", Day(Some("2024-04-14")))
      && r[6] == Field("lancamento", Day(Some("2025-08-11")))
  {
    FabricLotShape();
    CategoryAccepts(FabricLot);
    FabricLotCells();
    FabricFields(FabricLot);
  }

  /** A fabric-lot line whose first, entry-date and posting-date cells hold
      `TEC ACAB`, `14/04/24` and `11/08/25` yields those fields. */
  lemma FabricFields(line: string)
    requires Slice(line, 0, 10) == PadRight("TEC ACAB", 10)
    requires Slice(line, 41, 50) == PadRight("14/04/24", 9)
    requires Slice(line, 71, 80) == PadRight("11/08/25", 9)
    ensures var r := Extract(Tecido01.columns, line);
      && r[0] == Field("tipo", Str("TEC ACAB"))
      && r[3] == Field("entrada", Day(Some("2024-04-14")))
      && r[6] == Field("lancamento", Day(Some("2025-08-11")))
  {
    var cols := Tecido01.columns;
    assert cols[0] == TextAt("tipo", 0, 10);
    assert cols[3] == Column("entrada", Fixed(41, 50), DayMonthYear);
    assert cols[6] == Column("lancamento", Fixed(71, 80), DayMonthYear);
    PlainField(cols, line, 0, "TEC ACAB");
    FabricDates(cols, line, "14/04/24", "11/08/25");
  }

  /** The two date cells of a fabric-lot line, read as ISO dates. */
  lemma FabricDates(cols: seq<Column>, line: string, entrada: string, lancamento: string)
    requires |cols| > 6
    requires cols[3] == Column("entrada", Fixed(41, 50), DayMonthYear)
    requires cols[6] == Column("lancamento", Fixed(71, 80), DayMonthYear)
    requires entrada == "14/04/24" && lancamento == "11/08/25"
    requires Slice(line, 41, 50) == PadRight(entrada, 9)
    requires Slice(line, 71, 80) == PadRight(lancamento, 9)
    ensures Extract(cols, line)[3] == Field("entrada", Day(Some("2024-04-14")))
    ensures Extract(cols, line)[6] == Field("lancamento", Day(Some("2025-08-11")))
  {
    DateField(cols, line, 3, entrada);
    DateField(cols, line, 6, lancamento);
    DateTwoDigits(entrada, '1', '4', '0', '4', '2', '4');
    DateTwoDigits(lancamento, '1', '1', '0', '8', '2', '5');
  }

  /** The fabric lot is its own right-trimmed form and passes every
      rejection of the fabric-lot parser. */
  lemma FabricLotShape()
    ensures RStrip(Py, FabricLot) == FabricLot && !AllSpace(Py, FabricLot)
    ensures !IsNoise(Tecido01, FabricLot)
    ensures FabricLot[1] != '.' && StartsWith(FabricLot, "TEC ACAB")
  {
    FabricLotEnds();
    FabricLotClean();
    assert FabricLot[..8] == "TEC ACAB";
  }

  lemma FabricLotEnds()
    ensures RStrip(Py, FabricLot) == FabricLot && !AllSpace(Py, FabricLot)
    ensures FabricLot[1] == 'E'
  {
    var line := FabricLot;
    assert !IsSpace(Py, line[|line| - 1]) && !IsSpace(Py, line[0]);
  }

  /** No header prefix starts the fabric lot and it holds no `Q`, so no
      quality total. */
  lemma FabricLotClean()
    ensures !IsNoise(Tecido01, FabricLot)
  {
    assert FabricLot[0] == 'T';
    FabricLotNoQ();
    CharAbsent(FabricLot, "TOTAL QUAL", 6);
  }

  lemma FabricLotNoQ()
    ensures 'Q' !in FabricLot
  {
  }

  /** The three cells the example states, padded to their columns. */
  lemma FabricLotCells()
    ensures Slice(FabricLot, 0, 10) == PadRight("TEC ACAB", 10)
    ensures Slice(FabricLot, 41, 50) == PadRight("14/04/24", 9)
    ensures Slice(FabricLot, 71, 80) == PadRight("11/08/25", 9)
  {
  }

  /** The quantity scan finds the `A` at index 56 and the comma at 60, and
      reads `62,00`. */
  lemma FabricLotQuantity()
    ensures RawText(Metros, FabricLot) == "62,00"
  {
    var line := FabricLot;
    assert line[56] == 'A' && line[60] == ',' && line[58..63] == "62,00";
    MetrosToComma(line, 56, 60);
  }

  /** A text lacking one of `p`'s characters does not contain `p`. */
  lemma CharAbsent(s: string, p: string, i: nat)
    requires i < |p| && p[i] !in s
    ensures !Contains(s, p)
  {
  }

  /** A date fixed column holding a stripped text padded to its width yields
      that text's ISO form. */
  lemma DateField(cols: seq<Column>, line: string, k: nat, text: string)
    requires k < |cols| && cols[k].kind == DayMonthYear && cols[k].at.Fixed?
    requires IsStripped(Py, text)
    requires Slice(line, cols[k].at.start, cols[k].at.end) == PadRight(text, Width(cols[k]))
    ensures Extract(cols, line)[k] == Field(cols[k].name, Day(DateToIso(text)))
  {
    StripPadRight(Py, text, Width(cols[k]));
  }

  // ---------------------------------------------------------------------
  // Dates

  /** A date written `DD/MM/YY` becomes `20YY-MM-DD`, the parts taken as
      they are apart from zero-filling. */
  lemma DateRoundTrip(d: string, m: string, y: string)
    requires '/' !in d && '/' !in m && '/' !in y
    ensures DateToIso(d + "/" + m + "/" + y) == Some("20" + y + "-" + ZFill(m, 2) + "-" + ZFill(d, 2))
  {
    var t := d + "/" + m + "/" + y;
    assert Join([d, m, y], "/") == t by {
      assert Join([m, y], "/") == m + "/" + y;
    }
    SplitJoin([d, m, y], '/');
    assert t != [] && '/' in t by { assert t[|d|] == '/'; }
  }

  /** `14/04/24` becomes `2024-04-14`; no range is checked, so `45/13/24`
      becomes `2024-13-45`. */
  lemma DateExample(t: string, u: string)
    requires t == "14/04/24" && u == "45/13/24"
    ensures DateToIso(t) == Some("2024-04-14")
    ensures DateToIso(u) == Some("2024-13-45")
  {
    DateTwoDigits(t, '1', '4', '0', '4', '2', '4');
    DateTwoDigits(u, '4', '5', '1', '3', '2', '4');
  }

  /** Day and month are zero-filled; no range is checked. */
  lemma DateZeroFill(t: string)
    requires t == "1/4/24"
    ensures DateToIso(t) == Some("2024-04-01")
  {
    DateOneDigit(t, '1', '4', '2', '4');
  }

  /** `dd/mm/yy` becomes `20yy-mm-dd`. */
  lemma DateTwoDigits(t: string, d1: char, d2: char, m1: char, m2: char, y1: char, y2: char)
    requires d1 != '/' && d2 != '/' && m1 != '/' && m2 != '/' && y1 != '/' && y2 != '/'
    requires t == [d1, d2, '/', m1, m2, '/', y1, y2]
    ensures DateToIso(t) == Some(['2', '0', y1, y2, '-', m1, m2, '-', d1, d2])
  {
    var d, m, y := [d1, d2], [m1, m2], [y1, y2];
    DateText(d, m, y, t);
    DateParts(t, d, m, y);
    IsoText(y, m, d, y1, y2, m1, m2, d1, d2);
  }

  /** `d/m/yy` becomes `20yy-0m-0d`. */
  lemma DateOneDigit(t: string, d1: char, m1: char, y1: char, y2: char)
    requires IsDigit(d1) && IsDigit(m1) && y1 != '/' && y2 != '/'
    requires t == [d1, '/', m1, '/', y1, y2]
    ensures DateToIso(t) == Some(['2', '0', y1, y2, '-', '0', m1, '-', '0', d1])
  {
    var d, m, y := [d1], [m1], [y1, y2];
    DateText(d, m, y, t);
    DateParts(t, d, m, y);
    ZFillOne(d);
    ZFillOne(m);
    IsoText(y, ZFill(m, 2), ZFill(d, 2), y1, y2, '0', m1, '0', d1);
  }

  lemma DateText(d: string, m: string, y: string, t: string)
    requires t == d + ['/'] + m + ['/'] + y
    ensures t == d + "/" + m + "/" + y
  {
  }

  lemma IsoText(y: string, m: string, d: string, y1: char, y2: char, m1: char, m2: char, d1: char, d2: char)
    requires y == [y1, y2] && m == [m1, m2] && d == [d1, d2]
    ensures "20" + y + "-" + m + "-" + d == ['2', '0', y1, y2, '-', m1, m2, '-', d1, d2]
  {
  }

  lemma ZFillOne(s: string)
    requires |s| == 1 && IsDigit(s[0])
    ensures ZFill(s, 2) == ['0', s[0]]
  {
    assert Repeat('0', 1) == "0";
  }

  lemma DateParts(t: string, d: string, m: string, y: string)
    requires |d| <= 2 && |m| <= 2 && |y| == 2 && t == d + "/" + m + "/" + y
    requires '/' !in d && '/' !in m && '/' !in y
    ensures DateToIso(t) == Some("20" + y + "-" + ZFill(m, 2) + "-" + ZFill(d, 2))
  {
    DateRoundTrip(d, m, y);
  }

  /** Dates written with another separator, or with a part missing, are
      NULL. */
  lemma DateRejects()
    ensures DateToIso("14-04-24") == None
    ensures DateToIso("14/04") == None
  {
    assert Count("14-04-24", '/') == 0 by { CountAbsent("14-04-24", '/'); }
  }

  // ---------------------------------------------------------------------
  // What reaches the fields

  /** A character outside every fixed column never reaches a field. */
  lemma ExtractIgnores(cols: seq<Column>, line: string, i: nat, c: char)
    requires forall k | 0 <= k < |cols| :: cols[k].at.Fixed?
    requires i < |line|
    requires forall k | 0 <= k < |cols| :: i < cols[k].at.start || cols[k].at.end <= i
    ensures Extract(cols, line[i := c]) == Extract(cols, line)
  {
    forall k | 0 <= k < |cols|
      ensures Extract(cols, line[i := c])[k] == Extract(cols, line)[k]
    {
      SliceIgnores(line, i, c, cols[k].at.start, cols[k].at.end);
    }
  }

  lemma SliceIgnores(line: string, i: nat, c: char, a: nat, b: nat)
    requires i < |line| && (i < a || b <= i)
    ensures Slice(line[i := c], a, b) == Slice(line, a, b)
  {
  }

  /** Characters past the last fixed column never reach a field. */
  lemma ExtractPrefix(cols: seq<Column>, line: string, n: nat)
    requires forall k | 0 <= k < |cols| :: cols[k].at.Fixed? && cols[k].at.end <= n
    requires n <= |line|
    ensures Extract(cols, line[..n]) == Extract(cols, line)
  {
    forall k | 0 <= k < |cols|
      ensures Extract(cols, line[..n])[k] == Extract(cols, line)[k]
    {
      SlicePrefix(line, n, cols[k].at.start, cols[k].at.end);
    }
  }

  lemma SlicePrefix(line: string, n: nat, a: nat, b: nat)
    requires b <= n <= |line|
    ensures Slice(line[..n], a, b) == Slice(line, a, b)
  {
  }

  /** In the location-coded report, the separator positions and everything
      past index 142 never reach a field. */
  lemma Estsc01Separators(line: string, i: nat, c: char)
    requires i < |line|
    requires i in {10, 19, 44, 47, 51, 55, 59, 69, 94, 98, 103, 119, 122, 132} || i >= 142
    ensures Extract(Estsc01.columns, line[i := c]) == Extract(Estsc01.columns, line)
  {
    Estsc01Ascending();
    ExtractIgnores(Estsc01.columns, line, i, c);
  }

  /** The first two fields of the sample line in the location-coded parser's
      comments: a line starting `1.01.A.001 0700278 ` has that location and
      that code, whatever follows. */
  lemma Estsc01SampleHead(line: string, loc: string, code: string)
    requires loc == "1.01.A.001" && code == "0700278"
    requires |line| >= 19 && line[..10] == loc && line[10] == ' ' && line[11..18] == code && line[18] == ' '
    ensures Extract(Estsc01.columns, line)[0] == Field("localizacao", Str(loc))
    ensures Extract(Estsc01.columns, line)[1] == Field("codigo", Str(code))
  {
    var cols := Estsc01.columns;
    Estsc01Head();
    assert IsStripped(Py, loc) && IsStripped(Py, code);
    assert Slice(line, 0, 10) == PadRight(loc, 10);
    assert Slice(line, 11, 19) == PadRight(code, 8);
    PlainField(cols, line, 0, loc);
    PlainField(cols, line, 1, code);
  }

  lemma Estsc01Head()
    ensures |Estsc01.columns| == 15
    ensures Estsc01.columns[0] == TextAt("localizacao", 0, 10)
    ensures Estsc01.columns[1] == TextAt("codigo", 11, 19)
  {
  }

  /** A plain fixed column holding a stripped text padded to its width
      yields that text. */
  lemma PlainField(cols: seq<Column>, line: string, k: nat, text: string)
    requires k < |cols| && cols[k].kind == Plain && cols[k].at.Fixed?
    requires IsStripped(Py, text)
    requires Slice(line, cols[k].at.start, cols[k].at.end) == PadRight(text, Width(cols[k]))
    ensures Extract(cols, line)[k] == Field(cols[k].name, Str(text))
  {
    StripPadRight(Py, text, Width(cols[k]));
  }

  // ---------------------------------------------------------------------
  // Rejections and the fabric-lot quantity scan

  /** A header or separator line of the location-coded report never yields
      a record. */
  lemma Estsc01Headers(raw: string)
    ensures var line := RStrip(Py, raw);
      (|| StartsWith(line, "CORTTEX") || StartsWith(line, "MAPEAMENTO") || StartsWith(line, "PERIODO")
       || StartsWith(line, "LOCALIZAC") || StartsWith(line, "---"))
      ==> ParseLine(Estsc01, raw) == None
  {
    var ps := Estsc01.noisePrefixes;
    PrefixRejects(Estsc01, raw, ps[0]);
    PrefixRejects(Estsc01, raw, ps[1]);
    PrefixRejects(Estsc01, raw, ps[2]);
    PrefixRejects(Estsc01, raw, ps[3]);
    PrefixRejects(Estsc01, raw, ps[4]);
  }

  /** A line of the location-coded report mentioning `TOTAL` anywhere never
      yields a record. */
  lemma Estsc01Totals(raw: string)
    ensures Contains(RStrip(Py, raw), "TOTAL") ==> ParseLine(Estsc01, raw) == None
  {
    InfixRejects(Estsc01, raw, Estsc01.noiseInfixes[0]);
  }

  /** A line of the location-coded report that is too short, lacks the '.'
      second or is indented never yields a record. */
  lemma Estsc01Misshapen(raw: string)
    ensures var line := RStrip(Py, raw);
      |line| <= 10 || line[1] != '.' || line[0] == ' ' ==> ParseLine(Estsc01, raw) == None
  {
    ShapeRejects(Estsc01, raw);
  }

  lemma ShapeRejects(v: Variant, raw: string)
    requires v.shape == LocationCoded
    ensures var line := RStrip(Py, raw);
      |line| <= 10 || line[1] != '.' || line[0] == ' ' ==> ParseLine(v, raw) == None
  {
  }

  /** A header or separator line of the fabric-lot report never yields a
      record. */
  lemma Tecido01Headers(raw: string)
    ensures var line := RStrip(Py, raw);
      StartsWith(line, "CORTTEX") || StartsWith(line, "LOCALIZAC") || StartsWith(line, "---")
      ==> ParseLine(Tecido01, raw) == None
  {
    var ps := Tecido01.noisePrefixes;
    PrefixRejects(Tecido01, raw, ps[0]);
    PrefixRejects(Tecido01, raw, ps[1]);
    PrefixRejects(Tecido01, raw, ps[2]);
  }

  /** A quality-total line of the fabric-lot report never yields a record. */
  lemma Tecido01Totals(raw: string)
    ensures Contains(RStrip(Py, raw), "TOTAL QUAL") ==> ParseLine(Tecido01, raw) == None
  {
    InfixRejects(Tecido01, raw, Tecido01.noiseInfixes[0]);
  }

  /** A line starting with a noise prefix never yields a record. */
  lemma PrefixRejects(v: Variant, raw: string, p: string)
    requires p in v.noisePrefixes
    ensures StartsWith(RStrip(Py, raw), p) ==> ParseLine(v, raw) == None
  {
    NoiseRejects(v, raw);
  }

  /** A line holding a noise infix never yields a record. */
  lemma InfixRejects(v: Variant, raw: string, q: string)
    requires q in v.noiseInfixes
    ensures Contains(RStrip(Py, raw), q) ==> ParseLine(v, raw) == None
  {
    NoiseRejects(v, raw);
  }

  /** A noise line never yields a record. */
  lemma NoiseRejects(v: Variant, raw: string)
    ensures IsNoise(v, RStrip(Py, raw)) ==> ParseLine(v, raw) == None
  {
  }

  /** A location line of the fabric-lot report naming `TLS` is a
      cross-reference and never yields a record. */
  lemma Tecido01CrossReference(raw: string)
    ensures var line := RStrip(Py, raw);
      |line| > 10 && line[1] == '.' && Contains(line, "TLS") ==> ParseLine(Tecido01, raw) == None
  {
  }

  /** With no 'A' at or after index 50 the quantity text is empty. */
  lemma MetrosAbsent(line: string)
    requires forall k | 50 <= k < |line| :: line[k] != 'A'
    ensures RawText(Metros, line) == []
  {
  }

  /** With the first 'A' at `a` and the next comma at `c`, the quantity text
      runs from `a + 2` to `c + 3`. */
  lemma MetrosToComma(line: string, a: nat, c: nat)
    requires 50 <= a < |line| && line[a] == 'A' && forall k | 50 <= k < a :: line[k] != 'A'
    requires a + 2 <= c < |line| && line[c] == ',' && forall k | a + 2 <= k < c :: line[k] != ','
    ensures RawText(Metros, line) == Slice(line, a + 2, c + 3)
  {
    FindFirst(line, 'A', 50, a);
    FindFirst(line, ',', a + 2, c);
  }

  /** With the first 'A' at `a` and no comma after it, the quantity text runs
      from `a + 2` to `a + 15`. */
  lemma MetrosNoComma(line: string, a: nat)
    requires 50 <= a < |line| && line[a] == 'A' && forall k | 50 <= k < a :: line[k] != 'A'
    requires forall k | a + 2 <= k < |line| :: line[k] != ','
    ensures RawText(Metros, line) == Slice(line, a + 2, a + 15)
  {
    FindFirst(line, 'A', 50, a);
  }

  /** `Find` returns the first occurrence. */
  lemma FindFirst(s: string, c: char, start: nat, i: nat)
    requires start <= i < |s| && s[i] == c && forall k | start <= k < i :: s[k] != c
    ensures Find(s, c, start) == i
  {
  }
}

=== FILE: text.dfy ===
/** String primitives with the exact semantics the report code relies on:
    Python's `strip`/`rstrip`, slicing, `find`, `split`, `zfill`, `re.split(r'\s+')`
    and JavaScript's `trim`, `substring`, `includes`, `split(/\s+/)`. */
module Text {

  /** The runtime whose whitespace table applies. */
  datatype Lang = Py | Js

  /** Python's `str.isspace` (the same set `\s` matches in `re`) and the set
      JavaScript's `trim` and `\s` remove: both share the ASCII controls 9..13,
      the space, the no-break space and the Unicode space separators; Python adds
      the information separators 0x1C..0x1F and NEL, JavaScript adds the BOM. */
  predicate IsSpace(lang: Lang, c: char) {
    || ('\t' <= c <= '\r')
    || c == ' '
    || c == '\U{A0}'
    || c == '\U{1680}'
    || ('\U{2000}' <= c <= '\U{200A}')
    || c == '\U{2028}'
    || c == '\U{2029}'
    || c == '\U{202F}'
    || c == '\U{205F}'
    || c == '\U{3000}'
    || (lang == Py && ('\U{1C}' <= c <= '\U{1F}' || c == '\U{85}'))
    || (lang == Js && c == '\U{FEFF}')
  }

  predicate AllSpace(lang: Lang, s: string) {
    forall i | 0 <= i < |s| :: IsSpace(lang, s[i])
  }

  predicate NoSpace(lang: Lang, s: string) {
    forall i | 0 <= i < |s| :: !IsSpace(lang, s[i])
  }

  /** Neither end of `s` is whitespace: `s` is a fixed point of strip. */
  predicate IsStripped(lang: Lang, s: string) {
    s == [] || (!IsSpace(lang, s[0]) && !IsSpace(lang, s[|s| - 1]))
  }

  function Min(a: int, b: int): int {
    if a < b then a else b
  }

  /** `n` copies of `c`: the padding of `ljust` and `zfill`. */
  function Repeat(c: char, n: nat): (r: string)
    ensures |r| == n
    ensures forall i | 0 <= i < n :: r[i] == c
  {
    if n == 0 then [] else [c] + Repeat(c, n - 1)
  }

  /** `s` left-aligned in a column of `width` characters. */
  function PadRight(s: string, width: nat): (r: string)
    ensures |r| == if |s| < width then width else |s|
    ensures r[..|s|] == s
    ensures forall i | |s| <= i < |r| :: r[i] == ' '
  {
    if |s| < width then s + Repeat(' ', width - |s|) else s
  }

  /** Python `s.rstrip()` / removal of trailing whitespace. */
  function RStrip(lang: Lang, s: string): (r: string)
    ensures |r| <= |s| && r == s[..|r|]
    ensures forall k | |r| <= k < |s| :: IsSpace(lang, s[k])
    ensures r == [] || !IsSpace(lang, r[|r| - 1])
    decreases |s|
  {
    if |s| > 0 && IsSpace(lang, s[|s| - 1]) then RStrip(lang, s[..|s| - 1]) else s
  }

  /** Removal of leading whitespace. */
  function LStrip(lang: Lang, s: string): (r: string)
    ensures |r| <= |s| && r == s[|s| - |r|..]
    ensures forall k | 0 <= k < |s| - |r| :: IsSpace(lang, s[k])
    ensures r == [] || !IsSpace(lang, r[0])
    decreases |s|
  {
    if |s| > 0 && IsSpace(lang, s[0]) then LStrip(lang, s[1..]) else s
  }

  /** Python `s.strip()` and JavaScript `s.trim()`. */
  function Strip(lang: Lang, s: string): (r: string)
    ensures |r| <= |s|
    ensures IsStripped(lang, r)
    ensures r == [] <==> AllSpace(lang, s)
    ensures IsStripped(lang, s) ==> r == s
  {
    LStrip(lang, RStrip(lang, s))
  }

  /** Python `s[i:j]` for non-negative bounds (never fails; clamps to the end). */
  function Slice(s: string, i: nat, j: nat): (r: string)
    ensures |r| == if i < j && i < |s| then Min(j, |s|) - i else 0
    ensures forall k | 0 <= k < |r| :: r[k] == s[i + k]
  {
    if i < j && i < |s| then s[i..Min(j, |s|)] else []
  }

  /** Slicing past a prefix is slicing what follows it. */
  lemma SliceShift(a: string, b: string, i: nat, j: nat)
    requires i <= j <= |b|
    ensures Slice(a + b, |a| + i, |a| + j) == Slice(b, i, j)
  {
    var l, r := Slice(a + b, |a| + i, |a| + j), Slice(b, i, j);
    assert forall k | 0 <= k < |r| :: l[k] == r[k];
  }

  /** JavaScript `s.substring(a, b)` for non-negative bounds: swaps reversed
      bounds, then clamps like a Python slice. */
  function Substring(s: string, a: nat, b: nat): string {
    if a <= b then Slice(s, a, b) else Slice(s, b, a)
  }

  /** Python `s.startswith(p)` and JavaScript `s.startsWith(p)`. */
  predicate StartsWith(s: string, p: string) {
    |p| <= |s| && s[..|p|] == p
  }

  /** Python `p in s` and JavaScript `s.includes(p)`. */
  predicate Contains(s: string, p: string) {
    exists k | 0 <= k <= |s| - |p| :: OccursAt(s, p, k)
  }

  /** `p` occurs in `s` starting at index `k`. */
  predicate OccursAt(s: string, p: string, k: nat) {
    k + |p| <= |s| && s[k..k + |p|] == p
  }

  /** Python `s.find(c, start)`: the first index at or after `start` holding `c`,
      or -1. */
  function Find(s: string, c: char, start: nat): (r: int)
    ensures r == -1 || (start <= r < |s| && s[r] == c)
    ensures forall k | start <= k < |s| && (r == -1 || k < r) :: s[k] != c
    decreases |s| - start
  {
    if start >= |s| then -1
    else if s[start] == c then start
    else Find(s, c, start + 1)
  }

  /** Python `s.replace(a, b)` for single characters (every occurrence). */
  function ReplaceAll(s: string, a: char, b: char): (r: string)
    ensures |r| == |s|
    ensures forall k | 0 <= k < |s| :: r[k] == (if s[k] == a then b else s[k])
  {
    if s == [] then [] else [if s[0] == a then b else s[0]] + ReplaceAll(s[1..], a, b)
  }

  /** JavaScript `s.replace(a, b)` with a string pattern: only the first
      occurrence changes. */
  function ReplaceFirst(s: string, a: char, b: char): (r: string)
    ensures |r| == |s|
    ensures a !in s ==> r == s
    ensures forall k | 0 <= k < |s| && s[k] == a && a !in s[..k] :: r == s[k := b]
  {
    var i := Find(s, a, 0);
    if i < 0 then s
    else
      assert forall k | 0 <= k < |s| && s[k] == a && a !in s[..k] :: k == i by {
        forall k | 0 <= k < |s| && s[k] == a && a !in s[..k]
          ensures k == i
        {
          assert !(i < k);
        }
      }
      s[i := b]
  }

  /** Number of occurrences of `c` in `s`. */
  function Count(s: string, c: char): nat {
    if s == [] then 0 else (if s[0] == c then 1 else 0) + Count(s[1..], c)
  }

  /** Python `sep.join(parts)` / JavaScript `parts.join(sep)`. */
  function Join(parts: seq<string>, sep: string): string {
    if |parts| == 0 then []
    else if |parts| == 1 then parts[0]
    else parts[0] + sep + Join(parts[1..], sep)
  }

  /** Python `s.split(c)` / JavaScript `s.split(c)` for a one-character
      separator: never empty, one more part than separators, and joining the
      parts back with the separator restores `s`. */
  function SplitOn(s: string, sep: char): (parts: seq<string>)
    ensures |parts| == Count(s, sep) + 1
    ensures forall k | 0 <= k < |parts| :: sep !in parts[k]
    ensures Join(parts, [sep]) == s
    decreases |s|
  {
    var i := Find(s, sep, 0);
    if i < 0 then
      CountAbsent(s, sep);
      [s]
    else
      var rest := SplitOn(s[i + 1..], sep);
      CountSplit(s, i, sep);
      assert s == s[..i] + [sep] + s[i + 1..];
      [s[..i]] + rest
  }

  /** Splitting the join of separator-free parts gives the parts back. */
  lemma {:induction false} SplitJoin(parts: seq<string>, sep: char)
    requires parts != [] && forall k | 0 <= k < |parts| :: sep !in parts[k]
    ensures SplitOn(Join(parts, [sep]), sep) == parts
  {
    var s := Join(parts, [sep]);
    if |parts| > 1 {
      var n := |parts[0]|;
      var tail := Join(parts[1..], [sep]);
      JoinCons(parts, sep, s, tail);
      FindAfterFree(s, parts[0], sep);
      assert s[n + 1..] == tail;
      SplitJoin(parts[1..], sep);
    }
  }

  lemma JoinCons(parts: seq<string>, sep: char, s: string, tail: string)
    requires |parts| >= 2 && s == Join(parts, [sep]) && tail == Join(parts[1..], [sep])
    ensures s == parts[0] + [sep] + tail
  {
  }

  /** The first separator of `w + [sep] + ...` ends a separator-free `w`. */
  lemma FindAfterFree(s: string, w: string, sep: char)
    requires |w| < |s| && s[..|w|] == w && s[|w|] == sep && sep !in w
    ensures Find(s, sep, 0) == |w|
  {
  }

  lemma {:induction false} CountAbsent(s: string, c: char)
    requires c !in s
    ensures Count(s, c) == 0
  {
    if s != [] {
      CountAbsent(s[1..], c);
    }
  }

  lemma {:induction false} CountSplit(s: string, i: nat, c: char)
    requires i < |s| && s[i] == c && c !in s[..i]
    ensures Count(s, c) == 1 + Count(s[i + 1..], c)
  {
    if i > 0 {
      assert s[1..][..i - 1] == s[..i][1..];
      CountSplit(s[1..], i - 1, c);
      assert s[1..][i..] == s[i + 1..];
    }
  }

  /** Index of the first whitespace character of `s`, or |s|. */
  function FirstSpace(lang: Lang, s: string): (i: nat)
    ensures i <= |s|
    ensures forall k | 0 <= k < i :: !IsSpace(lang, s[k])
    ensures i < |s| ==> IsSpace(lang, s[i])
  {
    if s == [] || IsSpace(lang, s[0]) then 0 else FirstSpace(lang, s[1..]) + 1
  }

  /** `re.split(r'\s+', s)` in Python and `s.split(/\s+/)` in JavaScript: the
      pieces between maximal whitespace runs. */
  function SplitRuns(lang: Lang, s: string): (parts: seq<string>)
    ensures |parts| >= 1
    ensures forall k | 0 <= k < |parts| :: NoSpace(lang, parts[k])
    ensures s != [] && IsStripped(lang, s) ==> forall k | 0 <= k < |parts| :: parts[k] != []
    decreases |s|
  {
    var i := FirstSpace(lang, s);
    if i == |s| then
      [s]
    else
      var run := FirstNonSpace(lang, s[i..]);
      assert s[i..][0] == s[i];
      var rest := SplitRuns(lang, s[i + run..]);
      assert s != [] && IsStripped(lang, s) ==> s[i + run..] != [] && IsStripped(lang, s[i + run..]) by {
        if s != [] && IsStripped(lang, s) {
          assert s[i..][|s| - 1 - i] == s[|s| - 1];
          assert s[i + run..][0] == s[i..][run];
        }
      }
      [s[..i]] + rest
  }

  /** Length of the leading whitespace run of `s`. */
  function FirstNonSpace(lang: Lang, s: string): (i: nat)
    ensures i <= |s|
    ensures forall k | 0 <= k < i :: IsSpace(lang, s[k])
    ensures i < |s| ==> !IsSpace(lang, s[i])
  {
    if s == [] || !IsSpace(lang, s[0]) then 0 else FirstNonSpace(lang, s[1..]) + 1
  }

  /** ASCII case mapping of one character. */
  function LowerChar(c: char): (r: char)
    ensures !('A' <= r <= 'Z')
    ensures c < 'A' || 'Z' < c ==> r == c
  {
    if 'A' <= c <= 'Z' then (c - 'A' + 'a') as char else c
  }

  /** ASCII case mapping of JavaScript `toLowerCase`. */
  function Lower(s: string): (r: string)
    ensures |r| == |s|
    ensures forall k | 0 <= k < |s| :: r[k] == LowerChar(s[k])
  {
    if s == [] then []
    else [LowerChar(s[0])] + Lower(s[1..])
  }

  /** Lower-casing is idempotent. */
  lemma LowerTwice(s: string)
    ensures Lower(Lower(s)) == Lower(s)
  {
    var a, b := Lower(Lower(s)), Lower(s);
    assert forall k | 0 <= k < |s| :: a[k] == LowerChar(b[k]) == b[k];
  }

  /** Python `s.zfill(width)`: left-pads with '0' after an optional sign. */
  function ZFill(s: string, width: nat): (r: string)
    ensures |r| == if |s| < width then width else |s|
    ensures |s| >= width ==> r == s
  {
    if |s| >= width then s
    else if |s| > 0 && (s[0] == '+' || s[0] == '-') then [s[0]] + Repeat('0', width - |s|) + s[1..]
    else Repeat('0', width - |s|) + s
  }

  // ---------------------------------------------------------------------
  // Facts about the primitives, used by the report parsers' proofs.

  /** Trailing whitespace never survives `rstrip`. */
  lemma {:induction false} RStripAppendSpace(lang: Lang, s: string, t: string)
    requires AllSpace(lang, t)
    ensures RStrip(lang, s + t) == RStrip(lang, s)
    decreases |t|
  {
    if t != [] {
      var u := s + t;
      assert u[..|u| - 1] == s + t[..|t| - 1];
      RStripAppendSpace(lang, s, t[..|t| - 1]);
    } else {
      assert s + t == s;
    }
  }

  /** A stripped value left-aligned in a space-padded column strips back to itself. */
  lemma StripPadRight(lang: Lang, v: string, width: nat)
    requires IsStripped(lang, v)
    ensures Strip(lang, PadRight(v, width)) == v
  {
    if |v| < width {
      RStripAppendSpace(lang, v, Repeat(' ', width - |v|));
      assert RStrip(lang, v) == v;
    }
  }

  /** Right-trimming a whole line first does not change any stripped slice of it. */
  lemma StripSliceRStrip(lang: Lang, s: string, i: nat, j: nat)
    ensures Strip(lang, Slice(RStrip(lang, s), i, j)) == Strip(lang, Slice(s, i, j))
  {
    var a := Slice(RStrip(lang, s), i, j);
    var b := Slice(s, i, j);
    var rest := SliceRStripRest(lang, s, i, j);
    RStripAppendSpace(lang, a, rest);
    StripViaRStrip(lang, a);
    StripViaRStrip(lang, b);
  }

  /** A slice of a line is the same slice of the right-trimmed line followed
      by whitespace only. */
  lemma SliceRStripRest(lang: Lang, s: string, i: nat, j: nat) returns (rest: string)
    ensures Slice(s, i, j) == Slice(RStrip(lang, s), i, j) + rest
    ensures AllSpace(lang, rest)
  {
    var n := |RStrip(lang, s)|;
    var lo, hi;
    rest, lo, hi := SlicePrefix(s, n, i, j);
    if rest != [] {
      TrailingSpace(lang, s, lo, hi);
    }
  }

  /** A slice of a prefix of `s` followed by a slice of `s` past the prefix
      is the same slice of `s`. */
  lemma SlicePrefix(s: string, n: nat, i: nat, j: nat) returns (rest: string, lo: nat, hi: nat)
    requires n <= |s|
    ensures Slice(s, i, j) == Slice(s[..n], i, j) + rest
    ensures rest != [] ==> n <= lo <= hi <= |s| && rest == s[lo..hi]
  {
    var a, b := Slice(s[..n], i, j), Slice(s, i, j);
    assert |a| <= |b|;
    assert forall k | 0 <= k < |a| :: a[k] == b[k];
    assert b[..|a|] == a;
    rest := b[|a|..];
    assert b == b[..|a|] + rest;
    lo, hi := i + |a|, i + |b|;
    if rest != [] {
      assert n <= lo <= hi <= |s|;
      assert forall k | 0 <= k < |rest| :: rest[k] == s[lo + k];
    }
  }

  /** Everything past the right-trimmed part of `s` is whitespace. */
  lemma TrailingSpace(lang: Lang, s: string, lo: nat, hi: nat)
    requires |RStrip(lang, s)| <= lo <= hi <= |s|
    ensures AllSpace(lang, s[lo..hi])
  {
    forall k | 0 <= k < hi - lo
      ensures IsSpace(lang, s[lo..hi][k])
    {
      assert s[lo..hi][k] == s[lo + k];
    }
  }

  /** `strip` only depends on the right-trimmed string. */
  lemma StripViaRStrip(lang: Lang, s: string)
    ensures Strip(lang, s) == LStrip(lang, RStrip(lang, s))
  {
  }

  /** An occurrence in a part of `s` is an occurrence in `s`. */
  lemma ContainsWithin(s: string, i: nat, j: nat, p: string)
    requires i <= j <= |s|
    ensures Contains(s[i..j], p) ==> Contains(s, p)
  {
    if Contains(s[i..j], p) {
      var k :| 0 <= k <= |s[i..j]| - |p| && OccursAt(s[i..j], p, k);
      var u, w := s[i + k..i + k + |p|], s[i..j][k..k + |p|];
      assert forall m | 0 <= m < |p| :: u[m] == w[m];
      assert u == w;
      assert OccursAt(s, p, i + k);
    }
  }

  /** Where a pattern occurs, so does each of its prefixes. */
  lemma ContainsPrefixOf(s: string, p: string, n: nat)
    requires n <= |p|
    ensures Contains(s, p) ==> Contains(s, p[..n])
  {
    if Contains(s, p) {
      var k :| 0 <= k <= |s| - |p| && OccursAt(s, p, k);
      assert s[k..k + n] == s[k..k + |p|][..n];
      assert OccursAt(s, p[..n], k);
    }
  }

  /** A pattern whose first character is absent does not occur. */
  lemma NotContainsFirst(s: string, p: string)
    requires p != [] && p[0] !in s
    ensures !Contains(s, p)
  {
    forall k | 0 <= k <= |s| - |p|
      ensures !OccursAt(s, p, k)
    {
      assert s[k] in s;
      assert s[k..k + |p|][0] == s[k];
    }
  }

  /** Splitting on whitespace runs undoes joining space-free tokens with one space. */
  lemma {:induction false} SplitRunsJoin(lang: Lang, tokens: seq<string>)
    requires |tokens| >= 1
    requires forall k | 0 <= k < |tokens| :: tokens[k] != [] && NoSpace(lang, tokens[k])
    ensures SplitRuns(lang, Join(tokens, " ")) == tokens
  {
    if |tokens| > 1 {
      var rest := Join(tokens[1..], " ");
      JoinStartsWithHead(tokens[1..], " ");
      assert rest[0] == tokens[1][0];
      SplitRunsCons(lang, tokens[0], rest);
      SplitRunsJoin(lang, tokens[1..]);
      assert tokens == [tokens[0]] + tokens[1..];
    }
  }

  /** One step of `SplitRuns` over `t0 + " " + rest`. */
  lemma SplitRunsCons(lang: Lang, t0: string, rest: string)
    requires NoSpace(lang, t0)
    requires rest != [] && !IsSpace(lang, rest[0])
    ensures SplitRuns(lang, t0 + " " + rest) == [t0] + SplitRuns(lang, rest)
  {
    var tail := " " + rest;
    var s := t0 + tail;
    assert t0 + " " + rest == s;
    FirstSpaceAfterWord(lang, s, t0, tail);
    assert s[|t0|..] == tail;
    FirstNonSpaceAfterBlank(lang, rest);
    SplitRunsStep(lang, s, |t0|);
    assert s[|t0| + 1..] == rest;
    assert s[..|t0|] == t0;
  }

  /** One step of `SplitRuns` past a single blank. */
  lemma SplitRunsStep(lang: Lang, s: string, i: nat)
    requires i == FirstSpace(lang, s) < |s| && FirstNonSpace(lang, s[i..]) == 1
    ensures SplitRuns(lang, s) == [s[..i]] + SplitRuns(lang, s[i + 1..])
  {
  }

  lemma FirstSpaceAfterWord(lang: Lang, s: string, w: string, tail: string)
    requires s == w + tail && NoSpace(lang, w) && tail != [] && IsSpace(lang, tail[0])
    ensures FirstSpace(lang, s) == |w|
  {
    assert s[|w|] == tail[0];
    assert forall j | 0 <= j < |w| :: s[j] == w[j];
  }

  lemma FirstNonSpaceAfterBlank(lang: Lang, rest: string)
    requires rest != [] && !IsSpace(lang, rest[0])
    ensures FirstNonSpace(lang, " " + rest) == 1
  {
    assert (" " + rest)[1] == rest[0];
  }

  /** A join begins with its first part. */
  lemma JoinStartsWithHead(parts: seq<string>, sep: string)
    requires |parts| >= 1
    ensures |parts[0]| <= |Join(parts, sep)|
    ensures Join(parts, sep)[..|parts[0]|] == parts[0]
  {
  }

  /** A join ends with its last part. */
  lemma {:induction false} JoinEndsWithLast(parts: seq<string>, sep: string)
    requires |parts| >= 1
    ensures |parts[|parts| - 1]| <= |Join(parts, sep)|
    ensures Join(parts, sep)[|Join(parts, sep)| - |parts[|parts| - 1]|..] == parts[|parts| - 1]
  {
    if |parts| > 1 {
      var tail := parts[1..];
      JoinEndsWithLast(tail, sep);
      assert tail[|tail| - 1] == parts[|parts| - 1];
      var j := Join(parts, sep);
      var front := parts[0] + sep;
      assert j == front + Join(tail, sep);
      assert j[|j| - |tail[|tail| - 1]|..] == Join(tail, sep)[|Join(tail, sep)| - |tail[|tail| - 1]|..];
    }
  }

  /** Joining visible words with single spaces gives a stripped string. */
  lemma JoinStripped(lang: Lang, parts: seq<string>)
    requires |parts| >= 1 && parts[0] != [] && parts[|parts| - 1] != []
    requires !IsSpace(lang, parts[0][0])
    requires !IsSpace(lang, parts[|parts| - 1][|parts[|parts| - 1]| - 1])
    ensures Join(parts, " ") != [] && IsStripped(lang, Join(parts, " "))
  {
    var j := Join(parts, " ");
    var last := parts[|parts| - 1];
    JoinStartsWithHead(parts, " ");
    JoinEndsWithLast(parts, " ");
    assert j[0] == j[..|parts[0]|][0] == parts[0][0];
    assert j[|j| - 1] == j[|j| - |last|..][|last| - 1] == last[|last| - 1];
  }
}

=== FILE: upload.dfy ===
/** The stock upload route: its own fixed-column line parser, the company and
    file-name checks, and the classification of every line of an upload into
    records, reported errors and silently skipped lines. */
module Upload {
  import opened Base
  import opened Text
  import opened Numbers

  /** One stock line as the route reads it; `None` is `undefined`. */
  datatype StockLine = StockLine(
    localizacao: string,
    codigo: string,
    apelidoFamilia: string,
    qualidade: Option<string>,
    qmm: Option<string>,
    cor: Option<string>,
    quantidade: Decimal,
    descricaoCor: Option<string>,
    tamanho: Option<string>,
    tamanhoDetalhado: Option<string>,
    embalagemVolume: Option<string>,
    unidade: string,
    pesoLiquido: Option<JsNumber>,
    pesoBruto: Option<JsNumber>)

  // ---------------------------------------------------------------------
  // Fields

  /** JavaScript `line.substring(a, b).trim()`. */
  function Cut(line: string, a: nat, b: nat): (r: string)
    ensures IsStripped(Js, r)
    ensures r == [] <==> AllSpace(Js, Substring(line, a, b))
  {
    Strip(Js, Substring(line, a, b))
  }

  /** JavaScript `s || undefined` for a string. */
  function OrUndefined(s: string): (r: Option<string>)
    ensures r.None? <==> s == []
    ensures r.Some? ==> r.value == s
  {
    if s == [] then None else Some(s)
  }

  /** QUAL, QMM and COR: the block split on whitespace runs; the first two
      pieces, then the rest joined by single spaces. */
  datatype Quality = Quality(qualidade: Option<string>, qmm: Option<string>, cor: Option<string>)

  function QualityBlock(block: string): (r: Quality)
    ensures r.qmm.Some? ==> r.qualidade.Some? || block == [] || !IsStripped(Js, block)
  {
    var parts := SplitRuns(Js, block);
    Quality(
      OrUndefined(parts[0]),
      if |parts| > 1 then OrUndefined(parts[1]) else None,
      OrUndefined(if |parts| > 2 then Join(parts[2..], " ") else []))
  }

  /** `parseFloat(text.replace(',', '.')) || 0`: only the first comma becomes
      the decimal point, and NaN becomes zero. */
  function Quantity(text: string): (q: Decimal)
    ensures q.mantissa != 0 ==> ParseFloat(ReplaceFirst(text, ',', '.')) == Finite(q)
  {
    match ParseFloat(ReplaceFirst(text, ',', '.'))
    case Finite(d) => d
    case NaN => Decimal(0, 0)
  }

  /** A weight: `undefined` for blank text, else `parseFloat` of it with its
      first comma made a point (possibly NaN). */
  function Weight(text: string): (w: Option<JsNumber>)
    ensures w.None? <==> text == []
  {
    var s := ReplaceFirst(text, ',', '.');
    if s == [] then None else Some(ParseFloat(s))
  }

  // ---------------------------------------------------------------------
  // The line parser

  // Words that exempt an unparsed line from being reported, and the longer
  // phrases the parser itself skips, each of which starts with one of them.
  const Mapeamento := "MAPEAMENTO"
  const Periodo := "PERIODO"
  const Localizac := "LOCALIZAC"
  const Dashes := "---"
  const Total := "TOTAL"

  const LoopNoise: seq<string> := [Mapeamento, Periodo, Localizac, Dashes, Total]

  const ParseNoise: seq<string> := [
    Mapeamento + " DO ESTOQUE", Periodo + " CHECKIN", Localizac + ".",
    Dashes + "----", Total + " FAMILIA", Total + " DO LOCAL"]

  predicate Mentions(line: string, words: seq<string>) {
    exists w | w in words :: Contains(line, w)
  }

  /** Lines the parser skips before reading any field. */
  predicate Skipped(line: string) {
    AllSpace(Js, line) || Mentions(line, ParseNoise)
  }

  /** Every field of a line, read at the route's offsets. */
  function Fields(line: string): (f: StockLine)
    ensures f.pesoLiquido.None? <==> AllSpace(Js, Substring(line, 140, 155))
    ensures f.pesoBruto.None? <==> AllSpace(Js, Substring(line, 155, |line|))
  {
    var quality := QualityBlock(Cut(line, 50, 65));
    StockLine(
      Cut(line, 0, 12), Cut(line, 12, 23), Cut(line, 23, 50),
      quality.qualidade, quality.qmm, quality.cor,
      Quantity(Cut(line, 65, 80)),
      OrUndefined(Cut(line, 80, 95)), OrUndefined(Cut(line, 95, 105)),
      OrUndefined(Cut(line, 105, 115)), OrUndefined(Cut(line, 115, 135)),
      Cut(line, 135, 140),
      Weight(Cut(line, 140, 155)), Weight(Cut(line, 155, |line|)))
  }

  /** The route's validation: location, code and unit present, quantity
      positive. */
  predicate Valid(f: StockLine) {
    f.localizacao != [] && f.codigo != [] && f.unidade != [] && f.quantidade.IsPositive()
  }

  /** A stock line, or `None` for blank lines, header phrases, and lines
      that fail validation. */
  function ParseStockLine(line: string): (r: Option<StockLine>)
    ensures r.Some? <==> !Skipped(line) && Valid(Fields(line))
    ensures r.Some? ==> r.value == Fields(line)
  {
    if Strip(Js, line) == [] || Mentions(line, ParseNoise) then None
    else
      var f := Fields(line);
      if f.localizacao == [] || f.codigo == [] || f.unidade == [] || !f.quantidade.IsPositive() then None
      else Some(f)
  }

  /** A line is accepted exactly when it is neither blank nor a header, its
      location, code and unit columns are not blank and its quantity is
      positive. */
  lemma Accepts(line: string)
    ensures ParseStockLine(line).Some? <==>
      && !AllSpace(Js, line) && !Mentions(line, ParseNoise)
      && !AllSpace(Js, Substring(line, 0, 12))
      && !AllSpace(Js, Substring(line, 12, 23))
      && !AllSpace(Js, Substring(line, 135, 140))
      && Quantity(Cut(line, 65, 80)).IsPositive()
  {
  }

  /** Single-space-separated QUAL, QMM and COR words read back as written. */
  lemma {:induction false} QualityRoundTrip(q: string, m: string, cs: seq<string>)
    requires q != [] && NoSpace(Js, q) && m != [] && NoSpace(Js, m)
    requires forall k | 0 <= k < |cs| :: cs[k] != [] && NoSpace(Js, cs[k])
    ensures QualityBlock(Join([q, m] + cs, " ")) ==
      Quality(Some(q), Some(m), if cs == [] then None else Some(Join(cs, " ")))
  {
    var tokens := [q, m] + cs;
    SplitRunsJoin(Js, tokens);
    assert tokens[2..] == cs;
    if cs != [] {
      JoinStartsWithHead(cs, " ");
      assert Join(cs, " ") != [];
    }
  }

  /** A blank QUAL/QMM/COR block gives three `undefined`s; a single word is
      the quality alone. */
  lemma QualityShort(q: string)
    requires NoSpace(Js, q)
    ensures QualityBlock(q) == Quality(OrUndefined(q), None, None)
  {
    assert SplitRuns(Js, q) == [q];
  }

  /** Only the first comma becomes a point, and `parseFloat` ignores what
      follows the number: `"42,00 M"` reads as 42.00, `"1,234,5"` as 1.234. */
  lemma QuantityFirstComma(ip: string, fp: string, t: string)
    requires |ip| >= 1 && AllDigits(ip) && |fp| >= 1 && AllDigits(fp) && Stops(t)
    ensures Quantity(ip + "," + fp + t) == Decimal(DigitsValue(ip + fp), |fp|)
  {
    CommaToPoint(ip, fp, t);
    ParseFloatPointed(ip, fp, t);
  }

  /** Replacing the first comma of `ip,fp…` gives `ip.fp…`. */
  lemma CommaToPoint(ip: string, fp: string, t: string)
    requires AllDigits(ip)
    ensures ReplaceFirst(ip + "," + fp + t, ',', '.') == ip + "." + fp + t
  {
    var s := ip + "," + fp + t;
    assert s[..|ip|] == ip;
    assert ',' !in ip by {
      assert forall k | 0 <= k < |ip| :: IsDigit(ip[k]);
    }
    assert s[|ip| := '.'] == ip + "." + fp + t;
  }

  // ---------------------------------------------------------------------
  // Writing a stock line: the layout the route's offsets read

  /** The widths of the columns the route reads, up to the gross weight, which
      runs to the end of the line. */
  const Widths: seq<nat> := [12, 11, 27, 15, 15, 15, 10, 10, 20, 5, 15]

  /** Where column `k` starts: the widths before it added up. */
  function Start(widths: seq<nat>, k: nat): nat
    requires k <= |widths|
  {
    if k == 0 then 0 else widths[0] + Start(widths[1..], k - 1)
  }

  /** The cells left-aligned in columns of the given widths, side by side,
      the last one unpadded. */
  function Pack(cells: seq<string>, widths: seq<nat>): string
    requires |cells| == |widths| + 1
    decreases |widths|
  {
    if widths == [] then cells[0]
    else PadRight(cells[0], widths[0]) + Pack(cells[1..], widths[1..])
  }

  /** One more cell than widths, and each padded cell fits its width. */
  predicate FitWidths(cells: seq<string>, widths: seq<nat>) {
    |cells| == |widths| + 1 && forall k | 0 <= k < |widths| :: |cells[k]| <= widths[k]
  }

  /** The offsets the route reads: 0, 12, 23, 50, 65, 80, 95, 105, 115, 135,
      140 and 155. */
  lemma Offsets()
    ensures Start(Widths, 0) == 0 && Start(Widths, 1) == 12 && Start(Widths, 2) == 23
    ensures Start(Widths, 3) == 50 && Start(Widths, 4) == 65 && Start(Widths, 5) == 80
    ensures Start(Widths, 6) == 95 && Start(Widths, 7) == 105 && Start(Widths, 8) == 115
    ensures Start(Widths, 9) == 135 && Start(Widths, 10) == 140 && Start(Widths, 11) == 155
  {
  }

  /** Column `k` of a packed line holds cell `k`, blank-padded to its width. */
  lemma {:induction false} PackCell(cells: seq<string>, widths: seq<nat>, k: nat)
    requires FitWidths(cells, widths) && k < |widths|
    ensures Start(widths, k) + widths[k] == Start(widths, k + 1) <= |Pack(cells, widths)|
    ensures Substring(Pack(cells, widths), Start(widths, k), Start(widths, k + 1)) == PadRight(cells[k], widths[k])
    decreases k
  {
    var head := PadRight(cells[0], widths[0]);
    var tailCells, tailWidths := cells[1..], widths[1..];
    var tail := Pack(tailCells, tailWidths);
    var line := head + tail;
    assert |head| == widths[0];
    assert Pack(cells, widths) == line;
    if k == 0 {
      assert Start(widths, 1) == widths[0] + Start(tailWidths, 0);
      assert line[..|head|] == head;
    } else {
      FitTail(cells, widths);
      PackCell(tailCells, tailWidths, k - 1);
      assert tailCells[k - 1] == cells[k] && tailWidths[k - 1] == widths[k];
      var i, j := Start(tailWidths, k - 1), Start(tailWidths, k);
      assert Start(widths, k) == |head| + i;
      assert Start(widths, k + 1) == |head| + j;
      SliceShift(head, tail, i, j);
    }
  }

  /** Fitting cells still fit without their first column. */
  lemma FitTail(cells: seq<string>, widths: seq<nat>)
    requires FitWidths(cells, widths) && widths != []
    ensures FitWidths(cells[1..], widths[1..])
  {
    forall j | 0 <= j < |widths| - 1
      ensures |cells[1..][j]| <= widths[1..][j]
    {
      assert cells[1..][j] == cells[j + 1] && widths[1..][j] == widths[j + 1];
    }
  }

  /** The last cell of a packed line runs from the last offset to the end. */
  lemma {:induction false} PackLast(cells: seq<string>, widths: seq<nat>)
    requires FitWidths(cells, widths)
    ensures |Pack(cells, widths)| == Start(widths, |widths|) + |cells[|widths|]|
    ensures Substring(Pack(cells, widths), Start(widths, |widths|), |Pack(cells, widths)|) == cells[|widths|]
    decreases |widths|
  {
    if widths != [] {
      var head := PadRight(cells[0], widths[0]);
      var tail := Pack(cells[1..], widths[1..]);
      assert |head| == widths[0];
      assert Pack(cells, widths) == head + tail;
      FitTail(cells, widths);
      PackLast(cells[1..], widths[1..]);
      assert cells[1..][|widths| - 1] == cells[|widths|];
      assert Start(widths, |widths|) == |head| + Start(widths[1..], |widths| - 1);
      SliceShift(head, tail, Start(widths[1..], |widths| - 1), |tail|);
    } else {
      assert cells[0][0..|cells[0]|] == cells[0];
    }
  }

  /** The words a writer puts in the shared QUAL/QMM/COR column. */
  function Present(o: Option<string>): seq<string> {
    if o.Some? then [o.value] else []
  }

  function QualityText(f: StockLine): string {
    Join(Present(f.qualidade) + Present(f.qmm) + Present(f.cor), " ")
  }

  /** A weight as a writer prints it: nothing for `undefined`, `NaN`, or the
      number with a decimal comma. */
  function WeightText(w: Option<JsNumber>): string {
    match w
    case None => []
    case Some(NaN) => "NaN"
    case Some(Finite(d)) => FormatComma(d)
  }

  /** The twelve column texts of a written line, in column order. */
  datatype Row = Row(localizacao: string, codigo: string, apelidoFamilia: string,
                     qualidade: string, quantidade: string, descricaoCor: string,
                     tamanho: string, tamanhoDetalhado: string, embalagemVolume: string,
                     unidade: string, pesoLiquido: string, pesoBruto: string)

  /** The text written into column `k` of a row. */
  function Column(row: Row, k: int): string {
    if k == 0 then row.localizacao
    else if k == 1 then row.codigo
    else if k == 2 then row.apelidoFamilia
    else if k == 3 then row.qualidade
    else if k == 4 then row.quantidade
    else if k == 5 then row.descricaoCor
    else if k == 6 then row.tamanho
    else if k == 7 then row.tamanhoDetalhado
    else if k == 8 then row.embalagemVolume
    else if k == 9 then row.unidade
    else if k == 10 then row.pesoLiquido
    else row.pesoBruto
  }

  function Cells(row: Row): seq<string> {
    seq(12, k => Column(row, k))
  }

  /** What a writer puts in each column for a record. */
  function Texts(f: StockLine): Row {
    Row(f.localizacao, f.codigo, f.apelidoFamilia, QualityText(f), FormatComma(f.quantidade),
        f.descricaoCor.GetOr([]), f.tamanho.GetOr([]), f.tamanhoDetalhado.GetOr([]),
        f.embalagemVolume.GetOr([]), f.unidade, WeightText(f.pesoLiquido), WeightText(f.pesoBruto))
  }

  /** The stock line a writer produces for a record. */
  function Render(f: StockLine): string {
    Pack(Cells(Texts(f)), Widths)
  }

  /** A word: visible characters only. */
  predicate Word(s: string) {
    s != [] && NoSpace(Js, s)
  }

  /** An optional text the route can read back: absent, or non-empty with no
      whitespace at either end. */
  predicate Shown(o: Option<string>) {
    o.Some? ==> o.value != [] && IsStripped(Js, o.value)
  }

  /** A record a writer can put on a line the route reads back: every column
      fits, texts carry no outer whitespace, QUAL and QMM are single words and
      COR is the words `cs` joined by single spaces, and the record passes the
      route's validation. */
  predicate Writable(f: StockLine, cs: seq<string>) {
    && FitWidths(Cells(Texts(f)), Widths)
    && f.localizacao != [] && IsStripped(Js, f.localizacao)
    && f.codigo != [] && IsStripped(Js, f.codigo)
    && IsStripped(Js, f.apelidoFamilia)
    && f.qualidade.Some? && Word(f.qualidade.value)
    && f.qmm.Some? && Word(f.qmm.value)
    && (forall k | 0 <= k < |cs| :: Word(cs[k]))
    && f.cor == (if cs == [] then None else Some(Join(cs, " ")))
    && f.quantidade.IsPositive()
    && Shown(f.descricaoCor) && Shown(f.tamanho) && Shown(f.tamanhoDetalhado) && Shown(f.embalagemVolume)
    && f.unidade != [] && IsStripped(Js, f.unidade)
  }

  /** The route reads back every record a writer puts on a line that carries
      no header phrase: the offsets of `Fields` are the writer's columns. */
  lemma RenderParse(f: StockLine, cs: seq<string>)
    requires Writable(f, cs)
    requires !Mentions(Render(f), ParseNoise)
    ensures ParseStockLine(Render(f)) == Some(f)
  {
    var line := Render(f);
    CutColumns(f, cs);
    QualityOfText(f, cs);
    QuantityOfFormat(f.quantidade);
    ShownBack(f.descricaoCor);
    ShownBack(f.tamanho);
    ShownBack(f.tamanhoDetalhado);
    ShownBack(f.embalagemVolume);
    WeightOfText(f.pesoLiquido);
    WeightOfText(f.pesoBruto);
    assert !IsSpace(Js, line[0]);
    assert Fields(line) == f;
  }

  /** Each of the route's cuts of a written line is the column's text. */
  lemma CutColumns(f: StockLine, cs: seq<string>)
    requires Writable(f, cs)
    ensures |Render(f)| >= 155 && Render(f)[0] == f.localizacao[0]
    ensures Cut(Render(f), 0, 12) == f.localizacao
    ensures Cut(Render(f), 12, 23) == f.codigo
    ensures Cut(Render(f), 23, 50) == f.apelidoFamilia
    ensures Cut(Render(f), 50, 65) == QualityText(f)
    ensures Cut(Render(f), 65, 80) == FormatComma(f.quantidade)
    ensures Cut(Render(f), 80, 95) == f.descricaoCor.GetOr([])
    ensures Cut(Render(f), 95, 105) == f.tamanho.GetOr([])
    ensures Cut(Render(f), 105, 115) == f.tamanhoDetalhado.GetOr([])
    ensures Cut(Render(f), 115, 135) == f.embalagemVolume.GetOr([])
    ensures Cut(Render(f), 135, 140) == f.unidade
    ensures Cut(Render(f), 140, 155) == WeightText(f.pesoLiquido)
    ensures Cut(Render(f), 155, |Render(f)|) == WeightText(f.pesoBruto)
  {
    QualityTextOf(f, cs);
    QualityStripped(f.qualidade.value, f.qmm.value, cs);
    FormatCommaShape(f.quantidade);
    WeightStripped(f.pesoLiquido);
    WeightStripped(f.pesoBruto);
    PackRow(Texts(f));
  }

  /** A row whose texts are stripped and fit their columns cuts back out of
      its packing, column by column. */
  lemma PackRow(row: Row)
    requires FitWidths(Cells(row), Widths) && row.localizacao != []
    requires IsStripped(Js, row.localizacao) && IsStripped(Js, row.codigo)
    requires IsStripped(Js, row.apelidoFamilia) && IsStripped(Js, row.qualidade)
    requires IsStripped(Js, row.quantidade) && IsStripped(Js, row.descricaoCor)
    requires IsStripped(Js, row.tamanho) && IsStripped(Js, row.tamanhoDetalhado)
    requires IsStripped(Js, row.embalagemVolume) && IsStripped(Js, row.unidade)
    requires IsStripped(Js, row.pesoLiquido) && IsStripped(Js, row.pesoBruto)
    ensures var line := Pack(Cells(row), Widths);
      && |line| >= 155 && line[0] == row.localizacao[0]
      && Cut(line, 0, 12) == row.localizacao && Cut(line, 12, 23) == row.codigo
      && Cut(line, 23, 50) == row.apelidoFamilia && Cut(line, 50, 65) == row.qualidade
      && Cut(line, 65, 80) == row.quantidade && Cut(line, 80, 95) == row.descricaoCor
      && Cut(line, 95, 105) == row.tamanho && Cut(line, 105, 115) == row.tamanhoDetalhado
      && Cut(line, 115, 135) == row.embalagemVolume && Cut(line, 135, 140) == row.unidade
      && Cut(line, 140, 155) == row.pesoLiquido && Cut(line, 155, |line|) == row.pesoBruto
  {
    var cells := Cells(row);
    assert forall k | 0 <= k < |cells| :: IsStripped(Js, cells[k]);
    assert cells[0] == row.localizacao && cells[1] == row.codigo && cells[2] == row.apelidoFamilia;
    assert cells[3] == row.qualidade && cells[4] == row.quantidade && cells[5] == row.descricaoCor;
    assert cells[6] == row.tamanho && cells[7] == row.tamanhoDetalhado && cells[8] == row.embalagemVolume;
    assert cells[9] == row.unidade && cells[10] == row.pesoLiquido && cells[11] == row.pesoBruto;
    PackCuts(cells, Widths);
  }

  /** The route's cuts of packed, stripped, fitting cells give the cells. */
  lemma PackCuts(cells: seq<string>, widths: seq<nat>)
    requires widths == Widths && FitWidths(cells, widths) && cells[0] != []
    requires forall k | 0 <= k < |cells| :: IsStripped(Js, cells[k])
    ensures |Pack(cells, widths)| >= 155 && Pack(cells, widths)[0] == cells[0][0]
    ensures Cut(Pack(cells, widths), 0, 12) == cells[0]
    ensures Cut(Pack(cells, widths), 12, 23) == cells[1]
    ensures Cut(Pack(cells, widths), 23, 50) == cells[2]
    ensures Cut(Pack(cells, widths), 50, 65) == cells[3]
    ensures Cut(Pack(cells, widths), 65, 80) == cells[4]
    ensures Cut(Pack(cells, widths), 80, 95) == cells[5]
    ensures Cut(Pack(cells, widths), 95, 105) == cells[6]
    ensures Cut(Pack(cells, widths), 105, 115) == cells[7]
    ensures Cut(Pack(cells, widths), 115, 135) == cells[8]
    ensures Cut(Pack(cells, widths), 135, 140) == cells[9]
    ensures Cut(Pack(cells, widths), 140, 155) == cells[10]
    ensures Cut(Pack(cells, widths), 155, |Pack(cells, widths)|) == cells[11]
  {
    var line := Pack(cells, widths);
    Offsets();
    ColumnCut(cells, widths, 0, 0, 12);
    ColumnCut(cells, widths, 1, 12, 23);
    ColumnCut(cells, widths, 2, 23, 50);
    ColumnCut(cells, widths, 3, 50, 65);
    ColumnCut(cells, widths, 4, 65, 80);
    ColumnCut(cells, widths, 5, 80, 95);
    ColumnCut(cells, widths, 6, 95, 105);
    ColumnCut(cells, widths, 7, 105, 115);
    ColumnCut(cells, widths, 8, 115, 135);
    ColumnCut(cells, widths, 9, 135, 140);
    ColumnCut(cells, widths, 10, 140, 155);
    PackLast(cells, widths);
    assert Strip(Js, cells[11]) == cells[11];
    PackCell(cells, widths, 0);
    assert line[..12][0] == PadRight(cells[0], 12)[..|cells[0]|][0];
  }

  /** A stripped text that fits its column cuts back out of the packed line. */
  lemma ColumnCut(cells: seq<string>, widths: seq<nat>, k: nat, a: nat, b: nat)
    requires FitWidths(cells, widths) && k < |widths| && IsStripped(Js, cells[k])
    requires a == Start(widths, k) && b == Start(widths, k + 1)
    ensures Cut(Pack(cells, widths), a, b) == cells[k]
  {
    PackCell(cells, widths, k);
    StripPadRight(Js, cells[k], widths[k]);
  }

  /** An optional text that is absent or shown reads back through `||`. */
  lemma ShownBack(o: Option<string>)
    requires Shown(o)
    ensures OrUndefined(o.GetOr([])) == o
  {
  }

  lemma WeightStripped(w: Option<JsNumber>)
    ensures IsStripped(Js, WeightText(w))
  {
    if w.Some? && w.value.Finite? {
      FormatCommaShape(w.value.value);
    }
  }

  /** The shared column of a record is its words joined by single spaces. */
  lemma QualityTextOf(f: StockLine, cs: seq<string>)
    requires f.qualidade.Some? && f.qmm.Some?
    requires f.cor == (if cs == [] then None else Some(Join(cs, " ")))
    ensures QualityText(f) == Join([f.qualidade.value, f.qmm.value] + cs, " ")
  {
    var q, m := f.qualidade.value, f.qmm.value;
    if cs == [] {
      assert Present(f.qualidade) + Present(f.qmm) + Present(f.cor) == [q, m] + cs;
    } else {
      assert Present(f.qualidade) + Present(f.qmm) + Present(f.cor) == [q, m, Join(cs, " ")];
      JoinNested(q, m, cs);
    }
  }

  /** Words joined by single spaces have no outer whitespace. */
  lemma QualityStripped(q: string, m: string, cs: seq<string>)
    requires Word(q) && Word(m) && forall k | 0 <= k < |cs| :: Word(cs[k])
    ensures IsStripped(Js, Join([q, m] + cs, " "))
  {
    var parts := [q, m] + cs;
    var last := parts[|parts| - 1];
    assert Word(last);
    assert !IsSpace(Js, last[|last| - 1]);
    assert !IsSpace(Js, q[0]);
    JoinStripped(Js, parts);
  }

  /** The shared column reads back as QUAL, QMM and COR. */
  lemma QualityOfText(f: StockLine, cs: seq<string>)
    requires Writable(f, cs)
    ensures QualityBlock(QualityText(f)) == Quality(f.qualidade, f.qmm, f.cor)
  {
    QualityTextOf(f, cs);
    QualityRoundTrip(f.qualidade.value, f.qmm.value, cs);
  }

  /** Joining two words and a joined phrase is joining all the words. */
  lemma JoinNested(q: string, m: string, cs: seq<string>)
    requires cs != []
    ensures Join([q, m, Join(cs, " ")], " ") == Join([q, m] + cs, " ")
  {
    var j := Join(cs, " ");
    var all := [q, m] + cs;
    assert all[1..] == [m] + cs;
    assert ([m] + cs)[1..] == cs;
    assert Join([m] + cs, " ") == m + " " + j;
    assert Join(all, " ") == q + " " + (m + " " + j);
    assert [q, m, j][1..] == [m, j];
    assert [m, j][1..] == [j];
    assert Join([m, j], " ") == m + " " + j;
  }

  /** A quantity written with a decimal comma reads back as itself. */
  lemma QuantityOfFormat(d: Decimal)
    ensures Quantity(FormatComma(d)) == d
  {
    var t := FormatDecimal(d);
    FirstCommaBack(d);
    ParseFormat(d);
    SignedShape(d, t);
    NumeralNotSpace(t[0]);
    ParseFloatAgrees(t);
  }

  /** A written weight reads back as the weight. */
  lemma WeightOfText(w: Option<JsNumber>)
    ensures Weight(WeightText(w)) == w
  {
    match w
    case None =>
    case Some(NaN) =>
      var s := "NaN";
      assert ',' !in s;
      assert DigitRun(s, 0) == 0;
      assert NumeralPrefix(s) == [];
      ParseFloatBody(s, false, s);
    case Some(Finite(d)) =>
      var t := FormatDecimal(d);
      FirstCommaBack(d);
      ParseFormat(d);
      SignedShape(d, t);
      NumeralNotSpace(t[0]);
      ParseFloatAgrees(t);
  }

  // ---------------------------------------------------------------------
  // Classifying the lines of an upload

  /** An unparsed line is reported when it is not blank and mentions none of
      the loop's noise words. */
  predicate Reportable(line: string) {
    ParseStockLine(line).None? && !AllSpace(Js, line) && !Mentions(line, LoopNoise)
  }

  /** A reported line: its 1-based number and its first 50 characters. */
  datatype LineError = LineError(number: nat, excerpt: string)

  /** The values `f` gives the lines, in line order, skipping `None`. */
  function Collect<T>(lines: seq<string>, f: string -> Option<T>): (r: seq<T>)
    ensures |r| <= |lines|
  {
    if lines == [] then []
    else
      var prev := Collect(lines[..|lines| - 1], f);
      match f(lines[|lines| - 1])
      case Some(x) => prev + [x]
      case None => prev
  }

  /** The lines `p` picks, each as its 1-based number and its first fifty
      characters, in line order. */
  function Flag(lines: seq<string>, p: string -> bool): (r: seq<LineError>)
    ensures |r| <= |lines|
  {
    if lines == [] then []
    else
      var n := |lines|;
      var prev := Flag(lines[..n - 1], p);
      if p(lines[n - 1]) then prev + [LineError(n, Substring(lines[n - 1], 0, 50))]
      else prev
  }

  /** The records of an upload, in line order. */
  function Records(lines: seq<string>): seq<StockLine> {
    Collect(lines, ParseStockLine)
  }

  /** Every reported line of an upload, uncapped, in line order. */
  function Reported(lines: seq<string>): seq<LineError> {
    Flag(lines, Reportable)
  }

  lemma {:induction false} CollectSound<T>(lines: seq<string>, f: string -> Option<T>)
    ensures forall x | x in Collect(lines, f) :: exists i | 0 <= i < |lines| :: f(lines[i]) == Some(x)
  {
    if lines != [] {
      var init := lines[..|lines| - 1];
      CollectSound(init, f);
      forall x | x in Collect(lines, f)
        ensures exists i | 0 <= i < |lines| :: f(lines[i]) == Some(x)
      {
        if x in Collect(init, f) {
          var i :| 0 <= i < |init| && f(init[i]) == Some(x);
          assert lines[i] == init[i];
        } else {
          assert f(lines[|lines| - 1]) == Some(x);
        }
      }
    }
  }

  lemma {:induction false} CollectComplete<T>(lines: seq<string>, f: string -> Option<T>)
    ensures forall i | 0 <= i < |lines| && f(lines[i]).Some? :: f(lines[i]).value in Collect(lines, f)
  {
    if lines != [] {
      var init := lines[..|lines| - 1];
      CollectComplete(init, f);
      forall i | 0 <= i < |lines| && f(lines[i]).Some?
        ensures f(lines[i]).value in Collect(lines, f)
      {
        if i < |init| {
          assert lines[i] == init[i];
        }
      }
    }
  }

  lemma {:induction false} FlagSound(lines: seq<string>, p: string -> bool)
    ensures forall e | e in Flag(lines, p) ::
      && 1 <= e.number <= |lines|
      && p(lines[e.number - 1])
      && e.excerpt == Substring(lines[e.number - 1], 0, 50)
  {
    if lines != [] {
      var init := lines[..|lines| - 1];
      FlagSound(init, p);
      forall e | e in Flag(init, p)
        ensures lines[e.number - 1] == init[e.number - 1]
      {
      }
    }
  }

  lemma {:induction false} FlagOrdered(lines: seq<string>, p: string -> bool)
    ensures forall j, k | 0 <= j < k < |Flag(lines, p)| :: Flag(lines, p)[j].number < Flag(lines, p)[k].number
    ensures forall e | e in Flag(lines, p) :: e.number <= |lines|
  {
    if lines != [] {
      FlagOrdered(lines[..|lines| - 1], p);
    }
  }

  lemma {:induction false} FlagComplete(lines: seq<string>, p: string -> bool)
    ensures forall i | 0 <= i < |lines| && p(lines[i]) :: LineError(i + 1, Substring(lines[i], 0, 50)) in Flag(lines, p)
  {
    if lines != [] {
      var init := lines[..|lines| - 1];
      FlagComplete(init, p);
      forall i | 0 <= i < |init|
        ensures lines[i] == init[i]
      {
      }
    }
  }

  /** Each record comes from some line of the upload. */
  lemma RecordsSound(lines: seq<string>)
    ensures forall x | x in Records(lines) :: exists i | 0 <= i < |lines| :: ParseStockLine(lines[i]) == Some(x)
  {
    CollectSound(lines, ParseStockLine);
  }

  /** Each line the parser accepts contributes its record. */
  lemma RecordsComplete(lines: seq<string>)
    ensures forall i | 0 <= i < |lines| && ParseStockLine(lines[i]).Some? :: ParseStockLine(lines[i]).value in Records(lines)
  {
    CollectComplete(lines, ParseStockLine);
  }

  /** Each reported error names a reportable line by its number and quotes
      its first fifty characters. */
  lemma ReportedSound(lines: seq<string>)
    ensures forall e | e in Reported(lines) ::
      && 1 <= e.number <= |lines|
      && Reportable(lines[e.number - 1])
      && e.excerpt == Substring(lines[e.number - 1], 0, 50)
  {
    FlagSound(lines, Reportable);
  }

  /** Errors come in line order. */
  lemma ReportedOrdered(lines: seq<string>)
    ensures forall j, k | 0 <= j < k < |Reported(lines)| :: Reported(lines)[j].number < Reported(lines)[k].number
  {
    FlagOrdered(lines, Reportable);
  }

  /** Every reportable line is reported. */
  lemma ReportedComplete(lines: seq<string>)
    ensures forall i | 0 <= i < |lines| && Reportable(lines[i]) :: LineError(i + 1, Substring(lines[i], 0, 50)) in Reported(lines)
  {
    FlagComplete(lines, Reportable);
  }

  /** The route's loop over the lines: records in order, and reported lines
      numbered from 1 and capped at fifty. */
  method ClassifyLines(lines: seq<string>) returns (records: seq<StockLine>, errors: seq<LineError>)
    ensures records == Records(lines)
    ensures errors == Reported(lines)[..Min(50, |Reported(lines)|)]
    ensures |errors| <= 50
  {
    records, errors := [], [];
    var i := 0;
    while i < |lines|
      invariant 0 <= i <= |lines|
      invariant records == Collect(lines[..i], ParseStockLine)
      invariant errors == Capped(Flag(lines[..i], Reportable))
    {
      var line := lines[i];
      var dados := ParseStockLine(line);
      var listed := !AllSpace(Js, line) && !Mentions(line, LoopNoise);
      Advance(lines, i, records, errors, dados, listed);
      if dados.Some? {
        records := records + [dados.value];
      } else if listed {
        if |errors| < 50 {
          errors := errors + [LineError(i + 1, Substring(line, 0, 50))];
        }
      }
      i := i + 1;
    }
    assert lines[..i] == lines;
  }

  /** The first fifty errors. */
  function Capped(errors: seq<LineError>): (r: seq<LineError>)
    ensures |r| == Min(50, |errors|) && r == errors[..|r|]
  {
    errors[..Min(50, |errors|)]
  }

  /** One step of the route's loop, in terms of the records and the capped
      errors so far. */
  lemma Advance(lines: seq<string>, i: nat, records: seq<StockLine>, errors: seq<LineError>,
                dados: Option<StockLine>, listed: bool)
    requires i < |lines|
    requires records == Collect(lines[..i], ParseStockLine)
    requires errors == Capped(Flag(lines[..i], Reportable))
    requires dados == ParseStockLine(lines[i])
    requires listed == (!AllSpace(Js, lines[i]) && !Mentions(lines[i], LoopNoise))
    ensures Collect(lines[..i + 1], ParseStockLine) ==
      match dados case Some(x) => records + [x] case None => records
    ensures Capped(Flag(lines[..i + 1], Reportable)) ==
      if dados.None? && listed && |errors| < 50 then errors + [LineError(i + 1, Substring(lines[i], 0, 50))] else errors
  {
    var all := Flag(lines[..i], Reportable);
    StepLines(lines, i, ParseStockLine, Reportable);
    CapStep(all, Flag(lines[..i + 1], Reportable), Reportable(lines[i]), LineError(i + 1, Substring(lines[i], 0, 50)));
  }

  /** One more line extends the records and the reported lines by what that
      line gives. */
  lemma StepLines<T>(lines: seq<string>, i: nat, f: string -> Option<T>, p: string -> bool)
    requires i < |lines|
    ensures Collect(lines[..i + 1], f) ==
      match f(lines[i]) case Some(x) => Collect(lines[..i], f) + [x] case None => Collect(lines[..i], f)
    ensures Flag(lines[..i + 1], p) ==
      if p(lines[i]) then Flag(lines[..i], p) + [LineError(i + 1, Substring(lines[i], 0, 50))] else Flag(lines[..i], p)
  {
    assert lines[..i + 1][..i] == lines[..i];
  }

  /** Appending to a list appends to its first fifty while there is room. */
  lemma CapStep(all: seq<LineError>, next: seq<LineError>, grew: bool, e: LineError)
    requires next == if grew then all + [e] else all
    ensures Capped(next) == if grew && |all| < 50 then Capped(all) + [e] else Capped(all)
  {
    if grew && |all| >= 50 {
      assert next[..50] == all[..50];
    }
  }

  /** A line the parser drops as a header is never reported: each parser
      phrase starts with one of the loop's words. */
  lemma HeaderNeverReported(line: string)
    ensures Mentions(line, ParseNoise) ==> !Reportable(line)
  {
    if Mentions(line, ParseNoise) {
      var w :| w in ParseNoise && Contains(line, w);
      var k :| 0 <= k < |ParseNoise| && ParseNoise[k] == w;
      var short := [Mapeamento, Periodo, Localizac, Dashes, Total, Total][k];
      PhraseStartsWithWord(k);
      ContainsPrefixOf(line, w, |short|);
      assert short in LoopNoise;
    }
  }

  /** Parser phrase `k` starts with a loop word. */
  lemma PhraseStartsWithWord(k: nat)
    requires k < |ParseNoise|
    ensures var short := [Mapeamento, Periodo, Localizac, Dashes, Total, Total][k];
      |short| <= |ParseNoise[k]| && ParseNoise[k][..|short|] == short
  {
  }

  // ---------------------------------------------------------------------
  // The upload summary

  datatype Summary = Summary(
    totalRegistros: nat,
    registrosValidos: int,
    registrosInvalidos: nat,
    erros: seq<LineError>)

  /** The summary as the route computes it: valid records are the parsed
      ones minus the reported ones. */
  function SummaryAsWritten(records: seq<StockLine>, errors: seq<LineError>): (s: Summary)
    ensures s.totalRegistros == |records| && s.registrosInvalidos == |errors|
    ensures s.registrosValidos + s.registrosInvalidos == s.totalRegistros
    ensures |s.erros| == Min(5, |errors|) && s.erros == errors[..|s.erros|]
  {
    Summary(|records|, |records| - |errors|, |errors|, errors[..Min(5, |errors|)])
  }

  /** One unreadable line and no data: the route reports minus one valid
      record. */
  lemma NegativeValidCount(lines: seq<string>)
    requires lines == ["X"]
    ensures SummaryAsWritten(Records(lines), Reported(lines)).registrosValidos == -1
  {
    Unreadable(lines[0]);
    OneLine(lines, ParseStockLine, Reportable);
  }

  /** A one-character visible line such as "X" has no code column, so it is
      not a record, and it is too short to name a noise word, so it is
      reported. */
  lemma Unreadable(line: string)
    requires |line| == 1 && !IsSpace(Js, line[0])
    ensures ParseStockLine(line).None? && Reportable(line)
  {
    assert Substring(line, 12, 23) == [];
    NoCode(line);
    LoopNoiseLong();
    ShortMentionsNone(line, LoopNoise);
    assert !AllSpace(Js, line);
  }

  /** Every word the loop skips on is at least three characters long. */
  lemma LoopNoiseLong()
    ensures forall w | w in LoopNoise :: |w| >= 3
  {
  }

  /** A line whose code columns are blank is not a record. */
  lemma NoCode(line: string)
    requires AllSpace(Js, Substring(line, 12, 23))
    ensures ParseStockLine(line).None?
  {
    Accepts(line);
  }

  /** A line shorter than every word mentions none of them. */
  lemma ShortMentionsNone(line: string, words: seq<string>)
    requires forall w | w in words :: |w| > |line|
    ensures !Mentions(line, words)
  {
  }

  /** A one-line upload has at most that line's record and that line's
      error. */
  lemma OneLine<T>(lines: seq<string>, f: string -> Option<T>, p: string -> bool)
    requires |lines| == 1
    ensures |Collect(lines, f)| == if f(lines[0]).Some? then 1 else 0
    ensures |Flag(lines, p)| == if p(lines[0]) then 1 else 0
  {
    assert lines[..0] == [];
  }

  /** The summary with the valid count the route evidently intends: the
      parsed records, all of which passed validation. */
  function Summarize(records: seq<StockLine>, errors: seq<LineError>): (s: Summary)
    ensures s.totalRegistros == |records| && s.registrosInvalidos == |errors|
    ensures 0 <= s.registrosValidos == |records|
    ensures |s.erros| == Min(5, |errors|) && s.erros == errors[..|s.erros|]
  {
    Summary(|records|, |records|, |errors|, errors[..Min(5, |errors|)])
  }

  // ---------------------------------------------------------------------
  // Header facts and the file-name check

  const CorttexHeader := "CORTTEX IND COM IMP E EXP LTDA"
  const FatexHeader := "FATEX INDL COML IMP E EXP LTDA"

  /** The company of the first line naming one; on a line naming both,
      CORTTEX wins. */
  function Company(lines: seq<string>): (r: string)
    ensures r == "CORTTEX" || r == "FATEX" || r == "DESCONHECIDA"
  {
    if lines == [] then "DESCONHECIDA"
    else if Contains(lines[0], CorttexHeader) then "CORTTEX"
    else if Contains(lines[0], FatexHeader) then "FATEX"
    else Company(lines[1..])
  }

  predicate NamesCompany(line: string) {
    Contains(line, CorttexHeader) || Contains(line, FatexHeader)
  }

  /** The company is decided by the first line naming one. */
  lemma {:induction false} CompanyFirst(lines: seq<string>, i: nat)
    requires i < |lines| && NamesCompany(lines[i])
    requires forall j | 0 <= j < i :: !NamesCompany(lines[j])
    ensures Company(lines) == if Contains(lines[i], CorttexHeader) then "CORTTEX" else "FATEX"
  {
    if i > 0 {
      assert !NamesCompany(lines[0]);
      CompanyFirst(lines[1..], i - 1);
    }
  }

  /** The company is unknown exactly when no line names one. */
  lemma {:induction false} CompanyUnknown(lines: seq<string>)
    ensures Company(lines) == "DESCONHECIDA" <==> forall j | 0 <= j < |lines| :: !NamesCompany(lines[j])
  {
    if lines != [] {
      CompanyUnknown(lines[1..]);
      assert forall j | 1 <= j < |lines| :: lines[j] == lines[1..][j - 1];
    }
  }

  const SupportedNames: seq<string> := ["tecido01.txt", "fatex01.txt", "confec01.txt", "estsc01.txt"]

  /** The route accepts a file by its lower-cased name. */
  predicate Supported(name: string) {
    Lower(name) in SupportedNames
  }

  /** Lower-casing twice is lower-casing once, so the check ignores case. */
  lemma SupportedIgnoresCase(name: string)
    ensures Supported(Lower(name)) <==> Supported(name)
  {
    LowerTwice(name);
  }

  // ---------------------------------------------------------------------
  // The route

  datatype Response = Unsupported | Processed(empresa: string, summary: Summary)

  /** An upload: the name check, the company, then the summary of the lines
      split at '\n'. */
  method Upload(name: string, content: string) returns (r: Response)
    ensures r == Unsupported <==> !Supported(name)
    ensures r.Processed? ==> r.empresa == Company(SplitOn(content, '\n'))
    ensures r.Processed? ==>
      r.summary.totalRegistros == |Records(SplitOn(content, '\n'))| &&
      r.summary.registrosInvalidos == Min(50, |Reported(SplitOn(content, '\n'))|)
  {
    if !Supported(name) {
      return Unsupported;
    }
    var lines := SplitOn(content, '\n');
    var records, errors := ClassifyLines(lines);
    r := Processed(Company(lines), Summarize(records, errors));
  }
}
